=== FILE: README.md ===
# Polymarket dashboard: the computations behind the screens

This project models the small, deterministic computations in a React/Express
dashboard that monitors a Polymarket trading bot, and proves properties of them
in Dafny. The computations are:

- the 15-minute trading-period countdown. The dashboard computes it three ways: in the
  socket context, in the App-simple period widget and in the App-fixed market
  cards. There are also two uptime strings;
- the health-check log lists: the auto-updating list of five, and the
  filtered list with its fixed fallback and "last six, newest first" view;
- the App-fixed market transform, which merges `BTC-UP` / `BTC-DOWN` quotes
  into one card per coin;
- the Market Overview page: coin groups, spread, mid price, implied
  probability, the arbitrage summary, best bid, lowest ask, average spread and
  the active count;
- the Trade History page: profit total, wins and losses, win rate,
  group-by-market with per-market totals, best and worst market, 20-row table;
- the Bot Controls page as a state machine: the control cards' enable rules,
  the configuration dialog and the confirmation dialog;
- the socket context as a state machine driven by socket events, and its
  helpers `getMarketBySymbol`, `getTimeRemaining` and `refreshData`;
- the server's `getRealBotStatus`: the reverse scan of the health log for the
  newest status line, the regular-expression captures, the number parses with
  their defaults, and the fallback records;
- the Dashboard component's classifications (CPU colour, Active markets, log
  chips, dividers, five recent trades);
- the main entry point's data precedence (`socket || query || default`),
  field fallbacks, polling rule and refresh rule.

Every clock, random draw, file read, process check and network answer is a
parameter. Times are integer milliseconds and prices are exact `real`s.
JavaScript's truncating `%` is `Countdown.JsRem`. The `x || fallback` of a
text or a number is `Common.TextOr` / `Common.NumberOr`: an empty text, a
zero and a missing value all fall back.

Modules: `Common` (options, sequence and string helpers, decimal printing
and parsing), `Records` (the status, quote and snapshot objects several
parts share), `Countdown`, `HealthLogs`, `MarketTransform`,
`MarketOverview`, `TradeHistory`, `BotControls`, `WebSocket`,
`StatusProbe`, `Dashboard` and `AppView`.

## Model

| member | source | states |
|---|---|---|
| Common.TextOr | src/App.jsx:61-62 | `text \|\| fallback`: the text when it is non-empty, the fallback when it is missing or empty |
| Common.NumberOr | src/App.jsx:59-60 | `number \|\| fallback`: the number when it is non-zero, the fallback when it is missing (or NaN) or zero |
| Common.NumberOrZero | src/App.jsx:59-60 | with fallback 0, replacing a falsy number is the same as defaulting a missing one |
| Records.PidLabel | src/App.jsx:58 | `pid \|\| 'N/A'`: a missing PID, PID 0 and an empty text read `N/A`; any other PID prints as itself |
| Records.PidLabelNumber | src/App.jsx:58 | a numeric PID reads `N/A` exactly when it is 0 |
| Countdown.JsRem | src/contexts/WebSocketContext.jsx:86 | JavaScript `%` with a positive divisor: in [0, b) for a non-negative dividend, in (-b, 0] for a negative one |
| Countdown.MinutesSeconds | src/contexts/WebSocketContext.jsx:85-86 | for a non-negative duration the minutes are non-negative, the seconds lie in 0..59 and minutes·60 + seconds is the whole seconds; a negative duration gives negative minutes and seconds in -60..0 |
| Countdown.HoursMinutes | src/App-simple.jsx:170-171 | the same split into hours and leftover minutes |
| Countdown.WsTimeRemaining | src/contexts/WebSocketContext.jsx:77-88 | `--:--` without a period end, `00:00` once the end is reached or passed, never shorter than five characters |
| Countdown.WsPlaceholderIffNoEnd | src/contexts/WebSocketContext.jsx:78 | the placeholder appears if and only if there is no period end |
| Countdown.WsTimeRemainingDecodes | src/contexts/WebSocketContext.jsx:81-87 | the countdown reads back as `0:00` once the end is reached, and otherwise as the whole minutes and leftover seconds of end − now: never a negative time |
| Countdown.PaddedClockOfDecodes | src/contexts/WebSocketContext.jsx:85-87 | the zero-padded `MM:SS` of a non-negative duration reads back as its whole minutes and leftover seconds |
| Countdown.PlainClockFields | src/App-simple.jsx:127-129 | the `M:SS` of a non-negative duration is its unsigned minutes, a colon and the padded seconds, and reads back as those two fields |
| Countdown.PlainClock | src/App-simple.jsx:127-129 | a non-negative duration prints as its whole minutes, a colon and two-digit seconds below 60 that together make up its whole seconds; a negative one starts with a minus sign |
| Countdown.PaddedClock | src/contexts/WebSocketContext.jsx:85-87 | at least five characters; a non-negative duration prints as minutes padded to two digits, a colon and two-digit seconds below 60, together its whole seconds |
| Countdown.WsIsPadded | src/contexts/WebSocketContext.jsx:81-87 | with time left the socket countdown is the zero-padded clock of end − now |
| Countdown.WsPastDecodes | src/contexts/WebSocketContext.jsx:81-83 | once the end is reached the socket countdown reads back as zero minutes and zero seconds |
| Countdown.WsAheadDecodes | src/contexts/WebSocketContext.jsx:85-87 | with time left the socket countdown reads back as the whole minutes and leftover seconds of end − now |
| Countdown.WsTimeRemainingFields | src/contexts/WebSocketContext.jsx:85-87 | for time left, seconds in 0..59, minutes·60 + seconds = ⌊diff/1000⌋, minutes padded to at least two digits and seconds to exactly two |
| Countdown.WsMinutesMayExceedTwoDigits | src/contexts/WebSocketContext.jsx:85-87 | the minutes field is not capped: 100 minutes left reads `100:00` |
| Countdown.PeriodStartMinute | src/App-simple.jsx:102 | the period start is a multiple of 15 with start ≤ minute < start + 15 |
| Countdown.PeriodDiff | src/App-simple.jsx:102-115 | the time to the period end is positive and at most 15 minutes |
| Countdown.PeriodEndOnBoundary | src/App-simple.jsx:102-107 | the period end falls on a quarter-hour boundary within the next hour |
| Countdown.UpdatePeriod | src/App-simple.jsx:96-131 | the time shown is the `M:SS` clock of the time left to the period end |
| Countdown.UpdatePeriodInfo | src/App-simple.jsx:102-112 | before minute 45 the label runs from the period start to the minute 15 later, both in the current hour |
| Countdown.LabelLastQuarter | src/App-simple.jsx:102-112 | from minute 45 on the label runs from the hour's minute 45 to the next hour (on a 24-hour dial) with end minute 60 |
| Countdown.PeriodDiffFields | src/App-simple.jsx:102-128 | the time to the period end splits into minutes in 0..15 and seconds in 0..59 that make up its whole seconds; the minutes read 15 exactly at the first millisecond of a period |
| Countdown.UpdatePeriodRemaining | src/App-simple.jsx:115-129 | the `(next)` branch is never taken; the widget shows `M:SS` with minutes in 0..15 and seconds in 0..59, which decode to the time left; minutes read 15 only at the first millisecond of a period |
| Countdown.EndLabelSixty | src/App-simple.jsx:110-112 | as written, from minute 45 on the label runs from the hour's minute 45 to an end time made of the next hour and `:60` |
| Countdown.PeriodEndTime | src/App-simple.jsx:106-107 | the clock time the period end has: hour in 0..23, minute in 0..59, 15 minutes after the start on a 24-hour dial |
| Countdown.CorrectedEndIsClockTime | src/App-simple.jsx:110-112 | the corrected label ends in a time that reads back as the period end's clock time, and the time left is unchanged |
| Countdown.CorrectedEndLastQuarter | src/App-simple.jsx:106-111 | from minute 45 on, the corrected end is the next hour's minute 0, on a 24-hour dial |
| Countdown.LabelAgreesIffEarly | src/App-simple.jsx:106-112 | the label as written equals the corrected label exactly when the minute is below 45 |
| Countdown.FixedTimeRemaining | src/App-fixed.jsx:160-165 | an absent (undefined) period end is an invalid date and prints `NaN:NaN` |
| Countdown.FixedVersusWs | src/App-fixed.jsx:162-165 | before the end the App-fixed countdown decodes to the same fields as the socket one; after it, it starts with a minus sign where the socket one reads `00:00` |
| Countdown.FixedAheadAgrees | src/App-fixed.jsx:162-165 | before the end the App-fixed countdown decodes to the same minutes and seconds as the socket one |
| Countdown.FixedPastNegative | src/App-fixed.jsx:162-165 | after the end the App-fixed countdown starts with a minus sign while the socket one reads `00:00` |
| Countdown.FixedOneMsLate | src/App-fixed.jsx:163-165 | one millisecond late the App-fixed card reads `-1:-1` |
| Countdown.UptimeFields | src/App-simple.jsx:165-174 | after the fixed start, hours·60 + minutes is the whole minutes since the start, minutes in 0..59 |
| Countdown.Uptime | src/App-simple.jsx:165-174 | after the fixed start, the hours and leftover minutes (below 60) of the whole minutes since the start, as `Hh Mm`; before it, a leading minus sign |
| Countdown.Summary | src/App-simple.jsx:450-454 | wins + losses = trades and the win rate lies in 60..69 |
| Countdown.SummaryBounds | src/App-simple.jsx:410-454 | the trade count is non-negative exactly from 05:00 on, and then 0 ≤ wins, losses ≤ trades |
| Countdown.SessionUptimeUnnormalised | src/App-simple.jsx:403-406 | the uptime offsets are not normalised: at 11:05 the line reads `1h -24m` |
| Countdown.SessionUptime | src/App-simple.jsx:403-406 | after hour 10, an `Hh Mm` whose fields add up to the minutes since 10:29; at hour 10, the minutes since 10:29 alone; before it, the minute offset from :29 alone |
| HealthLogs.InitialLogs | src/App-simple.jsx:17-29 | exactly five entries with the given times, entry 0 at 0 % CPU, CPU in [0, 5.00] and memory in [17.50, 18.00] once rounded to two decimals, each message carrying its entry's figures |
| HealthLogs.InitialLog | src/App-simple.jsx:18-27 | one starting entry: CPU 0 for entry 0, CPU in [0, 5.00] and memory in [17.50, 18.00] after rounding, message agreeing with the fields |
| HealthLogs.CpuOf | src/App-simple.jsx:20 | `(Math.random() * 5).toFixed(2)` of a draw in [0, 1) lies in [0, 5] and has at most two decimals |
| HealthLogs.MemoryOf | src/App-simple.jsx:21 | `(17.5 + Math.random() * 0.5).toFixed(2)` of a draw in [0, 1) lies in [17.5, 18] and has at most two decimals |
| HealthLogs.FiguresReachTheirBounds | src/App-simple.jsx:20-21 | rounding lets the figures reach their upper bounds: a draw of 0.9999 reads CPU 5.00 and memory 18.00 |
| HealthLogs.NewLog | src/App-simple.jsx:39-44 | a new entry keeps the given time, and for draws in [0, 1) its fields and its message figures are in the same ranges as the initial entries |
| HealthLogs.NewLogMessageMayDisagree | src/App-simple.jsx:39-44 | a new entry's message draws its own figures, so it may disagree with the entry's fields |
| HealthLogs.AddLog | src/App-simple.jsx:46 | length min(n + 1, 5), the new entry first, then the previous entries in order |
| HealthLogs.Tick | src/App-simple.jsx:38-47 | a draw of at most 0.7 changes nothing; a draw above 0.7 puts the new entry first, followed by the newest four of the previous entries; a list of at most five stays at most five |
| HealthLogs.AddAllNewestFirst | src/App-simple.jsx:46 | after any number of additions the list is the newest five of all entries, newest first |
| HealthLogs.FilterLogs | src/App-fixed.jsx:263-272 | the result is no longer than the input and holds only surviving input entries |
| HealthLogs.FilterLogsMembership | src/App-fixed.jsx:263-272 | with `Kept` the filter callback: an entry is kept if and only if it is in the input and its message (if any) mentions neither marker |
| HealthLogs.FilterLogsAppend | src/App-fixed.jsx:263-272 | filtering distributes over concatenation, so order is preserved |
| HealthLogs.FilterLogsKeepsKept | src/App-fixed.jsx:263-272 | a list of surviving entries passes through unchanged |
| HealthLogs.FilterLogsIdempotent | src/App-fixed.jsx:263-272 | filtering twice is filtering once |
| HealthLogs.Fallback | src/App-fixed.jsx:278-285 | six entries, all HEALTHY, the first stamped with the current time |
| HealthLogs.FetchLogs | src/App-fixed.jsx:263-301 | a failed fetch or an empty filter result gives the fallback; otherwise the surviving entries; never empty |
| HealthLogs.ViewLogs | src/App-fixed.jsx:322 | min(6, n) entries, the last one first |
| HealthLogs.ViewShortIsReverse | src/App-fixed.jsx:322 | a list of at most six is shown whole and reversed |
| HealthLogs.ViewFallbackOldestFirst | src/App-fixed.jsx:278-285 | the fallback, stored newest first, is shown oldest first |
| HealthLogs.ChipTone | src/App-fixed.jsx:336 | the chip is a success if and only if the status contains `HEALTHY` |
| HealthLogs.ChipLabel | src/App-fixed.jsx:334-336 | the chip is green if and only if the status is present and the label it shows contains `HEALTHY`; the `UNKNOWN` label is never green |
| HealthLogs.RowTone | src/App-fixed.jsx:327 | the row is a success if and only if the status is exactly `HEALTHY` |
| HealthLogs.UnhealthyChipLooksHealthy | src/App-fixed.jsx:327-336 | status `UNHEALTHY` gets a success chip on an error row |
| MarketTransform.SplitContractSymbol | src/App-fixed.jsx:145 | `coin-side` splits back into its coin and side |
| MarketTransform.SymbolPrefix | src/App-fixed.jsx:145 | the first part of `symbol.split('-')`: a dash-free prefix of the symbol, followed by a dash unless it is the whole symbol |
| MarketTransform.SymbolSide | src/App-fixed.jsx:145 | the second part: missing if and only if the symbol has no dash; otherwise the dash-free text between the first dash and the next dash or the end |
| MarketTransform.PeriodOf | src/App-fixed.jsx:147 | the body's period when non-empty, `15m` when missing or empty |
| MarketTransform.ApplyShape | src/App-fixed.jsx:144-148 | one item keeps the board well formed and adds its coin, at the end of the order if new |
| MarketTransform.Apply | src/App-fixed.jsx:144-156 | one item adds its coin to the map's keys and changes no other coin's card; the order gains at most that coin at the end; an UP or DOWN side sets that side's price and change |
| MarketTransform.ApplyFields | src/App-fixed.jsx:150-156 | one item changes only its coin's card: UP sets only the UP price and change, DOWN only the DOWN ones, another side nothing |
| MarketTransform.BuildShape | src/App-fixed.jsx:143-157 | one card per distinct coin prefix, in order of first appearance |
| MarketTransform.Build | src/App-fixed.jsx:143-157 | the cards are keyed by exactly the coins of the items, with no more cards than items |
| MarketTransform.BuildLastWriterWins | src/App-fixed.jsx:150-156 | each card shows the ask and change of the last UP and the last DOWN quote for its coin |
| MarketTransform.Shown | src/App-fixed.jsx:167-171 | one shown entry per coin, in board order |
| MarketTransform.RefreshMarkets | src/App-fixed.jsx:136-178 | a failed fetch or a body without markets leaves the previous list |
| MarketTransform.RefreshMarketsShape | src/App-fixed.jsx:143-171 | after a refresh, one card per distinct coin in first-seen order, all with the shared period, time left and status `active` |
| MarketOverview.GroupOf | src/components/MarketOverview.jsx:89-92 | a group holds only markets from the list whose symbol contains the key |
| MarketOverview.GroupMembership | src/components/MarketOverview.jsx:88-93 | a market is in a group if and only if it is listed and its symbol contains the key |
| MarketOverview.GroupOfAppend | src/components/MarketOverview.jsx:89-92 | grouping distributes over concatenation, so list order is kept |
| MarketOverview.GroupsOverlap | src/components/MarketOverview.jsx:88-93 | a market may be in two groups (`BTC-ETH`) or in none (`ADA-UP`) |
| MarketOverview.Groups | src/components/MarketOverview.jsx:88-93 | the four groups BTC, ETH, SOL, XRP in that order, each the filter for its key |
| MarketOverview.RenderedGroups | src/components/MarketOverview.jsx:171 | only non-empty groups are rendered |
| MarketOverview.RenderedGroupsMembership | src/components/MarketOverview.jsx:171 | a group is rendered if and only if it is non-empty |
| MarketOverview.ImpliedProbability | src/components/MarketOverview.jsx:193 | mid·100 for a symbol containing `UP`, (1 − mid)·100 otherwise |
| MarketOverview.QuoteFigures | src/components/MarketOverview.jsx:191-193 | for `Spread` (ask − bid) and `Mid` ((bid + ask)/2): bid and ask are mid ∓ spread/2; for prices in [0, 1] with bid ≤ ask the spread is non-negative and the probability lies in [0, 100] |
| MarketOverview.ComplementaryProbabilities | src/components/MarketOverview.jsx:193 | an UP and a DOWN contract with the same mid have probabilities summing to 100 |
| MarketOverview.Arbitrage | src/components/MarketOverview.jsx:274-291 | a summary exists if and only if the group has exactly two markets, with total probability (bid₀ + bid₁)·100 |
| MarketOverview.ArbitrageMeansShortfall | src/components/MarketOverview.jsx:282-290 | the opportunity is YES if and only if the total probability is below 99 |
| MarketOverview.BestBid | src/components/MarketOverview.jsx:314 | the best bid is at least every bid and is some market's bid |
| MarketOverview.LowestAsk | src/components/MarketOverview.jsx:324 | the lowest ask is at most every ask and is some market's ask |
| MarketOverview.SumSpreadsBounds | src/components/MarketOverview.jsx:334 | spreads bounded by lo and hi sum to between n·lo and n·hi |
| MarketOverview.AverageSpread | src/components/MarketOverview.jsx:334 | the average spread is missing (NaN) if and only if the list is empty |
| MarketOverview.AverageSpreadBounds | src/components/MarketOverview.jsx:334 | the average of spreads within [lo, hi] lies in [lo, hi] |
| MarketOverview.ActiveCount | src/components/MarketOverview.jsx:344 | the active count is at most the total |
| MarketOverview.ActiveCountExtremes | src/components/MarketOverview.jsx:344 | with `IsActive` the `m.bid > 0.01` test: the count equals the total if and only if every bid is above 0.01, and is 0 if and only if none is |
| MarketOverview.InsightsOf | src/components/MarketOverview.jsx:310-345 | every figure is missing exactly for an empty list; the best bid and lowest ask are some market's and bound every other; active count ≤ total = the list length |
| MarketOverview.Render | src/components/MarketOverview.jsx:71-93 | loading shows the spinner, a missing market list the notice; a page shows only non-empty groups, one summary slot each |
| MarketOverview.RenderedGroupsAreCoinGroups | src/components/MarketOverview.jsx:88-93 | every rendered group is one of the four coin groups with exactly its markets |
| TradeHistory.TradesOf | src/components/TradeHistory.jsx:35 | the trades, or none when the history or its list is missing |
| TradeHistory.TotalOf | src/components/TradeHistory.jsx:36 | the server's total, or 0 when missing |
| TradeHistory.SumProfitSign | src/components/TradeHistory.jsx:39 | a list with no losing trade totals at least 0, one with no winning trade at most 0 |
| TradeHistory.SumProfitAppend | src/components/TradeHistory.jsx:39 | the total profit of two lists one after the other is the sum of their totals |
| TradeHistory.WinLossExclusive | src/components/TradeHistory.jsx:40-41 | no trade is both a win and a loss, and a trade is neither exactly when its profit is 0 |
| TradeHistory.CountWins | src/components/TradeHistory.jsx:40 | the number of winning trades is at most the number of trades |
| TradeHistory.CountLosses | src/components/TradeHistory.jsx:41 | the number of losing trades is at most the number of trades |
| TradeHistory.WinsAndLosses | src/components/TradeHistory.jsx:40-41 | wins + losses ≤ trades, with equality if and only if no trade broke even |
| TradeHistory.WinRate | src/components/TradeHistory.jsx:42 | 0 for a total of 0, otherwise rate·total = wins·100 |
| TradeHistory.WinRateIsPercentage | src/components/TradeHistory.jsx:42 | when the server's total covers the listed trades the rate lies in [0, 100] |
| TradeHistory.WinRateOverHundred | src/components/TradeHistory.jsx:36-42 | the denominator is the server's total, so two wins against a total of 1 give 200 % |
| TradeHistory.AverageTrade | src/components/TradeHistory.jsx:120 | missing (shown `0.00`) if and only if the total is 0; otherwise average·total = total profit |
| TradeHistory.MarketKey | src/components/TradeHistory.jsx:46 | the market when non-empty, otherwise the non-empty `Unknown` |
| TradeHistory.FindGroup | src/components/TradeHistory.jsx:47 | finds the group with the market key, or reports that none has it |
| TradeHistory.Insert | src/components/TradeHistory.jsx:46-48 | one reduce step adds at most one group and leaves every group of another market unchanged |
| TradeHistory.GroupByMarket | src/components/TradeHistory.jsx:45-50 | no more groups than trades, and no groups exactly when there are no trades |
| TradeHistory.InsertExisting | src/components/TradeHistory.jsx:47-48 | appending a trade to its existing group keeps the grouping a partition |
| TradeHistory.InsertFresh | src/components/TradeHistory.jsx:47-48 | opening a new group for a trade keeps the grouping a partition |
| TradeHistory.InsertGrouped | src/components/TradeHistory.jsx:47-48 | one reduce step keeps the grouping a partition of the trades seen |
| TradeHistory.GroupByMarketGrouped | src/components/TradeHistory.jsx:45-50 | groups have distinct markets, each holds exactly the trades with its key in order, and every key has a group |
| TradeHistory.InsertTotals | src/components/TradeHistory.jsx:45-50 | one step adds one trade and its profit to the group totals |
| TradeHistory.GroupTotals | src/components/TradeHistory.jsx:39-50 | group sizes sum to the number of trades and group profits to the total profit |
| TradeHistory.MarketWinRate | src/components/TradeHistory.jsx:234 | a market's win rate lies in [0, 100] and is 100 if and only if all its trades won |
| TradeHistory.BestMarket | src/components/TradeHistory.jsx:294-297 | none if and only if there are no groups; otherwise a group whose profit is at least every group's, strictly above every earlier one |
| TradeHistory.WorstMarket | src/components/TradeHistory.jsx:313-316 | symmetric to the best market, with the lowest profit, ties keeping the earlier group |
| TradeHistory.SingleMarketBestAndWorst | src/components/TradeHistory.jsx:294-316 | with one market it is both best and worst |
| TradeHistory.ShownRows | src/components/TradeHistory.jsx:149 | the first min(n, 20) trades in order |
| TradeHistory.RowChipPrimary | src/components/TradeHistory.jsx:160-162 | a missing market has no chip colour (the source throws); otherwise primary if and only if it contains `UP` |
| TradeHistory.BreakEvenRow | src/components/TradeHistory.jsx:201 | a zero-profit trade is labelled WIN but counted as neither a win nor a loss |
| TradeHistory.Render | src/components/TradeHistory.jsx:27-36 | loading shows the spinner; the caption counts the rows shown, at most 20; best and worst appear if and only if there are trades |
| TradeHistory.BestMarketIsAGroup | src/components/TradeHistory.jsx:281-297 | the best market shown is one of the groups and no group made more |
| BotControls.InitialConfigComplete | src/components/BotControls.jsx:48-59 | the starting configuration has a value for every field |
| BotControls.ChangeField | src/components/BotControls.jsx:61-66 | the edited field takes the new value and every other field keeps its value |
| BotControls.Disabled | src/components/BotControls.jsx:97-124 | while the bot is not running exactly restart and stop are disabled; while it runs with nothing in flight no card is |
| BotControls.AskConfirm | src/components/BotControls.jsx:75-78 | the confirmation dialog opens holding the asked action; the configuration and its dialog are untouched |
| BotControls.Execute | src/components/BotControls.jsx:80-93 | closes the dialog, clears the pending action, keeps the configuration, and emits restart for restart, stop for stop, nothing otherwise |
| BotControls.Step | src/components/BotControls.jsx:95-128 | one event emits at most one command |
| BotControls.Run | src/components/BotControls.jsx:75-128 | a run of events emits no more commands than it has events |
| BotControls.DisabledCardIgnored | src/components/BotControls.jsx:171 | a click on a disabled card changes nothing and emits nothing |
| BotControls.EmergencyStopGuard | src/components/BotControls.jsx:331-332 | the emergency stop opens the confirmation with a pending stop while the bot runs, and does nothing otherwise |
| BotControls.SaveConfigKeepsEdits | src/components/BotControls.jsx:68-73 | saving closes the configuration dialog and keeps the edited configuration |
| BotControls.CommandsNeedConfirmation | src/components/BotControls.jsx:171 | restart or stop is emitted only by confirming an open dialog holding that action; refresh only by the refresh card or the health-check button |
| BotControls.StepConsistent | src/components/BotControls.jsx:75-93 | an open confirmation dialog always holds an action |
| BotControls.CancelKeepsPending | src/components/BotControls.jsx:481-493 | cancelling closes the confirmation and keeps the pending action |
| BotControls.CancelKeepsEdits | src/components/BotControls.jsx:467-469 | cancelling the configuration dialog keeps the edits, exactly like saving |
| BotControls.StoppedBotIsNeverCommanded | src/components/BotControls.jsx:101-110 | while the bot is not running, no event sequence that starts with the confirmation dialog closed sends a restart or a stop, and the dialog stays closed |
| BotControls.AskThenConfirm | src/components/BotControls.jsx:75-93 | clicking restart and confirming sends exactly one restart and leaves nothing pending |
| WebSocket.OnEvent | src/contexts/WebSocketContext.jsx:30-56 | connect sets connected, disconnect and connect_error clear it, a market update sets the snapshot and arrival time, a status sets the status; nothing else changes |
| WebSocket.Replay | src/contexts/WebSocketContext.jsx:30-56 | nothing learnt is forgotten: a created socket, a snapshot, its arrival time and a status, once present, stay present |
| WebSocket.ReplayAppend | src/contexts/WebSocketContext.jsx:30-56 | replaying two runs one after the other is replaying their concatenation |
| WebSocket.ReplayKeepsLatest | src/contexts/WebSocketContext.jsx:35-39 | a snapshot and its arrival time stay until the next snapshot, whatever else arrives |
| WebSocket.ConnectionEventsKeepData | src/contexts/WebSocketContext.jsx:30-54 | connection events never lose data and leave the context connected exactly when the last one was a connect |
| WebSocket.FindSymbol | src/contexts/WebSocketContext.jsx:75 | the first index whose symbol is exactly the one asked for, or none when no symbol equals it |
| WebSocket.MarketBySymbol | src/contexts/WebSocketContext.jsx:73-76 | `null` if and only if there is no market list; a found market carries the symbol and is listed |
| WebSocket.MarketBySymbolComplete | src/contexts/WebSocketContext.jsx:73-76 | a market is found if and only if some listed market has the symbol, and it is the first such |
| WebSocket.TimeRemaining | src/contexts/WebSocketContext.jsx:77-88 | a missing snapshot, a missing end or an end of 0 gives `--:--`; otherwise the socket countdown |
| WebSocket.RefreshRequests | src/contexts/WebSocketContext.jsx:89-94 | both requests in order if and only if a socket exists and is connected, otherwise none |
| WebSocket.NoRefreshAfterDisconnect | src/contexts/WebSocketContext.jsx:46-54 | right after a disconnect or connection error a refresh sends nothing |
| StatusProbe.SkipSpace | backend/server_fixed.js:27-28 | the greedy `\s*` run: every skipped character is whitespace and the next one is not |
| StatusProbe.RunEnd | backend/server_fixed.js:27-29 | the greedy `\d+` / `[\d.]+` run: every character is in the class and the next one is not |
| StatusProbe.RunEndIs | backend/server_fixed.js:27-29 | a run is determined by where it stops |
| StatusProbe.MatchAtShape | backend/server_fixed.js:27-29 | `MatchAt`: a match at a position has the label there and a non-empty capture of class characters |
| StatusProbe.SearchLeftmost | backend/server_fixed.js:27-29 | `Search`: no match if and only if the pattern matches nowhere; otherwise the leftmost match |
| StatusProbe.Match | backend/server_fixed.js:27-29 | a capture is a non-empty run of class characters |
| StatusProbe.SearchCapture | backend/server_fixed.js:27-29 | the capture found is the one at the leftmost matching position |
| StatusProbe.ParseDecimal | backend/server_fixed.js:32-33 | `parseFloat` of a digits-and-dots capture is non-negative, and a number whenever the text starts with a digit |
| StatusProbe.ParseDecimalOfNat | backend/server_fixed.js:32-33 | an integer's digits parse to its value |
| StatusProbe.ParseDecimalDot | backend/server_fixed.js:32-33 | a lone dot is NaN |
| StatusProbe.ParseDecimalSecondDot | backend/server_fixed.js:32-33 | the parse stops at a second dot: `1.2.3` is 1.2 |
| StatusProbe.ParseDecimalLeadingDot | backend/server_fixed.js:32-33 | `.5` is 0.5 |
| StatusProbe.FractionValue | backend/server_fixed.js:32 | the value of the digits after the point: non-negative, and times 10 to the number of digits it is the digits read as a whole number |
| StatusProbe.ParseDecimalOfParts | backend/server_fixed.js:32 | digits, a point and digits parse to the whole part plus the fraction's value |
| StatusProbe.ParseDecimalOfFraction | backend/server_fixed.js:32 | a number's digits, a point and any digits parse to the number plus the fraction's value |
| Common.RoundCents | backend/server_fixed.js:47 | rounding to cents moves the value by at most half a cent and leaves a whole number of cents |
| Common.RoundCentsOfCents | backend/server_fixed.js:47 | a whole number of cents is unchanged |
| Common.RoundCentsBetween | src/App-simple.jsx:20-21 | a value between two whole numbers of cents rounds to a value between them |
| StatusProbe.MemoryOf | backend/server_fixed.js:28-32 | without a memory match the default 16.93 MB |
| StatusProbe.CpuOf | backend/server_fixed.js:29-33 | without a CPU match 0 |
| StatusProbe.PidOf | backend/server_fixed.js:27-31 | without a PID match the default 34612 |
| StatusProbe.RoundedMemory | backend/server_fixed.js:47 | NaN stays NaN; any number becomes a whole number of cents at most half a cent away |
| StatusProbe.StatusFromLine | backend/server_fixed.js:27-52 | the PID read from the line, running as the process check answers, health HEALTHY if and only if running (else STOPPED), CPU and rounded memory from the line |
| StatusProbe.Fallback | backend/server_fixed.js:57-82 | running exactly when the bot's name is found, then PID 34612 and 16.93 MB and HEALTHY; otherwise PID `N/A`, 0 MB, STOPPED |
| StatusProbe.ErrorStatus | backend/server_fixed.js:84-95 | not running, PID `N/A`, health ERROR |
| StatusProbe.LastStatusLine | backend/server_fixed.js:23-26 | with `IsStatusLine` the line test: the last line mentioning `PID:` or `Memory:`, none if and only if no line does |
| StatusProbe.NewestStatusLine | backend/server_fixed.js:23-26 | the scan over the reversed lines stops at the newest status line |
| StatusProbe.GetRealBotStatus | backend/server_fixed.js:17-97 | the probe reports the status read from the newest status line, the fallback without one, the error record for an unreadable log; running if and only if HEALTHY |
| StatusProbe.LastStatusLineIs | backend/server_fixed.js:23-26 | a status line with none after it is the newest |
| StatusProbe.ProbeLinesAreTheLog | backend/server_fixed.js:23 | the lines the scan walks join back into the log |
| StatusProbe.PidRoundTrip | backend/server_fixed.js:27-31 | a line `PID: n` reports PID n |
| StatusProbe.MemoryCapture | backend/server_fixed.js:28 | the capture of `Memory: n MB` is the digits of n |
| StatusProbe.WholeMegabytesUnrounded | backend/server_fixed.js:47 | a whole number of megabytes is not changed by rounding |
| StatusProbe.MemoryRoundTrip | backend/server_fixed.js:28-47 | a line `Memory: n MB` reports n megabytes |
| StatusProbe.MemoryCaptureOf | backend/server_fixed.js:28 | the capture of `Memory: d MB` is d for any run of digits and dots |
| StatusProbe.CpuCaptureOf | backend/server_fixed.js:29 | the capture of `CPU: d%` is d for any run of digits and dots |
| StatusProbe.CpuRoundTrip | backend/server_fixed.js:29-33 | a line `CPU: n%` reports n percent |
| StatusProbe.CentsMemoryOf | backend/server_fixed.js:28-32 | a line `Memory: a.cc MB` gives a + cc/100 megabytes before rounding |
| StatusProbe.CentsUnrounded | backend/server_fixed.js:47 | a + cc/100 is not changed by rounding to cents |
| StatusProbe.MemoryRoundTripCents | backend/server_fixed.js:28-47 | a line `Memory: a.cc MB` with two fraction digits reports exactly a + cc/100 megabytes |
| StatusProbe.ToRecord | backend/server_fixed.js:43-52 | the record the dashboard receives carries every field of the server's status |
| Dashboard.IsRunning | src/components/Dashboard.jsx:60-61 | running if and only if the status says so |
| Dashboard.CpuShown | src/components/Dashboard.jsx:83-87 | the CPU figure, or 0 when the status or the figure is missing |
| Dashboard.MemoryShown | src/components/Dashboard.jsx:102 | the memory figure, or 0 when missing |
| Dashboard.CpuColor | src/components/Dashboard.jsx:88 | error if and only if above 80, warning if and only if in (50, 80], primary otherwise, including a missing figure |
| Dashboard.CpuColorMonotone | src/components/Dashboard.jsx:88 | a higher CPU never gets a milder colour |
| Dashboard.ActiveThresholds | src/components/Dashboard.jsx:182-184 | `Dashboard.IsActive`: a market Active here (bid > 0.5) is active on the overview page, but not conversely |
| Dashboard.ChangeSign | src/components/Dashboard.jsx:176 | `+` if and only if the change is not negative |
| Dashboard.ShownTrades | src/components/Dashboard.jsx:224 | the first min(n, 5) trades in order |
| Dashboard.ShownTradesTopOfHistory | src/components/Dashboard.jsx:224 | the dashboard's trades are the top five rows of the Trade History table |
| Dashboard.RecentCount | src/components/Dashboard.jsx:119 | the number of listed trades, 0 when missing |
| Dashboard.UpperChar | src/components/Dashboard.jsx:274 | an ASCII lower-case letter becomes its capital, anything else is unchanged |
| Dashboard.Upper | src/components/Dashboard.jsx:274 | upper-casing maps every character and keeps the length |
| Dashboard.UpperIdempotent | src/components/Dashboard.jsx:274 | upper-casing twice is upper-casing once |
| Dashboard.LogChip | src/components/Dashboard.jsx:274-276 | the upper-cased level, coloured error if and only if the level is `error`, warning if and only if `warning`, default otherwise |
| Dashboard.UpperLevelUncoloured | src/components/Dashboard.jsx:274-276 | level `ERROR` shows `ERROR` but is not coloured |
| Dashboard.Dividers | src/components/Dashboard.jsx:283 | a divider follows an entry if and only if it is not the last |
| Dashboard.DividerCount | src/components/Dashboard.jsx:283 | n entries have n − 1 dividers |
| Dashboard.CountPrefixTrue | src/components/Dashboard.jsx:283 | flags true exactly before k count k |
| Dashboard.LogsViewOf | src/components/Dashboard.jsx:265-288 | the notice if and only if there are no logs; otherwise one chip and one divider flag per entry |
| Dashboard.Render | src/components/Dashboard.jsx:32-38 | loading overrides everything; otherwise the figures with their fallbacks, at most five trades, and a market table if and only if there are markets |
| Dashboard.FromServerRecord | src/components/Dashboard.jsx:83-102 | the server's status record has no `cpuPercent` or `memoryMB` field |
| Dashboard.ServerRecordShowsZero | src/components/Dashboard.jsx:83-102 | fed the server's record, the component shows 0 % CPU, 0 MB and a primary bar |
| AppView.DisplayData | src/App.jsx:47-55 | the socket's status if present, else the query's, else the fixed default |
| AppView.Card | src/App.jsx:57-130 | running if and only if the record says so, CPU and memory default to 0, warning if and only if CPU > 20, bar capped at 100, health label defaults to HEALTHY, success if and only if health is exactly HEALTHY |
| AppView.MissingHealthLooksHealthyInRed | src/App.jsx:129-130 | a record without health reads HEALTHY in the error colour |
| AppView.FallbacksShowHealthyBot | src/App.jsx:31-55 | before data arrives, and with the query's fallback, the card shows a running healthy bot with PID 34612 |
| AppView.Refresh | src/App.jsx:146-148 | disabled if and only if disconnected; the caption depends only on the connection |
| AppView.RefreshClick | src/App.jsx:139-146 | a click does something if and only if the button is enabled, then it sends the socket's requests and refetches |
| AppView.RefreshClickSendsBoth | src/App.jsx:141-146 | with a connected socket a click sends both requests |
| AppView.ShownLogs | src/App.jsx:158-179 | the query's six entries once resolved, the four placeholders before |
| AppView.ShownLogsAllHealthy | src/App.jsx:191-200 | every entry the list can show is a healthy row |
| AppView.MarketQuery | src/App.jsx:238-239 | the query is enabled if and only if disconnected, and then polls every 5000 ms |
| AppView.AsSnapshot | src/App.jsx:228-235 | the fallback market list has no `markets` property |
| AppView.OverviewInput | src/App.jsx:260-286 | loading if and only if the query loads and no socket data exists; socket data wins over query data |
| AppView.SocketDataWins | src/App.jsx:260 | with socket data the overview page is the same whatever the query holds |
| AppView.FallbackMarketsNeverShown | src/App.jsx:228-235 | without socket data the query's fallback list gives the no-data notice (or the spinner) |
| AppView.AsHistory | src/App.jsx:247-253 | the fallback trade list has no `trades` or `total` property |
| AppView.FallbackTradesNeverShown | src/App.jsx:247-253 | the fallback trades give an empty table with a total of 0 and no best market |

## Left out

- I/O is left out: `fetch`, `axios`, socket.io connection and reconnection, `fs.existsSync` / `readFileSync`, `execSync` with `tasklist`, CSV download, `alert`. Each answer is a parameter: the fetch outcome, the log file's state, the process check (`alive`) and the name check (`nameFound`).
- Timers and scheduling are left out: `setInterval`, React Query refetching, hook lifecycles. One update step is modelled, not when steps happen.
- Randomness is left out. Each `Math.random()` draw is an argument in [0, 1).
- The clock, time zone, DST and locale formatting are left out: `new Date`, `toLocaleTimeString`, `toISOString`. Times are integer milliseconds or hour/minute/second fields, and formatted times are given strings.
- Invalid dates are left out, except that an absent (undefined) App-fixed period end prints `NaN:NaN`. A period end is an already parsed number of milliseconds.
- Countdown.FixedTimeRemaining: a `periodEnd` of `null` is not modelled. `new Date(null)` is the epoch, 0 ms, so the card would print a large negative countdown; the model treats every missing end as absent.
- Floating point is left out. Prices, profits and rates are exact reals. `Math.round(x*100)/100`, and the value that `toFixed(2)` prints, are both ⌊100x + ½⌋/100 over the reals (`Common.RoundCents`); the string form of `toFixed` is not modelled, and neither is its rounding of the binary double rather than the decimal. `parseFloat` is the exact decimal, and NaN is a missing value.
- StatusProbe.PidOf: `parseInt` of more than 2^53 is not rounded, because integers are unbounded.
- JavaScript object key order and prototype keys are left out. The App-fixed market map and the Trade History groups keep first-insertion order. In JavaScript, integer-like keys (a symbol such as `123`) would be listed first, and keys such as `constructor` would hit the prototype. Neither occurs for coin names or market names.
- Dashboard.UpperChar: `toUpperCase` is modelled for ASCII letters only.
- The logging side effects are left out: `console.log` in `handleSaveConfig` and the `console.warn` calls.
- The confirmation dialog's wording is left out, as is all other rendering: layout, styling, icons, the injected CSS of the Market Overview, and `LinearProgress` values beyond the capped CPU bar.
- The `/api/markets`, `/api/trades` and other endpoints of backend/server_fixed.js are not part of this model: they return fixed literals. railway_backend/server.js, vite.config.js and vite.config.railway.js are not part of this model either.
- The Dashboard component is not mounted by any entry point. It reads `cpuPercent` and `memoryMB`, while the server sends `cpu` and `memory_mb`. This is stated by Dashboard.ServerRecordShowsZero rather than corrected.
- Countdown.Summary: the App-simple average-profit line (`totalProfit / currentTrades`) is left out, because it is floating-point text.
- HealthLogs.Tick: the guard draw is taken as any real. The model does not rely on it lying in [0, 1).
- TradeHistory.RowChipPrimary: a trade without a market makes the source throw. The model reports no colour rather than modelling the exception.
- MarketOverview.BestBid and MarketOverview.LowestAsk: for an empty list, `Math.max()` / `Math.min()` give ∓Infinity. The model reports a missing value there.

## Findings

| source | as written | input that shows it | evidently intended | confidence | as-written member | corrected member |
|---|---|---|---|---|---|---|
| src/App-simple.jsx:111 | the end of the period label prints the end minute `periodStartMinute + 15` itself, next to the hour of the rolled-over end date | any time from hh:45 on, e.g. 10:50, gives `Current period: 10:45 - 11:60 WIB` | the end's own clock time, `11:00` | high; not executed | Countdown.EndLabelSixty (on Countdown.UpdatePeriod) | Countdown.CorrectedEndIsClockTime and Countdown.CorrectedEndLastQuarter (on Countdown.CorrectedUpdatePeriod and Countdown.PeriodEndTime) |

=== FILE: app_view.dfy ===
/** The main entry point's pieces: the bot status card with its data
    precedence and field fallbacks, the health-check list, and the market and
    trade queries that feed the Market Overview and Trade History pages. */
module AppView {
  import opened Common
  import opened Records
  import WebSocket
  import MarketOverview
  import TradeHistory
  import HealthLogs

  // ---------------------------------------------------------------------------
  // Bot status card

  /** What the status query returns when the static file cannot be fetched. */
  const ApiFallbackStatus: StatusRecord := StatusRecord(
    Some(true), Some(PidNumber(34612)), Some(0.0), Some(17.33),
    Some("58+ minutes"), Some("No recent trades"), Some("HEALTHY"))

  /** What the card shows before either source has answered. */
  const DefaultStatus: StatusRecord := StatusRecord(
    Some(true), Some(PidNumber(34612)), Some(0.0), Some(17.46),
    Some("50+ minutes"), Some("No recent trades"), Some("HEALTHY"))

  /** `botStatus || apiData || default`: the socket's record wins, then the
      query's. */
  function DisplayData(ws: Option<StatusRecord>, api: Option<StatusRecord>): (d: StatusRecord)
    ensures ws.Some? ==> d == ws.value
    ensures ws.None? && api.Some? ==> d == api.value
    ensures ws.None? && api.None? ==> d == DefaultStatus
  {
    match ws
    case Some(r) => r
    case None => api.GetOr(DefaultStatus)
  }

  datatype Tone = Success | Warning | Error

  /** The figures the card shows. */
  datatype StatusCard = StatusCard(
    live: bool,
    running: bool,
    pid: string,
    cpu: real,
    cpuTone: Tone,
    cpuBar: real,
    memory: real,
    uptime: string,
    lastTrade: string,
    healthLabel: string,
    healthTone: Tone)

  /** The card for a displayed record: every field falls back with `||`, the
      health label defaults to `HEALTHY`, but only an actual `HEALTHY` is
      coloured as a success. */
  function Card(connected: bool, d: StatusRecord): (c: StatusCard)
    ensures c.running <==> d.running == Some(true)
    ensures c.cpu == d.cpu.GetOr(0.0) && c.memory == d.memoryMb.GetOr(0.0)
    ensures c.cpuTone == Warning <==> c.cpu > 20.0
    ensures c.cpuBar <= 100.0 && (c.cpu <= 100.0 ==> c.cpuBar == c.cpu)
    ensures c.healthTone == Success <==> d.health == Some("HEALTHY")
    ensures c.healthLabel == TextOr(d.health, "HEALTHY")
  {
    var cpu := NumberOr(d.cpu, 0.0);
    StatusCard(
      connected,
      d.running == Some(true),
      PidLabel(d.pid),
      cpu,
      if cpu > 20.0 then Warning else Success,
      if cpu <= 100.0 then cpu else 100.0,
      NumberOr(d.memoryMb, 0.0),
      TextOr(d.uptime, "Unknown"),
      TextOr(d.lastTrade, "No recent trades"),
      TextOr(d.health, "HEALTHY"),
      if d.health == Some("HEALTHY") then Success else Error)
  }

  /** A record without a health field reads HEALTHY in the error colour. */
  lemma MissingHealthLooksHealthyInRed(d: StatusRecord, connected: bool)
    requires d.health.None?
    ensures Card(connected, d).healthLabel == "HEALTHY" && Card(connected, d).healthTone == Error
  {
  }

  /** Before any data, and with the query's own fallback, the card shows a
      running, healthy bot with PID 34612. */
  lemma FallbacksShowHealthyBot(connected: bool, api: Option<StatusRecord>)
    requires api.None? || api == Some(ApiFallbackStatus)
    ensures var c := Card(connected, DisplayData(None, api));
      c.running && c.pid == "34612" && c.healthTone == Success && c.cpuTone == Success
  {
    assert ShowNat(34612) == "34612" by {
      assert ShowNat(3) == "3";
      assert ShowNat(34) == "34";
      assert ShowNat(346) == "346";
      assert ShowNat(3461) == "3461";
    }
  }

  /** The refresh button: enabled only while connected, and then it sends the
      socket's refresh requests and refetches the query. */
  datatype RefreshButton = RefreshButton(disabled: bool, caption: string)

  function Refresh(connected: bool): (b: RefreshButton)
    ensures b.disabled <==> !connected
    ensures b.caption == (if connected then "Live Refresh" else "Poll Refresh")
  {
    RefreshButton(!connected, if connected then "Live Refresh" else "Poll Refresh")
  }

  /** A click on an enabled button: the socket requests and a refetch. */
  function RefreshClick(c: WebSocket.Context): (r: Option<(seq<string>, bool)>)
    ensures r.None? <==> Refresh(c.connected).disabled
    ensures r.Some? ==> r.value.0 == WebSocket.RefreshRequests(c) && r.value.1
  {
    if Refresh(c.connected).disabled then None else Some((WebSocket.RefreshRequests(c), true))
  }

  /** Whenever the button can be clicked and the socket exists, both socket
      requests go out. */
  lemma RefreshClickSendsBoth(c: WebSocket.Context)
    requires c.connected && c.socketPresent
    ensures RefreshClick(c) == Some((["request:markets", "request:status"], true))
  {
  }

  // ---------------------------------------------------------------------------
  // Health checks

  function Entry(time: string, message: string): HealthLogs.HealthLog {
    HealthLogs.HealthLog(time, Some("HEALTHY"), Some(message))
  }

  /** What the health-log query resolves to. */
  const QueryLogs: seq<HealthLogs.HealthLog> := [
    Entry("17:08:05", "Bot running, CPU 0%, Memory 17.33MB"),
    Entry("17:06:05", "Bot running, CPU 0%, Memory 17.24MB"),
    Entry("17:04:05", "Bot running, CPU 0%, Memory 17.46MB"),
    Entry("17:02:05", "Bot running, CPU 0%, Memory 17.46MB"),
    Entry("17:00:05", "Bot running, CPU 0%, Memory 17.46MB"),
    Entry("16:58:05", "Bot running, CPU 0%, Memory 17.64MB")]

  /** What the list shows before the query has resolved. */
  const PlaceholderLogs: seq<HealthLogs.HealthLog> := [
    Entry("11:39:05", "Bot running, CPU 17.5%"),
    Entry("11:37:05", "Bot running, CPU 17.0%"),
    Entry("11:35:05", "Bot running, CPU 16.9%"),
    Entry("11:33:05", "Bot running, CPU 16.8%")]

  /** `data?.logs || placeholders`. */
  function ShownLogs(resolved: bool): (ls: seq<HealthLogs.HealthLog>)
    ensures resolved ==> ls == QueryLogs
    ensures !resolved ==> ls == PlaceholderLogs
  {
    if resolved then QueryLogs else PlaceholderLogs
  }

  /** Every entry the list can show is a healthy row. */
  lemma ShownLogsAllHealthy(resolved: bool)
    ensures forall i :: 0 <= i < |ShownLogs(resolved)| ==> HealthLogs.RowTone(ShownLogs(resolved)[i]) == HealthLogs.Success
  {
  }

  // ---------------------------------------------------------------------------
  // Market and trade queries

  /** The market query polls only while the socket is down. */
  datatype QueryOptions = QueryOptions(enabled: bool, refetchIntervalMs: Option<nat>)

  function MarketQuery(connected: bool): (q: QueryOptions)
    ensures q.enabled <==> !connected
    ensures q.refetchIntervalMs.Some? <==> !connected
    ensures q.refetchIntervalMs.Some? ==> q.refetchIntervalMs.value == 5000
  {
    QueryOptions(!connected, if connected then None else Some(5000))
  }

  /** A fallback market entry, a different shape from a quote. */
  datatype FallbackMarket = FallbackMarket(symbol: string, price: real, change: string, timeRemaining: string)

  /** What the market query returns: the static file's snapshot, or, when it
      cannot be fetched, a bare list. */
  datatype MarketsResponse = SnapshotFile(snapshot: MarketSnapshot) | FallbackMarkets(list: seq<FallbackMarket>)

  const FallbackMarketList: seq<FallbackMarket> := [
    FallbackMarket("BTC Up", 0.001, "-99.9%", "1:00"),
    FallbackMarket("BTC Down", 0.998, "-0.2%", "1:00"),
    FallbackMarket("ETH Up", 0.002, "-99.8%", "1:00"),
    FallbackMarket("ETH Down", 0.995, "-0.5%", "1:00")]

  /** The object the Market Overview page reads: a list has no `markets`,
      `period` or `periodEnd` property. */
  function AsSnapshot(r: MarketsResponse): (s: MarketSnapshot)
    ensures r.FallbackMarkets? ==> s.markets.None?
  {
    match r
    case SnapshotFile(s) => s
    case FallbackMarkets(_) => MarketSnapshot(None, None, None, None)
  }

  /** `marketData || apiMarketData`, and the page's loading flag: loading only
      while the query loads and the socket has delivered nothing. */
  function OverviewInput(ws: Option<MarketSnapshot>, api: Option<MarketsResponse>, queryLoading: bool): (r: (bool, Option<MarketSnapshot>))
    ensures r.0 <==> queryLoading && ws.None?
    ensures ws.Some? ==> r.1 == ws
    ensures ws.None? && api.Some? ==> r.1 == Some(AsSnapshot(api.value))
    ensures ws.None? && api.None? ==> r.1.None?
  {
    (queryLoading && ws.None?,
     match ws
     case Some(s) => Some(s)
     case None => match api case Some(a) => Some(AsSnapshot(a)) case None => None)
  }

  /** Pushed data takes precedence over whatever the query holds. */
  lemma SocketDataWins(ws: MarketSnapshot, api: Option<MarketsResponse>, queryLoading: bool)
    ensures var i := OverviewInput(Some(ws), api, queryLoading);
      MarketOverview.Render(i.0, i.1) == MarketOverview.Render(false, Some(ws))
  {
  }

  /** The query's fallback list never reaches the page as markets: without
      socket data the page shows its no-data notice. */
  lemma FallbackMarketsNeverShown(queryLoading: bool)
    ensures var i := OverviewInput(None, Some(FallbackMarkets(FallbackMarketList)), queryLoading);
      MarketOverview.Render(i.0, i.1) == (if queryLoading then MarketOverview.Spinner else MarketOverview.NoData)
  {
  }

  /** A fallback trade entry, with the profit as signed text. */
  datatype FallbackTrade = FallbackTrade(id: nat, market: string, side: string, price: real, shares: real, pnl: string, time: string)

  datatype TradesResponse = TradesFile(history: TradeHistory.History) | FallbackTrades(list: seq<FallbackTrade>)

  const FallbackTradeList: seq<FallbackTrade> := [
    FallbackTrade(1, "ETH Up", "BUY", 0.88, 2.317, "+0.28", "16:20"),
    FallbackTrade(2, "BTC Up", "BUY", 0.94, 2.041, "-1.92", "16:22"),
    FallbackTrade(3, "BTC Down", "BUY", 0.91, 2.218, "-2.02", "16:25")]

  /** The object the Trade History page reads: a list has no `trades` or
      `total` property. */
  function AsHistory(r: TradesResponse): (h: TradeHistory.History)
    ensures r.FallbackTrades? ==> h.trades.None? && h.total.None?
  {
    match r
    case TradesFile(h) => h
    case FallbackTrades(_) => TradeHistory.History(None, None, None)
  }

  /** The fallback trades never reach the table: the page shows no rows and a
      total of zero. */
  lemma FallbackTradesNeverShown()
    ensures var v := TradeHistory.Render(false, Some(AsHistory(FallbackTrades(FallbackTradeList))));
      v.Page? && v.rows == [] && v.totalTrades == 0 && v.best.None?
  {
  }
}

=== FILE: bot_controls.dfy ===
/** The Bot Controls page as a state machine: the control cards, the
    configuration dialog, and the confirmation dialog that guards restarting
    and stopping the bot. */
module BotControls {
  import opened Common

  /** The configuration fields the dialog edits. */
  datatype Field =
    | TriggerPrice | MaxBuyPrice | SellPrice | StopLossPrice | FixedTradeAmount
    | EnableBtcTrading | EnableEthTrading | MinElapsedMinutes | MinTimeRemainingSeconds
    | UseMarketOrdersForSell

  /** A field's value: a number (`None` is the NaN an unparsable text field
      gives) or a switch. */
  datatype Value = Number(n: Option<real>) | Flag(on: bool)

  type Config = map<Field, Value>

  /** The configuration the page starts with. */
  const InitialConfig: Config := map[
    TriggerPrice := Number(Some(0.82)),
    MaxBuyPrice := Number(Some(0.91)),
    SellPrice := Number(Some(0.96)),
    StopLossPrice := Number(Some(0.75)),
    FixedTradeAmount := Number(Some(5.5)),
    EnableBtcTrading := Flag(true),
    EnableEthTrading := Flag(true),
    MinElapsedMinutes := Number(Some(8.0)),
    MinTimeRemainingSeconds := Number(Some(240.0)),
    UseMarketOrdersForSell := Flag(false)]

  /** Every field has a value. */
  lemma InitialConfigComplete(f: Field)
    ensures f in InitialConfig
  {
  }

  /** `handleConfigChange`: replace one field, keep the others. */
  function ChangeField(config: Config, f: Field, v: Value): (r: Config)
    ensures r.Keys == config.Keys + {f}
    ensures f in r && r[f] == v
    ensures forall g :: g in config && g != f ==> g in r && r[g] == config[g]
  {
    config[f := v]
  }

  /** The action waiting for confirmation. */
  datatype Action = RestartAction | StopAction

  /** What the page asks its parent to do. */
  datatype Effect = Restart | Stop | Refresh

  /** What the parent passes in: `botStatus?.running` read as a flag, and
      whether a restart or a stop is in flight. */
  datatype Props = Props(running: bool, isRestarting: bool, isStopping: bool)

  datatype State = State(configOpen: bool, confirmOpen: bool, pending: Option<Action>, config: Config)

  const Initial: State := State(false, false, None, InitialConfig)

  /** The four control cards, in page order. */
  datatype Card = RestartCard | StopCard | RefreshCard | EditConfigCard

  /** Restart and stop are disabled while in flight or while the bot is not
      running; refresh and edit are never disabled. */
  predicate Disabled(p: Props, c: Card)
    ensures !p.running ==> (Disabled(p, c) <==> c == RestartCard || c == StopCard)
    ensures p.running && !p.isRestarting && !p.isStopping ==> !Disabled(p, c)
  {
    match c
    case RestartCard => p.isRestarting || !p.running
    case StopCard => p.isStopping || !p.running
    case RefreshCard => false
    case EditConfigCard => false
  }

  datatype Event =
    | ClickCard(card: Card)
    | ClickEditConfig          // the button on the configuration summary
    | ClickHealthCheck
    | ClickEmergencyStop
    | Edit(field: Field, value: Value)
    | SaveConfig
    | CloseConfig              // the Cancel button and the dialog's own close
    | CloseConfirm             // the Cancel button and the dialog's own close
    | Confirm

  /** `handleConfirmAction`. */
  function AskConfirm(s: State, a: Action): (r: State)
    ensures r.confirmOpen && r.pending == Some(a)
    ensures r.config == s.config && r.configOpen == s.configOpen
  {
    s.(pending := Some(a), confirmOpen := true)
  }

  /** `handleExecuteAction`: close the dialog, emit the pending command, and
      forget it. */
  function Execute(s: State): (r: (State, seq<Effect>))
    ensures !r.0.confirmOpen && r.0.pending.None? && r.0.config == s.config && r.0.configOpen == s.configOpen
    ensures r.1 == (match s.pending case Some(RestartAction) => [Restart] case Some(StopAction) => [Stop] case None => [])
  {
    var effects := match s.pending
      case Some(RestartAction) => [Restart]
      case Some(StopAction) => [Stop]
      case None => [];
    (s.(confirmOpen := false, pending := None), effects)
  }

  /** One event. A click on a disabled card does nothing, and the controls
      of a closed dialog are not on the page, so events for them change
      nothing. */
  function Step(p: Props, s: State, e: Event): (r: (State, seq<Effect>))
    ensures |r.1| <= 1
  {
    match e
    case ClickCard(c) =>
      if Disabled(p, c) then (s, [])
      else (match c
        case RestartCard => (AskConfirm(s, RestartAction), [])
        case StopCard => (AskConfirm(s, StopAction), [])
        case RefreshCard => (s, [Refresh])
        case EditConfigCard => (s.(configOpen := true), []))
    case ClickEditConfig => (s.(configOpen := true), [])
    case ClickHealthCheck => (s, [Refresh])
    case ClickEmergencyStop => if p.running then (AskConfirm(s, StopAction), []) else (s, [])
    case Edit(f, v) => if s.configOpen then (s.(config := ChangeField(s.config, f, v)), []) else (s, [])
    case SaveConfig => if s.configOpen then (s.(configOpen := false), []) else (s, [])
    case CloseConfig => if s.configOpen then (s.(configOpen := false), []) else (s, [])
    case CloseConfirm => if s.confirmOpen then (s.(confirmOpen := false), []) else (s, [])
    case Confirm => if s.confirmOpen then Execute(s) else (s, [])
  }

  /** A click on a disabled card does nothing. */
  lemma DisabledCardIgnored(p: Props, s: State, c: Card)
    ensures Disabled(p, c) ==> Step(p, s, ClickCard(c)) == (s, [])
  {
  }

  /** The emergency stop asks to stop only while the bot runs; otherwise it
      changes nothing. */
  lemma EmergencyStopGuard(p: Props, s: State)
    ensures p.running ==> Step(p, s, ClickEmergencyStop) == (AskConfirm(s, StopAction), [])
    ensures p.running ==> Step(p, s, ClickEmergencyStop).0.pending == Some(StopAction)
    ensures !p.running ==> Step(p, s, ClickEmergencyStop) == (s, [])
  {
  }

  /** Saving closes the configuration dialog and keeps the edits. */
  lemma SaveConfigKeepsEdits(p: Props, s: State)
    ensures s.configOpen ==> Step(p, s, SaveConfig) == (s.(configOpen := false), [])
    ensures Step(p, s, SaveConfig).0.config == s.config && !Step(p, s, SaveConfig).0.configOpen
  {
  }

  /** A restart or stop is only ever sent by confirming the dialog while it
      holds that action. */
  lemma CommandsNeedConfirmation(p: Props, s: State, e: Event)
    ensures Restart in Step(p, s, e).1 ==> e == Confirm && s.confirmOpen && s.pending == Some(RestartAction)
    ensures Stop in Step(p, s, e).1 ==> e == Confirm && s.confirmOpen && s.pending == Some(StopAction)
    ensures Refresh in Step(p, s, e).1 <==> e == ClickHealthCheck || e == ClickCard(RefreshCard)
  {
  }

  /** An open confirmation dialog always holds an action. */
  ghost predicate Consistent(s: State) {
    s.confirmOpen ==> s.pending.Some?
  }

  lemma StepConsistent(p: Props, s: State, e: Event)
    requires Consistent(s)
    ensures Consistent(Step(p, s, e).0)
  {
  }

  /** Closing the confirmation without confirming keeps the chosen action,
      and the next request replaces it. */
  lemma CancelKeepsPending(p: Props, s: State)
    requires s.confirmOpen
    ensures Step(p, s, CloseConfirm).0.pending == s.pending
    ensures !Step(p, s, CloseConfirm).0.confirmOpen
  {
  }

  /** Cancelling the configuration dialog does not undo edits: the fields
      change as they are edited, and saving and cancelling both only close
      the dialog. */
  lemma CancelKeepsEdits(p: Props, s: State, f: Field, v: Value)
    requires s.configOpen
    ensures var edited := Step(p, s, Edit(f, v)).0;
      Step(p, edited, CloseConfig).0.config[f] == v
      && Step(p, edited, CloseConfig).0 == Step(p, edited, SaveConfig).0
  {
  }

  /** Runs a sequence of events, collecting the effects in order. */
  function Run(p: Props, s: State, es: seq<Event>): (r: (State, seq<Effect>))
    ensures |r.1| <= |es|
    decreases |es|
  {
    if |es| == 0 then (s, [])
    else
      var first := Step(p, s, es[0]);
      var rest := Run(p, first.0, es[1..]);
      (rest.0, first.1 + rest.1)
  }

  /** While the bot is not running, no sequence of clicks from a closed
      confirmation dialog sends a restart or a stop: every way of asking for
      one is disabled. */
  lemma {:induction false} StoppedBotIsNeverCommanded(p: Props, s: State, es: seq<Event>)
    requires !p.running && !s.confirmOpen
    ensures Restart !in Run(p, s, es).1 && Stop !in Run(p, s, es).1
    ensures !Run(p, s, es).0.confirmOpen
    decreases |es|
  {
    if |es| > 0 {
      StoppedBotIsNeverCommanded(p, Step(p, s, es[0]).0, es[1..]);
    }
  }

  /** Asking for an action and confirming it sends exactly that command and
      leaves nothing pending. */
  lemma AskThenConfirm(p: Props, s: State)
    requires p.running && !p.isRestarting
    ensures var r := Run(p, s, [ClickCard(RestartCard), Confirm]);
      r.1 == [Restart] && r.0.pending.None? && !r.0.confirmOpen && r.0.config == s.config
  {
    var s1 := Step(p, s, ClickCard(RestartCard)).0;
    assert s1 == AskConfirm(s, RestartAction);
    assert [ClickCard(RestartCard), Confirm][1..] == [Confirm];
    assert Step(p, s1, Confirm) == (Execute(s1).0, [Restart]);
    assert [Confirm][1..] == [];
    assert Run(p, s1, [Confirm]) == (Execute(s1).0, [Restart] + []);
  }
}

=== FILE: common.dfy ===
/** Shared vocabulary of the dashboard model: an optional value (the JavaScript
    `null`/`undefined` of the source), a few string operations that the source
    takes from `String.prototype`, and decimal rendering and parsing of integers. */
module Common {

  /** A value that may be missing. */
  datatype Option<+T> = None | Some(value: T) {

    /** The value, or `default` when it is missing (the source's `a ?? default`). */
    function GetOr(default: T): T {
      match this
      case Some(v) => v
      case None => default
    }
  }

  /** `x || fallback` for a text: a missing or empty text is replaced. */
  function TextOr(x: Option<string>, fallback: string): (r: string)
    ensures x.Some? && |x.value| > 0 ==> r == x.value
    ensures x.None? || |x.value| == 0 ==> r == fallback
  {
    if x.Some? && |x.value| > 0 then x.value else fallback
  }

  /** `x || fallback` for a number: a missing number and zero are replaced
      (NaN, the other falsy number, is folded into missing). */
  function NumberOr(x: Option<real>, fallback: real): (r: real)
    ensures x.Some? && x.value != 0.0 ==> r == x.value
    ensures x.None? || x.value == 0.0 ==> r == fallback
  {
    if x.Some? && x.value != 0.0 then x.value else fallback
  }

  /** With a zero fallback, `x || 0` is the number itself, or 0 when it is
      missing. */
  lemma NumberOrZero(x: Option<real>)
    ensures NumberOr(x, 0.0) == x.GetOr(0.0)
  {
  }

  function Min(a: int, b: int): int {
    if a <= b then a else b
  }

  function Max(a: int, b: int): int {
    if a >= b then a else b
  }

  /** The first `n` elements of `s`, or all of it when it is shorter
      (`Array.prototype.slice(0, n)`). */
  function Take<T>(s: seq<T>, n: nat): (r: seq<T>)
    ensures |r| == Min(|s|, n)
    ensures forall i :: 0 <= i < |r| ==> r[i] == s[i]
  {
    if |s| <= n then s else s[..n]
  }

  /** `s` in reverse order (`Array.prototype.reverse`). */
  function Reverse<T>(s: seq<T>): (r: seq<T>)
    ensures |r| == |s|
    ensures forall i :: 0 <= i < |s| ==> r[i] == s[|s| - 1 - i]
  {
    if |s| == 0 then [] else Reverse(s[1..]) + [s[0]]
  }

  // ---------------------------------------------------------------------------
  // Substrings

  /** `sub` occurs in `s` starting at index `i`. */
  predicate OccursAt(s: string, sub: string, i: int) {
    0 <= i && i + |sub| <= |s| && s[i..i + |sub|] == sub
  }

  /** Rebracketing a chain of concatenation facts: `x = h + (l + r)` with
      `h + l = g` gives `x = g + r`. */
  lemma Regroup<T>(x: seq<T>, h: seq<T>, y: seq<T>, l: seq<T>, r: seq<T>, g: seq<T>)
    requires x == h + y && y == l + r && g == h + l
    ensures x == g + r
  {
  }

  /** `String.prototype.includes`: `sub` occurs somewhere in `s`. */
  predicate Contains(s: string, sub: string) {
    exists i :: 0 <= i <= |s| - |sub| && OccursAt(s, sub, i)
  }

  /** A witness position is enough to show that `s` contains `sub`. */
  lemma ContainsAt(s: string, sub: string, i: int)
    requires OccursAt(s, sub, i)
    ensures Contains(s, sub)
  {
  }

  /** The index of the first `c` in `s`, if any. */
  function FirstIndex(s: string, c: char): (r: Option<nat>)
    ensures r.None? <==> c !in s
    ensures r.Some? ==> r.value < |s| && s[r.value] == c && c !in s[..r.value]
  {
    if |s| == 0 then None
    else if s[0] == c then Some(0)
    else
      match FirstIndex(s[1..], c)
      case None => None
      case Some(i) =>
        assert s[..i + 1] == [s[0]] + s[1..][..i];
        Some(i + 1)
  }

  /** Splits `s` at every `sep` (`String.prototype.split` with a one-character
      separator): always at least one part, and no part contains `sep`. */
  function Split(s: string, sep: char): (parts: seq<string>)
    ensures |parts| >= 1
    ensures forall i :: 0 <= i < |parts| ==> sep !in parts[i]
    decreases |s|
  {
    match FirstIndex(s, sep)
    case None => [s]
    case Some(i) => [s[..i]] + Split(s[i + 1..], sep)
  }

  /** Puts the parts back together with `sep` between neighbours
      (`Array.prototype.join`). */
  function Join(parts: seq<string>, sep: char): string
    requires |parts| >= 1
  {
    if |parts| == 1 then parts[0] else parts[0] + [sep] + Join(parts[1..], sep)
  }

  /** Joining the parts of a split gives back the original text. */
  lemma {:induction false} JoinSplit(s: string, sep: char)
    ensures Join(Split(s, sep), sep) == s
    decreases |s|
  {
    match FirstIndex(s, sep)
    case None =>
    case Some(i) =>
      var rest := s[i + 1..];
      var parts := Split(s, sep);
      assert parts == [s[..i]] + Split(rest, sep);
      assert parts[1..] == Split(rest, sep);
      JoinSplit(rest, sep);
      calc {
        Join(parts, sep);
        parts[0] + [sep] + Join(parts[1..], sep);
        s[..i] + [sep] + rest;
        { assert s == s[..i] + [sep] + rest; }
        s;
      }
  }

  /** Splitting a join of separator-free parts gives back the parts. */
  lemma {:induction false} SplitJoin(parts: seq<string>, sep: char)
    requires |parts| >= 1
    requires forall i :: 0 <= i < |parts| ==> sep !in parts[i]
    ensures Split(Join(parts, sep), sep) == parts
  {
    if |parts| > 1 {
      var rest := Join(parts[1..], sep);
      var s := parts[0] + [sep] + rest;
      assert Join(parts, sep) == s;
      FirstIndexAfterFree(parts[0], sep, rest);
      assert s[..|parts[0]|] == parts[0];
      assert s[|parts[0]| + 1..] == rest;
      assert Split(s, sep) == [parts[0]] + Split(rest, sep);
      SplitJoin(parts[1..], sep);
      assert parts == [parts[0]] + parts[1..];
    } else {
      assert FirstIndex(parts[0], sep).None?;
    }
  }

  /** The first `sep` of `a + [sep] + b` is the one right after `a`, when `a`
      has none. */
  lemma FirstIndexAfterFree(a: string, sep: char, b: string)
    requires sep !in a
    ensures FirstIndex(a + [sep] + b, sep) == Some(|a|)
  {
    var s := a + [sep] + b;
    assert s[|a|] == sep;
    assert s[..|a|] == a;
  }

  /** Splits `s` at its first `sep` into the text before and after it. */
  function SplitOnce(s: string, sep: char): (r: Option<(string, string)>)
    ensures r.None? <==> sep !in s
    ensures r.Some? ==> sep !in r.value.0 && s == r.value.0 + [sep] + r.value.1
  {
    match FirstIndex(s, sep)
    case None => None
    case Some(i) =>
      assert s == s[..i] + [sep] + s[i + 1..];
      Some((s[..i], s[i + 1..]))
  }

  /** Splitting at the first separator recovers both halves, whatever the
      second half holds. */
  lemma SplitOnceJoin(a: string, sep: char, b: string)
    requires sep !in a
    ensures SplitOnce(a + [sep] + b, sep) == Some((a, b))
  {
    var s := a + [sep] + b;
    FirstIndexAfterFree(a, sep, b);
    assert s[..|a|] == a;
    assert s[|a| + 1..] == b;
  }

  // ---------------------------------------------------------------------------
  // Decimal integers

  predicate IsDigit(c: char) {
    '0' <= c <= '9'
  }

  predicate AllDigits(s: string) {
    forall i :: 0 <= i < |s| ==> IsDigit(s[i])
  }

  function DigitValue(c: char): (d: nat)
    requires IsDigit(c)
    ensures d < 10
  {
    c as int - '0' as int
  }

  function DigitChar(d: nat): (c: char)
    requires d < 10
    ensures IsDigit(c) && DigitValue(c) == d
  {
    ('0' as int + d) as char
  }

  /** `Number.prototype.toString()` of a non-negative integer: its decimal
      digits, most significant first, without leading zeros. */
  function ShowNat(n: nat): (s: string)
    ensures |s| >= 1 && AllDigits(s)
    ensures s[0] == '0' ==> n == 0
    decreases n
  {
    if n < 10 then [DigitChar(n)] else ShowNat(n / 10) + [DigitChar(n % 10)]
  }

  /** The value of a string of decimal digits (`parseInt` of a digit run). */
  function ParseDigits(s: string): nat
    requires AllDigits(s)
  {
    if |s| == 0 then 0 else ParseDigits(s[..|s| - 1]) * 10 + DigitValue(s[|s| - 1])
  }

  /** Parsing the rendering of `n` gives back `n`. */
  lemma {:induction false} ParseShowNat(n: nat)
    ensures ParseDigits(ShowNat(n)) == n
    decreases n
  {
    if n >= 10 {
      var s := ShowNat(n);
      assert s[..|s| - 1] == ShowNat(n / 10);
      ParseShowNat(n / 10);
    }
  }

  /** A run of zeros has value zero. */
  lemma {:induction false} ParseZeros(k: nat)
    ensures AllDigits(seq(k, _ => '0'))
    ensures ParseDigits(seq(k, _ => '0')) == 0
  {
    if k > 0 {
      assert seq(k, _ => '0')[..k - 1] == seq(k - 1, _ => '0');
      ParseZeros(k - 1);
    }
  }

  function Pow10(k: nat): (p: nat)
    ensures p >= 1
  {
    if k == 0 then 1 else 10 * Pow10(k - 1)
  }

  /** The value of a concatenation of digit strings. */
  lemma {:induction false} ParseAppend(a: string, b: string)
    requires AllDigits(a) && AllDigits(b)
    ensures AllDigits(a + b)
    ensures ParseDigits(a + b) == ParseDigits(a) * Pow10(|b|) + ParseDigits(b)
    decreases |b|
  {
    if |b| == 0 {
      assert a + b == a;
    } else {
      var b' := b[..|b| - 1];
      var d := DigitValue(b[|b| - 1]);
      assert (a + b)[..|a + b| - 1] == a + b';
      assert (a + b)[|a + b| - 1] == b[|b| - 1];
      ParseAppend(a, b');
      assert ParseDigits(a + b) == ParseDigits(a + b') * 10 + d;
      assert ParseDigits(b) == ParseDigits(b') * 10 + d;
      assert Pow10(|b|) == 10 * Pow10(|b'|);
      ShiftDigit(ParseDigits(a), Pow10(|b'|), ParseDigits(b'), d);
    }
  }

  /** Appending a digit to a number made of a high and a low part. */
  lemma ShiftDigit(high: nat, scale: nat, low: nat, d: nat)
    ensures (high * scale + low) * 10 + d == high * (10 * scale) + (low * 10 + d)
  {
  }

  /** Leading zeros do not change the value. */
  lemma LeadingZeros(k: nat, s: string)
    requires AllDigits(s)
    ensures AllDigits(seq(k, _ => '0') + s)
    ensures ParseDigits(seq(k, _ => '0') + s) == ParseDigits(s)
  {
    ParseZeros(k);
    ParseAppend(seq(k, _ => '0'), s);
  }

  /** `Number.prototype.toString()` of an integer, with a leading `-` when
      it is negative. */
  function ShowInt(n: int): (s: string)
    ensures n >= 0 ==> s == ShowNat(n)
    ensures n < 0 ==> s == "-" + ShowNat(-n)
  {
    if n < 0 then "-" + ShowNat(-n) else ShowNat(n)
  }

  /** `String.prototype.padStart(width, fill)`: prefixes copies of `fill` until
      the text is `width` long; text already that long is left alone. */
  function PadStart(s: string, width: nat, fill: char): (r: string)
    ensures |r| == Max(|s|, width)
    ensures |s| >= width ==> r == s
    ensures |s| < width ==> r == seq(width - |s|, _ => fill) + s
  {
    if |s| >= width then s else seq(width - |s|, _ => fill) + s
  }

  /** `padStart(2, '0')`, the source's two-digit clock field. */
  function Pad2(s: string): string {
    PadStart(s, 2, '0')
  }

  /** A padded rendering of `n` still parses to `n`, and is at least two
      characters long. */
  lemma Pad2ShowNat(n: nat)
    ensures |Pad2(ShowNat(n))| >= 2
    ensures AllDigits(Pad2(ShowNat(n)))
    ensures ParseDigits(Pad2(ShowNat(n))) == n
  {
    var s := ShowNat(n);
    ParseShowNat(n);
    if |s| < 2 {
      LeadingZeros(2 - |s|, s);
    }
  }

  // ---------------------------------------------------------------------------
  // Rounding to cents

  /** Rounding half up to hundredths: `Math.round(x * 100) / 100`, and the
      figure `x.toFixed(2)` prints for a non-negative `x`. */
  function RoundCents(x: real): (r: real)
    ensures x - 0.005 < r <= x + 0.005
    ensures (r * 100.0).Floor as real == r * 100.0
  {
    (x * 100.0 + 0.5).Floor as real / 100.0
  }

  /** A whole number of cents is left as it is. */
  lemma RoundCentsOfCents(k: int)
    ensures RoundCents(k as real / 100.0) == k as real / 100.0
  {
    var x := k as real / 100.0;
    assert x * 100.0 == k as real;
    assert (k as real + 0.5).Floor == k;
  }

  /** A figure in `[lo, hi)` cents rounds into `[lo, hi]` cents. */
  lemma RoundCentsBetween(x: real, lo: int, hi: int)
    requires lo as real / 100.0 <= x < hi as real / 100.0
    ensures lo as real / 100.0 <= RoundCents(x) <= hi as real / 100.0
  {
    var y := x * 100.0 + 0.5;
    var n := y.Floor;
    assert lo as real + 0.5 <= y < hi as real + 0.5;
    assert n as real <= y < n as real + 1.0;
    assert lo <= n <= hi;
  }
}

=== FILE: countdown.dfy ===
/** The 15-minute trading-period countdown, which the dashboard computes in three
    slightly different ways, and the two uptime strings.

    Time is integer milliseconds. The source divides with `Math.floor(d / k)`,
    which for a positive `k` is Dafny's `/`, and takes remainders with
    JavaScript's `%`, whose result has the sign of the dividend (`JsRem`). */
module Countdown {
  import opened Common

  const MsPerSecond := 1000
  const MsPerMinute := 60000
  const MsPerHour := 3600000
  const PeriodMinutes := 15

  /** JavaScript's `%` with a positive divisor: truncating, so a negative
      dividend leaves a remainder in (-b, 0]. */
  function JsRem(a: int, b: int): (r: int)
    requires b > 0
    ensures a >= 0 ==> 0 <= r < b
    ensures a < 0 ==> -b < r <= 0
    ensures a >= 0 ==> r == a % b
  {
    if a >= 0 then a % b else -((-a) % b)
  }

  /** The whole minutes of a duration and the whole seconds left over, as
      `Math.floor(d / 60000)` and `Math.floor((d % 60000) / 1000)`. */
  function MinutesSeconds(d: int): (f: (int, int))
    ensures d >= 0 ==> 0 <= f.0 && 0 <= f.1 < 60 && f.0 * 60 + f.1 == d / MsPerSecond
    ensures d < 0 ==> f.0 < 0 && -60 <= f.1 <= 0
  {
    (d / MsPerMinute, JsRem(d, MsPerMinute) / MsPerSecond)
  }

  /** The whole hours of a duration and the whole minutes left over. */
  function HoursMinutes(d: int): (f: (int, int))
    ensures d >= 0 ==> 0 <= f.0 && 0 <= f.1 < 60 && f.0 * 60 + f.1 == d / MsPerMinute
    ensures d < 0 ==> f.0 < 0 && -60 <= f.1 <= 0
  {
    (d / MsPerHour, JsRem(d, MsPerHour) / MsPerMinute)
  }

  /** Reads an `M:SS` clock text back into its two fields: the digits before
      the first colon and the digits after it. */
  function DecodeClock(text: string): Option<(nat, nat)> {
    match SplitOnce(text, ':')
    case None => None
    case Some((m, s)) =>
      if |m| > 0 && |s| > 0 && AllDigits(m) && AllDigits(s)
      then Some((ParseDigits(m), ParseDigits(s)))
      else None
  }

  lemma DigitsHaveNoColon(s: string)
    requires AllDigits(s)
    ensures ':' !in s
  {
    forall i | 0 <= i < |s|
      ensures s[i] != ':'
    {
      assert IsDigit(s[i]);
    }
  }

  /** Decoding a clock text made of two digit strings gives back their values. */
  lemma DecodeJoined(m: string, s: string)
    requires |m| > 0 && |s| > 0 && AllDigits(m) && AllDigits(s)
    ensures DecodeClock(m + ":" + s) == Some((ParseDigits(m), ParseDigits(s)))
  {
    DigitsHaveNoColon(m);
    SplitOnceJoin(m, ':', s);
  }

  /** `M:SS`: the minutes as they are, the seconds padded to two digits.
      A duration that is not negative prints as a proper split of its whole
      seconds into minutes and seconds 0..59; a negative one starts with a
      minus sign. */
  function PlainClock(d: int): (r: string)
    ensures d >= 0 ==> exists m: nat, sec: nat ::
      sec < 60 && m * 60 + sec == d / MsPerSecond && r == ShowNat(m) + ":" + Pad2(ShowNat(sec))
    ensures |r| >= 4 && (d < 0 ==> r[0] == '-')
  {
    var f := MinutesSeconds(d);
    ShowInt(f.0) + ":" + Pad2(ShowInt(f.1))
  }

  /** `MM:SS`: both fields padded to at least two digits, so never shorter
      than five characters; a duration that is not negative prints as a
      proper split of its whole seconds into minutes and seconds 0..59. */
  function PaddedClock(d: int): (r: string)
    ensures |r| >= 5
    ensures d >= 0 ==> exists m: nat, sec: nat ::
      sec < 60 && m * 60 + sec == d / MsPerSecond && r == Pad2(ShowNat(m)) + ":" + Pad2(ShowNat(sec))
  {
    var f := MinutesSeconds(d);
    Pad2(ShowInt(f.0)) + ":" + Pad2(ShowInt(f.1))
  }

  // ---------------------------------------------------------------------------
  // WebSocketContext.getTimeRemaining

  /** The countdown of the socket context: `--:--` without a period end,
      `00:00` once the end has passed, otherwise zero-padded `MM:SS`. */
  function WsTimeRemaining(periodEnd: Option<int>, now: int): (r: string)
    ensures |r| >= 5
    ensures periodEnd.None? ==> r == "--:--"
    ensures periodEnd.Some? && periodEnd.value - now <= 0 ==> r == "00:00"
  {
    match periodEnd
    case None => "--:--"
    case Some(end) =>
      var diff := end - now;
      if diff <= 0 then "00:00" else PaddedClock(diff)
  }

  /** The placeholder `--:--` appears exactly when there is no period end. */
  lemma WsPlaceholderIffNoEnd(periodEnd: Option<int>, now: int)
    ensures WsTimeRemaining(periodEnd, now) == "--:--" <==> periodEnd.None?
  {
    if periodEnd.Some? {
      var r := WsTimeRemaining(periodEnd, now);
      var diff := periodEnd.value - now;
      if diff > 0 {
        var f := MinutesSeconds(diff);
        Pad2ShowNat(f.0);
        assert IsDigit(r[0]);
      }
      assert r[0] != '-';
    }
  }

  /** With a period end, the countdown always reads back as a clock whose
      fields are the whole minutes and leftover seconds until the end, and 0:00
      once it has passed: never a negative time. */
  lemma WsTimeRemainingDecodes(end: int, now: int)
    ensures end - now <= 0 ==> DecodeClock(WsTimeRemaining(Some(end), now)) == Some((0, 0))
    ensures end - now > 0 ==>
      DecodeClock(WsTimeRemaining(Some(end), now)) == Some(((end - now) / MsPerMinute, (end - now) % MsPerMinute / MsPerSecond))
  {
    if end - now <= 0 {
      WsPastDecodes(end, now);
    } else {
      WsAheadDecodes(end, now);
    }
  }

  lemma WsPastDecodes(end: int, now: int)
    requires end - now <= 0
    ensures DecodeClock(WsTimeRemaining(Some(end), now)) == Some((0, 0))
  {
    assert WsTimeRemaining(Some(end), now) == "00:00";
    ZeroClockDecodes();
  }

  lemma WsAheadDecodes(end: int, now: int)
    requires end - now > 0
    ensures DecodeClock(WsTimeRemaining(Some(end), now)) == Some(((end - now) / MsPerMinute, (end - now) % MsPerMinute / MsPerSecond))
  {
    WsIsPadded(end, now);
    PaddedClockOfDecodes(end - now);
  }

  lemma PaddedClockOfDecodes(d: int)
    requires d >= 0
    ensures DecodeClock(PaddedClock(d)) == Some((d / MsPerMinute, d % MsPerMinute / MsPerSecond))
  {
    var f := MinutesSeconds(d);
    assert f == (d / MsPerMinute, d % MsPerMinute / MsPerSecond);
    assert PaddedClock(d) == Pad2(ShowNat(f.0)) + ":" + Pad2(ShowNat(f.1));
    PaddedClockDecodes(f.0, f.1);
  }

  /** A clock printed with both fields padded decodes to its fields. */
  lemma PaddedClockDecodes(m: nat, s: nat)
    ensures DecodeClock(Pad2(ShowNat(m)) + ":" + Pad2(ShowNat(s))) == Some((m, s))
  {
    Pad2ShowNat(m);
    Pad2ShowNat(s);
    DecodeJoined(Pad2(ShowNat(m)), Pad2(ShowNat(s)));
  }

  lemma ZeroClockDecodes()
    ensures DecodeClock("00:00") == Some((0, 0))
  {
    var z := "00";
    assert AllDigits(z);
    assert ParseDigits(z) == 0 by {
      assert z[..1] == "0";
    }
    DecodeJoined(z, z);
    assert z + ":" + z == "00:00";
  }

  /** A clock printed with only the seconds padded decodes to its fields. */
  lemma PlainClockDecodes(m: nat, s: nat)
    ensures DecodeClock(ShowNat(m) + ":" + Pad2(ShowNat(s))) == Some((m, s))
  {
    ParseShowNat(m);
    Pad2ShowNat(s);
    DecodeJoined(ShowNat(m), Pad2(ShowNat(s)));
  }

  /** For a positive time left, the decoded fields are a proper minutes/seconds
      split of the whole seconds left, and both fields are padded to at least
      two digits. */
  lemma WsTimeRemainingFields(end: int, now: int)
    requires end - now > 0
    ensures var f := MinutesSeconds(end - now);
      && 0 <= f.1 < 60
      && f.0 * 60 + f.1 == (end - now) / MsPerSecond
      && WsTimeRemaining(Some(end), now) == Pad2(ShowNat(f.0)) + ":" + Pad2(ShowNat(f.1))
      && |Pad2(ShowNat(f.0))| >= 2 && |Pad2(ShowNat(f.1))| == 2
  {
    var f := MinutesSeconds(end - now);
    WsIsPadded(end, now);
    Pad2ShowNat(f.0);
    TwoDigitShow(f.1);
  }

  lemma WsIsPadded(end: int, now: int)
    requires end - now > 0
    ensures WsTimeRemaining(Some(end), now) == PaddedClock(end - now)
  {
  }

  lemma TwoDigitShow(n: nat)
    requires n < 100
    ensures |ShowNat(n)| <= 2
  {
    if n >= 10 {
      assert ShowNat(n) == ShowNat(n / 10) + [DigitChar(n % 10)];
    }
  }

  /** The minutes field is not capped at two digits: 100 minutes left reads
      `100:00`. */
  lemma WsMinutesMayExceedTwoDigits(now: int)
    ensures WsTimeRemaining(Some(now + 100 * MsPerMinute), now) == "100:00"
  {
    assert MinutesSeconds(100 * MsPerMinute) == (100, 0);
    assert ShowNat(100) == "100" by {
      assert ShowNat(10) == "10";
    }
  }

  // ---------------------------------------------------------------------------
  // App-simple TimeRemaining.updatePeriod

  /** A wall-clock reading: the `getHours`, `getMinutes`, `getSeconds` and
      `getMilliseconds` of a `Date`. */
  datatype Clock = Clock(hour: int, minute: int, second: int, millis: int) {
    predicate Valid() {
      0 <= hour < 24 && 0 <= minute < 60 && 0 <= second < 60 && 0 <= millis < 1000
    }

    /** Milliseconds since the start of the current hour. */
    function IntoHour(): int {
      minute * MsPerMinute + second * MsPerSecond + millis
    }
  }

  /** What the period widget shows: the period label and the time left. */
  datatype PeriodView = PeriodView(info: string, remaining: string)

  /** The first minute of the 15-minute period holding `minute`. */
  function PeriodStartMinute(minute: int): (start: int)
    requires minute >= 0
    ensures start % PeriodMinutes == 0
    ensures start <= minute < start + PeriodMinutes
  {
    minute / PeriodMinutes * PeriodMinutes
  }

  /** `HH:MM` as the label prints it: both fields padded, neither range-checked. */
  function LabelTime(hour: int, minute: int): string {
    Pad2(ShowInt(hour)) + ":" + Pad2(ShowInt(minute))
  }

  /** `Current period: HH:MM - HH:MM WIB`. */
  function PeriodInfo(startHour: int, startMinute: int, endHour: int, endMinute: int): string {
    "Current period: " + LabelTime(startHour, startMinute) + " - " + LabelTime(endHour, endMinute) + " WIB"
  }

  /** Milliseconds from `now` to the end of its period, placed in the current
      hour: `periodEnd - now` before any adjustment. */
  function PeriodDiff(now: Clock): (r: int)
    requires now.Valid()
    ensures 0 < r <= PeriodMinutes * MsPerMinute
  {
    (PeriodStartMinute(now.minute) + PeriodMinutes) * MsPerMinute - now.IntoHour()
  }

  /** The period end falls on a quarter-hour boundary of the current hour
      (the hour's end included). */
  lemma PeriodEndOnBoundary(now: Clock)
    requires now.Valid()
    ensures var end := now.IntoHour() + PeriodDiff(now);
      end % (PeriodMinutes * MsPerMinute) == 0 && 0 < end <= 60 * MsPerMinute
  {
    var k := now.minute / PeriodMinutes;
    assert now.IntoHour() + PeriodDiff(now) == (k + 1) * (PeriodMinutes * MsPerMinute);
  }

  /** One tick of the App-simple period widget. The period end is the current
      hour with its minutes set to `start + 15` (minute 60 rolls into the next
      hour) and seconds and milliseconds zeroed; the label prints the end
      minute itself, rollover or not. */
  function UpdatePeriod(now: Clock): (r: PeriodView)
    requires now.Valid()
    ensures r.remaining == PlainClock(PeriodDiff(now))
  {
    PeriodView(PeriodLabel(now), PeriodRemaining(now))
  }

  /** The label of the widget: from the period start to the hour of the
      end date and the end minute as computed. */
  function PeriodLabel(now: Clock): string
    requires now.Valid()
  {
    var start := PeriodStartMinute(now.minute);
    var endMinute := start + PeriodMinutes;
    var endHour := (now.hour + endMinute / 60) % 24;
    PeriodInfo(now.hour, start, endHour, endMinute)
  }

  /** The time-left text of the widget. If the end were not after `now`, the
      end would first move to its own hour and then have its minutes set to
      `end + 15`, and the text would carry ` (next)`. */
  function PeriodRemaining(now: Clock): string
    requires now.Valid()
  {
    var endMinute := PeriodStartMinute(now.minute) + PeriodMinutes;
    var diff := PeriodDiff(now);
    if diff <= 0 then
      var nextDiff := endMinute / 60 * MsPerHour + (endMinute + PeriodMinutes) * MsPerMinute - now.IntoHour();
      PlainClock(nextDiff) + " (next)"
    else
      PlainClock(diff)
  }

  /** The time to the period end: whole minutes in 0..15 and leftover
      seconds in 0..59, reading 15 minutes only at the very first millisecond
      of a period. */
  lemma PeriodDiffFields(now: Clock)
    requires now.Valid()
    ensures var diff := PeriodDiff(now);
      var f := MinutesSeconds(diff);
      && 0 <= f.0 <= 15 && 0 <= f.1 < 60
      && f.0 * 60 + f.1 == diff / MsPerSecond
      && (f.0 == 15 <==> now.minute % 15 == 0 && now.second == 0 && now.millis == 0)
  {
    var start := PeriodStartMinute(now.minute);
    var diff := (start + PeriodMinutes) * MsPerMinute - now.IntoHour();
    assert diff == (start + 15 - now.minute) * MsPerMinute - now.second * MsPerSecond - now.millis;
    assert now.minute % 15 == 0 <==> now.minute == start;
    assert diff / MsPerMinute == 15 <==> diff == 15 * MsPerMinute;
  }

  /** The `(next)` branch is never taken: the widget always shows the plain
      `M:SS` time to the current period's end, with minutes in 0..15 and
      seconds in 0..59, and the text reads back as those fields. */
  lemma UpdatePeriodRemaining(now: Clock)
    requires now.Valid()
    ensures var diff := PeriodDiff(now);
      var f := MinutesSeconds(diff);
      && 0 <= f.0 <= 15 && 0 <= f.1 < 60
      && f.0 * 60 + f.1 == diff / MsPerSecond
      && (f.0 == 15 <==> now.minute % 15 == 0 && now.second == 0 && now.millis == 0)
      && UpdatePeriod(now).remaining == ShowNat(f.0) + ":" + Pad2(ShowNat(f.1))
      && DecodeClock(UpdatePeriod(now).remaining) == Some((f.0, f.1))
  {
    var diff := PeriodDiff(now);
    PeriodDiffFields(now);
    PlainClockFields(diff);
  }

  /** A duration that is not negative prints as its unsigned fields and
      decodes back to them. */
  lemma PlainClockFields(d: int)
    requires d >= 0
    ensures var f := MinutesSeconds(d);
      && PlainClock(d) == ShowNat(f.0) + ":" + Pad2(ShowNat(f.1))
      && DecodeClock(PlainClock(d)) == Some((f.0, f.1))
  {
    var f := MinutesSeconds(d);
    assert PlainClock(d) == ShowNat(f.0) + ":" + Pad2(ShowNat(f.1));
    PlainClockDecodes(f.0, f.1);
  }

  /** In the last quarter of an hour the label's end reads minute `60`, with
      the next hour in front of it. */
  lemma EndLabelSixty(now: Clock)
    requires now.Valid() && now.minute >= 45
    ensures UpdatePeriod(now).info == PeriodInfo(now.hour, 45, (now.hour + 1) % 24, 60)
    ensures LabelTime((now.hour + 1) % 24, 60) == Pad2(ShowNat((now.hour + 1) % 24)) + ":60"
  {
    LabelLastQuarter(now);
    LabelSixty((now.hour + 1) % 24);
  }

  lemma LabelLastQuarter(now: Clock)
    requires now.Valid() && now.minute >= 45
    ensures PeriodLabel(now) == PeriodInfo(now.hour, 45, (now.hour + 1) % 24, 60)
  {
    assert PeriodStartMinute(now.minute) == 45;
  }

  /** Before minute 45 the label runs from the period start to the minute
      15 later, both in the current hour. */
  lemma UpdatePeriodInfo(now: Clock)
    requires now.Valid() && now.minute < 45
    ensures var start := PeriodStartMinute(now.minute);
      UpdatePeriod(now).info == PeriodInfo(now.hour, start, now.hour, start + PeriodMinutes)
  {
    LabelEarly(now, PeriodStartMinute(now.minute));
  }

  lemma LabelEarly(now: Clock, start: int)
    requires now.Valid() && now.minute < 45 && start == PeriodStartMinute(now.minute)
    ensures PeriodLabel(now) == PeriodInfo(now.hour, start, now.hour, start + PeriodMinutes)
  {
    assert 0 < start + PeriodMinutes < 60;
    assert (start + PeriodMinutes) / 60 == 0;
    assert (now.hour + 0) % 24 == now.hour;
  }

  lemma LabelSixty(hour: nat)
    ensures LabelTime(hour, 60) == Pad2(ShowNat(hour)) + ":60"
  {
    assert ShowInt(60) == "60" by {
      assert ShowNat(60) == ShowNat(6) + ['0'];
    }
    assert Pad2("60") == "60";
  }

  /** The clock time at which the current period ends: the next hour's
      minute 0 once the start is minute 45. */
  function PeriodEndTime(now: Clock): (t: (int, int))
    requires now.Valid()
    ensures 0 <= t.0 < 24 && 0 <= t.1 < 60
    ensures t.0 * 60 + t.1 == (now.hour * 60 + PeriodStartMinute(now.minute) + PeriodMinutes) % 1440
  {
    var endMinute := PeriodStartMinute(now.minute) + PeriodMinutes;
    if endMinute == 60 then ((now.hour + 1) % 24, 0) else (now.hour, endMinute)
  }

  /** A label time within the dial reads back as itself. */
  lemma LabelTimeDecodes(h: int, m: int)
    requires 0 <= h && 0 <= m
    ensures DecodeClock(LabelTime(h, m)) == Some((h, m))
  {
    PaddedClockDecodes(h, m);
  }

  /** The period widget with the end label read from the period end's own
      clock; the time left is as before. */
  function CorrectedUpdatePeriod(now: Clock): PeriodView
    requires now.Valid()
  {
    var t := PeriodEndTime(now);
    PeriodView(PeriodInfo(now.hour, PeriodStartMinute(now.minute), t.0, t.1), UpdatePeriod(now).remaining)
  }

  /** The corrected label ends in a clock time that reads back as the period
      end, and the time left is unchanged. */
  lemma CorrectedEndIsClockTime(now: Clock)
    requires now.Valid()
    ensures var t := PeriodEndTime(now);
      && CorrectedUpdatePeriod(now).info == PeriodInfo(now.hour, PeriodStartMinute(now.minute), t.0, t.1)
      && DecodeClock(LabelTime(t.0, t.1)) == Some(t)
    ensures CorrectedUpdatePeriod(now).remaining == UpdatePeriod(now).remaining
  {
    var t := PeriodEndTime(now);
    LabelTimeDecodes(t.0, t.1);
  }

  /** In the last quarter of an hour the corrected end is the next hour's
      minute 0. */
  lemma CorrectedEndLastQuarter(now: Clock)
    requires now.Valid() && now.minute >= 45
    ensures PeriodEndTime(now) == ((now.hour + 1) % 24, 0)
  {
    assert PeriodStartMinute(now.minute) == 45;
  }

  /** The label as written agrees with the corrected one exactly before
      minute 45: the end minute `60` is the only place they part. */
  lemma LabelAgreesIffEarly(now: Clock)
    requires now.Valid()
    ensures UpdatePeriod(now).info == CorrectedUpdatePeriod(now).info <==> now.minute < 45
  {
    if now.minute < 45 {
      LabelAgreesEarly(now);
    } else {
      LabelDiffersLate(now);
    }
  }

  lemma LabelAgreesEarly(now: Clock)
    requires now.Valid() && now.minute < 45
    ensures UpdatePeriod(now).info == CorrectedUpdatePeriod(now).info
  {
    UpdatePeriodInfo(now);
    var start := PeriodStartMinute(now.minute);
    assert PeriodEndTime(now) == (now.hour, start + PeriodMinutes);
  }

  lemma LabelDiffersLate(now: Clock)
    requires now.Valid() && now.minute >= 45
    ensures UpdatePeriod(now).info != CorrectedUpdatePeriod(now).info
  {
    var next := (now.hour + 1) % 24;
    LabelLastQuarter(now);
    CorrectedEndLastQuarter(now);
    assert PeriodStartMinute(now.minute) == 45;
    EndMinuteShows(now.hour, 45, next);
  }

  /** Two labels that differ only in an end minute of 60 against 0 differ. */
  lemma EndMinuteShows(h: int, m: int, e: int)
    ensures PeriodInfo(h, m, e, 60) != PeriodInfo(h, m, e, 0)
  {
    var head := "Current period: " + LabelTime(h, m) + " - " + Pad2(ShowInt(e)) + ":";
    MinuteTexts();
    InfoEndsWithMinute(h, m, e, 60);
    InfoEndsWithMinute(h, m, e, 0);
    DifferAfter(head, "60", "00", " WIB");
  }

  lemma InfoEndsWithMinute(h: int, m: int, e: int, x: int)
    ensures PeriodInfo(h, m, e, x)
      == ("Current period: " + LabelTime(h, m) + " - " + Pad2(ShowInt(e)) + ":") + Pad2(ShowInt(x)) + " WIB"
  {
  }

  lemma MinuteTexts()
    ensures Pad2(ShowInt(60)) == "60" && Pad2(ShowInt(0)) == "00"
  {
    assert ShowInt(60) == "60" by {
      assert ShowNat(60) == ShowNat(6) + ['0'];
    }
    assert Pad2("60") == "60";
  }

  lemma DifferAfter(head: string, x: string, y: string, tail: string)
    requires |x| > 0 && |y| > 0 && x[0] != y[0]
    ensures head + x + tail != head + y + tail
  {
    assert (head + x + tail)[|head|] == x[0];
    assert (head + y + tail)[|head|] == y[0];
  }

  // ---------------------------------------------------------------------------
  // App-fixed refreshMarkets countdown

  /** The countdown of the App-fixed market card: unclamped `M:SS`, so a
      past period end yields negative fields; an absent (undefined) end is an
      invalid `Date`, and both fields print as `NaN`. */
  function FixedTimeRemaining(periodEnd: Option<int>, now: int): (r: string)
    ensures periodEnd.None? ==> r == "NaN:NaN"
  {
    match periodEnd
    case None => "NaN:NaN"
    case Some(end) => PlainClock(end - now)
  }

  /** Before the end both countdowns decode to the same fields; after it the
      App-fixed one starts with a minus sign where the socket one reads 00:00. */
  lemma FixedVersusWs(end: int, now: int)
    ensures end - now > 0 ==>
      DecodeClock(FixedTimeRemaining(Some(end), now)) == DecodeClock(WsTimeRemaining(Some(end), now))
    ensures end - now < 0 ==>
      FixedTimeRemaining(Some(end), now)[0] == '-' && WsTimeRemaining(Some(end), now) == "00:00"
  {
    if end - now > 0 {
      FixedAheadAgrees(end, now);
    } else if end - now < 0 {
      FixedPastNegative(end, now);
    }
  }

  lemma FixedAheadAgrees(end: int, now: int)
    requires end - now > 0
    ensures DecodeClock(FixedTimeRemaining(Some(end), now)) == DecodeClock(WsTimeRemaining(Some(end), now))
  {
    var diff := end - now;
    assert FixedTimeRemaining(Some(end), now) == PlainClock(diff);
    WsIsPadded(end, now);
    PlainClockFields(diff);
    PaddedClockOfDecodes(diff);
  }

  lemma FixedPastNegative(end: int, now: int)
    requires end - now < 0
    ensures FixedTimeRemaining(Some(end), now)[0] == '-' && WsTimeRemaining(Some(end), now) == "00:00"
  {
    assert FixedTimeRemaining(Some(end), now) == PlainClock(end - now);
  }

  /** One millisecond late, the App-fixed card reads `-1:-1`. */
  lemma FixedOneMsLate()
    ensures FixedTimeRemaining(Some(0), 1) == "-1:-1"
  {
    assert MinutesSeconds(-1) == (-1, -1);
  }

  // ---------------------------------------------------------------------------
  // App-simple calculateUptime and the session summary

  /** 2026-02-19T10:29:00+07:00, the fixed bot start, in Unix milliseconds. */
  const BotStartMs := 1771471740000

  /** `Hh Mm` since the fixed bot start. */
  function Uptime(now: int): (r: string)
    ensures now >= BotStartMs ==>
      exists h: nat, m: nat :: m < 60 && h * 60 + m == (now - BotStartMs) / MsPerMinute && r == ShowNat(h) + "h " + ShowNat(m) + "m"
    ensures |r| >= 4 && (now < BotStartMs ==> r[0] == '-')
  {
    var f := HoursMinutes(now - BotStartMs);
    ShowInt(f.0) + "h " + ShowInt(f.1) + "m"
  }

  /** After the start the uptime shows whole hours and the minutes left over
      (0..59), which together are the whole minutes since the start. */
  lemma UptimeFields(now: int)
    requires now >= BotStartMs
    ensures var f := HoursMinutes(now - BotStartMs);
      && 0 <= f.1 < 60 && f.0 * 60 + f.1 == (now - BotStartMs) / MsPerMinute
      && Uptime(now) == ShowNat(f.0) + "h " + ShowNat(f.1) + "m"
  {
  }

  /** The summary the trade-history alert prints. */
  datatype SessionSummary = SessionSummary(trades: int, wins: int, losses: int, winRate: int)

  /** The session summary for the given hour, with the two random draws
      (`Math.floor(Math.random() * 10)` and `Math.floor(Math.random() * 3)`)
      passed in. Wins are `Math.floor(trades * winRate / 100)`. */
  function Summary(hour: int, rateDraw: int, extraDraw: int): (s: SessionSummary)
    requires 0 <= rateDraw < 10 && 0 <= extraDraw < 3
    ensures s.wins + s.losses == s.trades
    ensures 60 <= s.winRate < 70
  {
    var totalTrades := 20 + (hour - 10) * 4;
    var winRate := 60 + rateDraw;
    var trades := totalTrades + extraDraw;
    var wins := trades * winRate / 100;
    SessionSummary(trades, wins, trades - wins, winRate)
  }

  /** Wins and losses are both counts between 0 and the trade count once the
      trade count is non-negative, which it is exactly from 05:00 on; before
      that the summary reports a negative number of trades. */
  lemma SummaryBounds(hour: int, rateDraw: int, extraDraw: int)
    requires 0 <= rateDraw < 10 && 0 <= extraDraw < 3
    ensures var s := Summary(hour, rateDraw, extraDraw);
      && (s.trades >= 0 <==> hour >= 5)
      && (s.trades >= 0 ==> 0 <= s.wins <= s.trades && 0 <= s.losses <= s.trades)
  {
    var s := Summary(hour, rateDraw, extraDraw);
    if s.trades >= 0 {
      ScaledDown(s.trades, s.winRate);
    }
  }

  lemma ScaledDown(t: nat, r: nat)
    requires r <= 100
    ensures 0 <= t * r / 100 <= t
  {
    assert t * r <= t * 100;
  }

  /** The uptime line of the summary: hour and minute offsets from 10:29,
      with the hours dropped unless positive. */
  function SessionUptime(hour: int, minute: int): (r: string)
    ensures hour > 10 ==>
      exists h: int, m: int :: h * 60 + m == hour * 60 + minute - (10 * 60 + 29) && r == ShowInt(h) + "h " + ShowInt(m) + "m"
    ensures hour == 10 ==> r == ShowInt(hour * 60 + minute - (10 * 60 + 29)) + "m"
    ensures hour < 10 ==> r == ShowInt(minute - 29) + "m"
  {
    var h := hour - 10;
    var m := minute - 29;
    if h > 0 then ShowInt(h) + "h " + ShowInt(m) + "m" else ShowInt(m) + "m"
  }

  /** The offsets are not normalised: at 11:05 the line reads `1h -24m`. */
  lemma SessionUptimeUnnormalised()
    ensures SessionUptime(11, 5) == "1h -24m"
  {
    assert ShowNat(24) == ShowNat(2) + ['4'];
  }
}

=== FILE: dashboard.dfy ===
/** The Dashboard component: bot status cards, the market table, the five
    most recent trades and the health-check log list. It reads the status
    fields `cpuPercent` and `memoryMB`, so its input is its own record. */
module Dashboard {
  import opened Common
  import opened Records
  import TradeHistory
  import MarketOverview

  /** The bot status fields the component reads. */
  datatype BotStatusProps = BotStatusProps(
    running: Option<bool>,
    pid: Option<Pid>,
    uptime: Option<string>,
    cpuPercent: Option<real>,
    memoryMB: Option<real>)

  /** One health-check log entry and the log object. */
  datatype LogEntry = LogEntry(timestamp: string, level: string, message: string)
  datatype HealthLogs = HealthLogs(logs: Option<seq<LogEntry>>, lastCheck: Option<string>)

  /** The colours the component uses. */
  datatype Color = Primary | Success | Warning | Error | Default

  // ---------------------------------------------------------------------------
  // Status cards

  /** `botStatus?.running` read as a flag. */
  function IsRunning(s: Option<BotStatusProps>): (r: bool)
    ensures r <==> s.Some? && s.value.running == Some(true)
  {
    s.Some? && s.value.running == Some(true)
  }

  /** The CPU figure shown: `cpuPercent || 0`. */
  function CpuShown(s: Option<BotStatusProps>): (c: real)
    ensures s.None? || s.value.cpuPercent.None? ==> c == 0.0
    ensures s.Some? && s.value.cpuPercent.Some? ==> c == s.value.cpuPercent.value
  {
    if s.None? then 0.0 else NumberOr(s.value.cpuPercent, 0.0)
  }

  /** The memory figure shown: `memoryMB || 0`. */
  function MemoryShown(s: Option<BotStatusProps>): (m: real)
    ensures s.None? || s.value.memoryMB.None? ==> m == 0.0
    ensures s.Some? && s.value.memoryMB.Some? ==> m == s.value.memoryMB.value
  {
    if s.None? then 0.0 else NumberOr(s.value.memoryMB, 0.0)
  }

  /** The CPU bar colour: above 80 is an error, above 50 a warning, anything
      else (a missing figure included) primary. */
  function CpuColor(cpu: Option<real>): (c: Color)
    ensures c == Error <==> cpu.Some? && cpu.value > 80.0
    ensures c == Warning <==> cpu.Some? && 50.0 < cpu.value <= 80.0
    ensures c == Primary <==> cpu.None? || cpu.value <= 50.0
  {
    match cpu
    case None => Primary
    case Some(x) => if x > 80.0 then Error else if x > 50.0 then Warning else Primary
  }

  function Severity(c: Color): nat {
    match c
    case Error => 2
    case Warning => 1
    case _ => 0
  }

  /** A higher CPU figure never gets a milder colour. */
  lemma CpuColorMonotone(a: real, b: real)
    requires a <= b
    ensures Severity(CpuColor(Some(a))) <= Severity(CpuColor(Some(b)))
  {
  }

  // ---------------------------------------------------------------------------
  // Market table

  /** A market reads Active when its bid is above one half. */
  predicate IsActive(q: Quote) {
    q.bid > 0.5
  }

  /** The table appears when there is a non-empty market list. */
  predicate ShowsMarkets(m: Option<MarketSnapshot>) {
    m.Some? && m.value.markets.Some? && |m.value.markets.value| > 0
  }

  /** A market active here is active on the Market Overview page too, which
      only asks for a bid above one cent; a bid of 0.3 is active there and
      inactive here. */
  lemma ActiveThresholds(q: Quote)
    ensures IsActive(q) ==> MarketOverview.IsActive(q)
    ensures var c := Quote("BTC-UP", 0.3, 0.4, 0.0);
      MarketOverview.IsActive(c) && !IsActive(c)
  {
  }

  /** The sign shown before a change: `+` for a change that is not negative. */
  function ChangeSign(q: Quote): (s: string)
    ensures s == "+" <==> q.change >= 0.0
    ensures s == "" <==> q.change < 0.0
  {
    if q.change >= 0.0 then "+" else ""
  }

  // ---------------------------------------------------------------------------
  // Recent trades

  const RecentTrades: nat := 5

  /** The trades listed: the first five, or none (and a notice) without
      trades. */
  function ShownTrades(h: Option<TradeHistory.History>): (r: seq<TradeHistory.Trade>)
    ensures |r| == Min(|TradeHistory.TradesOf(h)|, RecentTrades)
    ensures forall i :: 0 <= i < |r| ==> r[i] == TradeHistory.TradesOf(h)[i]
  {
    Take(TradeHistory.TradesOf(h), RecentTrades)
  }

  /** The dashboard's five trades are the top of the Trade History page's
      table. */
  lemma ShownTradesTopOfHistory(h: Option<TradeHistory.History>)
    ensures ShownTrades(h) == Take(TradeHistory.ShownRows(TradeHistory.TradesOf(h)), RecentTrades)
  {
    var a := ShownTrades(h);
    var b := Take(TradeHistory.ShownRows(TradeHistory.TradesOf(h)), RecentTrades);
    assert |a| == |b|;
    assert forall i :: 0 <= i < |a| ==> a[i] == b[i];
  }

  /** `tradeHistory?.trades?.length || 0`. */
  function RecentCount(h: Option<TradeHistory.History>): (n: nat)
    ensures n == |TradeHistory.TradesOf(h)|
  {
    if h.None? || h.value.trades.None? then 0 else |h.value.trades.value|
  }

  // ---------------------------------------------------------------------------
  // Health-check log list

  /** `String.prototype.toUpperCase` on ASCII letters. */
  function UpperChar(c: char): (u: char)
    ensures 'a' <= c <= 'z' ==> u as int == c as int - 32
    ensures !('a' <= c <= 'z') ==> u == c
  {
    if 'a' <= c <= 'z' then (c as int - 32) as char else c
  }

  function Upper(s: string): (u: string)
    ensures |u| == |s|
    ensures forall i :: 0 <= i < |s| ==> u[i] == UpperChar(s[i])
  {
    seq(|s|, i requires 0 <= i < |s| => UpperChar(s[i]))
  }

  /** Upper-casing twice is upper-casing once. */
  lemma UpperIdempotent(s: string)
    ensures Upper(Upper(s)) == Upper(s)
  {
    forall i | 0 <= i < |s| ensures UpperChar(UpperChar(s[i])) == UpperChar(s[i]) {
      var c := s[i];
      if 'a' <= c <= 'z' {
        assert 'A' <= UpperChar(c) <= 'Z';
      }
    }
  }

  /** A log entry's chip: the upper-cased level, coloured by the exact level. */
  function LogChip(e: LogEntry): (r: (string, Color))
    ensures r.0 == Upper(e.level)
    ensures r.1 == Error <==> e.level == "error"
    ensures r.1 == Warning <==> e.level == "warning"
    ensures r.1 != Error && r.1 != Warning ==> r.1 == Default
  {
    (Upper(e.level), if e.level == "error" then Error else if e.level == "warning" then Warning else Default)
  }

  /** An upper-case level still shows upper-case but is not coloured. */
  lemma UpperLevelUncoloured()
    ensures LogChip(LogEntry("", "ERROR", "")).0 == "ERROR"
    ensures LogChip(LogEntry("", "ERROR", "")).1 == Default
  {
    assert Upper("ERROR") == "ERROR";
  }

  /** Which entries are followed by a divider: all but the last. */
  function Dividers(logs: seq<LogEntry>): (d: seq<bool>)
    ensures |d| == |logs|
    ensures forall i :: 0 <= i < |d| ==> (d[i] <==> i < |logs| - 1)
  {
    seq(|logs|, i requires 0 <= i < |logs| => i < |logs| - 1)
  }

  function CountTrue(d: seq<bool>): nat {
    if |d| == 0 then 0 else (if d[0] then 1 else 0) + CountTrue(d[1..])
  }

  /** A list of `n` entries has `n - 1` dividers. */
  lemma {:induction false} DividerCount(logs: seq<LogEntry>)
    requires |logs| > 0
    ensures CountTrue(Dividers(logs)) == |logs| - 1
  {
    CountPrefixTrue(Dividers(logs), |logs| - 1);
  }

  /** A flag sequence true exactly before `k` has `k` true flags. */
  lemma {:induction false} CountPrefixTrue(d: seq<bool>, k: nat)
    requires k <= |d|
    requires forall i :: 0 <= i < |d| ==> (d[i] <==> i < k)
    ensures CountTrue(d) == k
  {
    if |d| > 0 {
      var rest := d[1..];
      if k > 0 {
        assert forall i :: 0 <= i < |rest| ==> (rest[i] <==> i < k - 1);
        CountPrefixTrue(rest, k - 1);
      } else {
        assert forall i :: 0 <= i < |rest| ==> !rest[i];
        CountPrefixTrue(rest, 0);
      }
    }
  }

  // ---------------------------------------------------------------------------
  // The component

  datatype LogsView = NoLogs | LogList(chips: seq<(string, Color)>, dividers: seq<bool>)

  datatype DashboardView =
    | Spinner
    | Page(
        running: bool,
        pid: string,
        uptime: string,
        cpu: real,
        cpuColor: Color,
        memory: real,
        totalTrades: int,
        recentCount: nat,
        markets: seq<(Quote, bool)>,
        trades: seq<TradeHistory.Trade>,
        logs: LogsView,
        lastCheck: string)

  function LogsViewOf(h: Option<HealthLogs>): (v: LogsView)
    ensures v.NoLogs? <==> h.None? || h.value.logs.None? || |h.value.logs.value| == 0
    ensures v.LogList? ==> |v.chips| == |v.dividers| == |h.value.logs.value|
  {
    if h.None? || h.value.logs.None? || |h.value.logs.value| == 0 then NoLogs
    else
      var ls := h.value.logs.value;
      LogList(seq(|ls|, i requires 0 <= i < |ls| => LogChip(ls[i])), Dividers(ls))
  }

  /** The component: a spinner while loading, whatever the data; otherwise
      the cards with their fallbacks. */
  function Render(
    isLoading: bool,
    status: Option<BotStatusProps>,
    market: Option<MarketSnapshot>,
    trades: Option<TradeHistory.History>,
    logs: Option<HealthLogs>): (v: DashboardView)
    ensures isLoading <==> v.Spinner?
    ensures v.Page? ==> v.cpu == CpuShown(status) && v.memory == MemoryShown(status) && v.running == IsRunning(status)
    ensures v.Page? ==> |v.trades| <= RecentTrades && v.totalTrades == TradeHistory.TotalOf(trades)
    ensures v.Page? ==> (|v.markets| > 0 <==> ShowsMarkets(market))
  {
    if isLoading then Spinner
    else
      var ms := if ShowsMarkets(market) then market.value.markets.value else [];
      Page(
        IsRunning(status),
        PidLabel(if status.None? then None else status.value.pid),
        if status.None? then "Unknown" else TextOr(status.value.uptime, "Unknown"),
        CpuShown(status),
        CpuColor(if status.None? then None else status.value.cpuPercent),
        MemoryShown(status),
        TradeHistory.TotalOf(trades),
        RecentCount(trades),
        seq(|ms|, i requires 0 <= i < |ms| => (ms[i], IsActive(ms[i]))),
        ShownTrades(trades),
        LogsViewOf(logs),
        if logs.None? then "N/A" else TextOr(logs.value.lastCheck, "N/A"))
  }

  /** A status record as the server sends it has no `cpuPercent` or
      `memoryMB` field, so the component would show 0 % and 0 MB for it. */
  function FromServerRecord(r: StatusRecord): (p: BotStatusProps)
    ensures p.cpuPercent.None? && p.memoryMB.None?
  {
    BotStatusProps(r.running, r.pid, r.uptime, None, None)
  }

  lemma ServerRecordShowsZero(r: StatusRecord)
    ensures CpuShown(Some(FromServerRecord(r))) == 0.0 && MemoryShown(Some(FromServerRecord(r))) == 0.0
    ensures CpuColor(FromServerRecord(r).cpuPercent) == Primary
  {
  }
}

=== FILE: health_logs.dfy ===
/** The two health-log lists: the auto-updating five-entry list of App-simple and
    the filtered list with a fixed fallback of App-fixed. */
module HealthLogs {
  import opened Common

  // ---------------------------------------------------------------------------
  // App-simple HealthLogsAuto

  /** An entry of the auto-updating list. Its message is printed from its own
      CPU and memory figures, which the source draws separately from the
      entry's fields for a newly added entry. */
  datatype AutoLog = AutoLog(time: string, cpu: real, memory: real, messageCpu: real, messageMemory: real)

  const MaxAutoLogs := 5

  /** `Math.random()` draws: each in [0, 1). */
  predicate IsDraw(x: real) {
    0.0 <= x < 1.0
  }

  /** `(Math.random() * 5).toFixed(2)`: a CPU figure of up to 5 %, printed
      with two decimals, so a draw close to 1 reads as `5.00`. */
  function CpuOf(draw: real): (r: real)
    ensures IsDraw(draw) ==> 0.0 <= r <= 5.0
    ensures (r * 100.0).Floor as real == r * 100.0
  {
    var x := draw * 5.0;
    if IsDraw(draw) then RoundCentsBetween(x, 0, 500); RoundCents(x) else RoundCents(x)
  }

  /** `(17.5 + Math.random() * 0.5).toFixed(2)`: a memory figure from
      `17.50` to `18.00` MB. */
  function MemoryOf(draw: real): (r: real)
    ensures IsDraw(draw) ==> 17.5 <= r <= 18.0
    ensures (r * 100.0).Floor as real == r * 100.0
  {
    var x := 17.5 + draw * 0.5;
    if IsDraw(draw) then RoundCentsBetween(x, 1750, 1800); RoundCents(x) else RoundCents(x)
  }

  /** The five entries the list starts with, two minutes apart, the first one
      at 0 % CPU. */
  function InitialLogs(times: seq<string>, cpuDraws: seq<real>, memoryDraws: seq<real>): (r: seq<AutoLog>)
    requires |times| == MaxAutoLogs && |cpuDraws| == MaxAutoLogs && |memoryDraws| == MaxAutoLogs
    requires forall i :: 0 <= i < MaxAutoLogs ==> IsDraw(cpuDraws[i]) && IsDraw(memoryDraws[i])
    ensures |r| == MaxAutoLogs
    ensures r[0].cpu == 0.0
    ensures forall i :: 0 <= i < |r| ==> r[i].time == times[i]
    ensures forall i :: 0 <= i < |r| ==> 0.0 <= r[i].cpu <= 5.0 && 17.5 <= r[i].memory <= 18.0
    ensures forall i :: 0 <= i < |r| ==> r[i].messageCpu == r[i].cpu && r[i].messageMemory == r[i].memory
  {
    seq(MaxAutoLogs, i requires 0 <= i < MaxAutoLogs => InitialLog(i, times[i], cpuDraws[i], memoryDraws[i]))
  }

  /** Entry `i` of the starting list: entry 0 reports no CPU at all. */
  function InitialLog(i: nat, time: string, cpuDraw: real, memoryDraw: real): (r: AutoLog)
    requires IsDraw(cpuDraw) && IsDraw(memoryDraw)
    ensures r.time == time && (i == 0 ==> r.cpu == 0.0)
    ensures 0.0 <= r.cpu <= 5.0 && 17.5 <= r.memory <= 18.0
    ensures r.messageCpu == r.cpu && r.messageMemory == r.memory
  {
    var cpu := if i == 0 then 0.0 else CpuOf(cpuDraw);
    var memory := MemoryOf(memoryDraw);
    AutoLog(time, cpu, memory, cpu, memory)
  }

  /** A figure drawn at the top of its range prints as the bound itself. */
  lemma FiguresReachTheirBounds()
    ensures CpuOf(0.9999) == 5.0 && MemoryOf(0.9999) == 18.0
  {
    assert (0.9999 * 5.0 * 100.0 + 0.5).Floor == 500;
    assert ((17.5 + 0.9999 * 0.5) * 100.0 + 0.5).Floor == 1800;
  }

  /** A new entry: its fields and its message use four separate draws. */
  function NewLog(time: string, cpuDraw: real, memoryDraw: real, messageCpuDraw: real, messageMemoryDraw: real): (r: AutoLog)
    ensures r.time == time
    ensures IsDraw(cpuDraw) && IsDraw(messageCpuDraw) ==> 0.0 <= r.cpu <= 5.0 && 0.0 <= r.messageCpu <= 5.0
    ensures IsDraw(memoryDraw) && IsDraw(messageMemoryDraw) ==> 17.5 <= r.memory <= 18.0 && 17.5 <= r.messageMemory <= 18.0
  {
    AutoLog(time, CpuOf(cpuDraw), MemoryOf(memoryDraw), CpuOf(messageCpuDraw), MemoryOf(messageMemoryDraw))
  }

  /** A new entry's message need not agree with its own fields. */
  lemma NewLogMessageMayDisagree()
    ensures NewLog("12:00", 0.0, 0.0, 0.5, 0.0).cpu != NewLog("12:00", 0.0, 0.0, 0.5, 0.0).messageCpu
  {
  }

  /** `[entry, ...prev.slice(0, 4)]`: the new entry first, then the newest four
      of the previous ones. */
  function AddLog(prev: seq<AutoLog>, entry: AutoLog): (r: seq<AutoLog>)
    ensures |r| == Min(|prev| + 1, MaxAutoLogs)
    ensures r[0] == entry
    ensures forall i :: 1 <= i < |r| ==> r[i] == prev[i - 1]
  {
    [entry] + Take(prev, MaxAutoLogs - 1)
  }

  /** One 30-second tick: a draw above 0.7 adds `entry`, otherwise nothing
      changes. */
  function Tick(logs: seq<AutoLog>, roll: real, entry: AutoLog): (r: seq<AutoLog>)
    ensures roll <= 0.7 ==> r == logs
    ensures roll > 0.7 ==> |r| > 0 && r[0] == entry && r[1..] == Take(logs, MaxAutoLogs - 1)
    ensures |logs| <= MaxAutoLogs ==> |r| <= MaxAutoLogs
  {
    if roll > 0.7 then AddLog(logs, entry) else logs
  }

  /** Adds `entries` one after another, first to last. */
  function AddAll(logs: seq<AutoLog>, entries: seq<AutoLog>): seq<AutoLog>
    decreases |entries|
  {
    if |entries| == 0 then logs else AddAll(AddLog(logs, entries[0]), entries[1..])
  }

  lemma TakeAppendTake<T>(x: seq<T>, y: seq<T>, k: nat, n: nat)
    requires |x| + k >= n
    ensures Take(x + Take(y, k), n) == Take(x + y, n)
  {
    var a := Take(x + Take(y, k), n);
    var b := Take(x + y, n);
    assert |a| == |b|;
    forall i | 0 <= i < |a|
      ensures a[i] == b[i]
    {
      if i >= |x| {
        assert a[i] == Take(y, k)[i - |x|];
      }
    }
  }

  /** Starting from a list of at most five, however many entries arrive, the
      list holds the newest five of them and of the starting entries, newest
      first. */
  lemma {:induction false} AddAllNewestFirst(logs: seq<AutoLog>, entries: seq<AutoLog>)
    requires |logs| <= MaxAutoLogs
    ensures AddAll(logs, entries) == Take(Reverse(entries) + logs, MaxAutoLogs)
    decreases |entries|
  {
    if |entries| == 0 {
      assert Reverse(entries) + logs == logs;
    } else {
      var e := entries[0];
      var es := entries[1..];
      AddAllNewestFirst(AddLog(logs, e), es);
      assert Reverse(entries) == Reverse(es) + [e];
      assert Reverse(es) + AddLog(logs, e) == (Reverse(es) + [e]) + Take(logs, MaxAutoLogs - 1);
      TakeAppendTake(Reverse(es) + [e], logs, MaxAutoLogs - 1, MaxAutoLogs);
      assert (Reverse(es) + [e]) + logs == Reverse(entries) + logs;
    }
  }

  // ---------------------------------------------------------------------------
  // App-fixed HealthLogs

  /** A fetched health-log entry; status and message may be absent. */
  datatype HealthLog = HealthLog(timestamp: string, status: Option<string>, message: Option<string>)

  const ErrorCheckingMarker := "Error checking bot status"
  const CrashMarker := "backend crash"

  /** An entry survives the filter unless its message mentions one of the two
      stale-error markers; an entry without a message always survives. */
  predicate Kept(log: HealthLog) {
    match log.message
    case None => true
    case Some(m) => !Contains(m, ErrorCheckingMarker) && !Contains(m, CrashMarker)
  }

  /** The entries that survive, in their original order. */
  function FilterLogs(logs: seq<HealthLog>): (r: seq<HealthLog>)
    ensures |r| <= |logs|
    ensures forall i :: 0 <= i < |r| ==> Kept(r[i]) && r[i] in logs
  {
    if |logs| == 0 then []
    else (if Kept(logs[0]) then [logs[0]] else []) + FilterLogs(logs[1..])
  }

  /** An entry is in the result exactly when it is in the input and survives. */
  lemma {:induction false} FilterLogsMembership(logs: seq<HealthLog>, log: HealthLog)
    ensures log in FilterLogs(logs) <==> log in logs && Kept(log)
  {
    if |logs| > 0 {
      FilterLogsMembership(logs[1..], log);
      assert logs == [logs[0]] + logs[1..];
    }
  }

  /** Filtering a concatenation filters each part: order is preserved. */
  lemma {:induction false} FilterLogsAppend(a: seq<HealthLog>, b: seq<HealthLog>)
    ensures FilterLogs(a + b) == FilterLogs(a) + FilterLogs(b)
  {
    if |a| == 0 {
      assert a + b == b;
    } else {
      var head := if Kept(a[0]) then [a[0]] else [];
      assert (a + b)[0] == a[0];
      assert (a + b)[1..] == a[1..] + b;
      FilterLogsAppend(a[1..], b);
      assert FilterLogs(a + b) == head + FilterLogs(a[1..] + b);
      assert FilterLogs(a) == head + FilterLogs(a[1..]);
      Regroup(FilterLogs(a + b), head, FilterLogs(a[1..] + b), FilterLogs(a[1..]), FilterLogs(b), FilterLogs(a));
    }
  }

  /** Entries that all survive come through unchanged; in particular the
      filter is idempotent. */
  lemma {:induction false} FilterLogsKeepsKept(logs: seq<HealthLog>)
    requires forall i :: 0 <= i < |logs| ==> Kept(logs[i])
    ensures FilterLogs(logs) == logs
  {
    if |logs| > 0 {
      FilterLogsKeepsKept(logs[1..]);
    }
  }

  lemma FilterLogsIdempotent(logs: seq<HealthLog>)
    ensures FilterLogs(FilterLogs(logs)) == FilterLogs(logs)
  {
    FilterLogsKeepsKept(FilterLogs(logs));
  }

  /** The outcome of the fetch: a failure, or a body whose `logs` may be
      missing. */
  datatype LogsFetch = FetchFailed | Fetched(logs: Option<seq<HealthLog>>)

  function Healthy(timestamp: string, message: string): HealthLog {
    HealthLog(timestamp, Some("HEALTHY"), Some(message))
  }

  /** The six fixed entries shown when nothing usable arrived, newest first;
      the first carries the current time. */
  function Fallback(nowText: string): (r: seq<HealthLog>)
    ensures |r| == 6 && r[0].timestamp == nowText
    ensures forall i :: 0 <= i < |r| ==> r[i].status == Some("HEALTHY")
  {
    [ Healthy(nowText, "Bot running, CPU 39.0%"),
      Healthy("12:56:00", "Bot running, CPU 0%"),
      Healthy("12:54:00", "Bot running, CPU 38.3%"),
      Healthy("12:52:00", "Bot running, CPU 37.4%"),
      Healthy("12:50:00", "Bot running, CPU 37.3%"),
      Healthy("12:48:00", "Bot running, CPU 37.2%") ]
  }

  /** The list stored after a fetch: the surviving entries, or the fallback
      when the fetch failed or nothing survived. */
  function FetchLogs(fetch: LogsFetch, nowText: string): (r: seq<HealthLog>)
    ensures |r| >= 1
    ensures fetch.FetchFailed? ==> r == Fallback(nowText)
    ensures fetch.Fetched? ==>
      var kept := FilterLogs(fetch.logs.GetOr([]));
      (if |kept| == 0 then r == Fallback(nowText) else r == kept)
  {
    match fetch
    case FetchFailed => Fallback(nowText)
    case Fetched(logs) =>
      var kept := FilterLogs(logs.GetOr([]));
      if |kept| == 0 then Fallback(nowText) else kept
  }

  /** `logs.slice(-6).reverse()`: the last six entries, last one first. */
  function ViewLogs(logs: seq<HealthLog>): (r: seq<HealthLog>)
    ensures |r| == Min(6, |logs|)
    ensures forall i :: 0 <= i < |r| ==> r[i] == logs[|logs| - 1 - i]
  {
    Reverse(logs[|logs| - Min(6, |logs|)..])
  }

  /** A list of at most six entries is shown whole, in reverse; so the
      fallback, stored newest first, is shown oldest first. */
  lemma ViewShortIsReverse(logs: seq<HealthLog>)
    requires |logs| <= 6
    ensures ViewLogs(logs) == Reverse(logs)
    ensures Reverse(ViewLogs(logs)) == logs
  {
  }

  lemma ViewFallbackOldestFirst(nowText: string)
    ensures ViewLogs(Fallback(nowText))[0].timestamp == "12:48:00"
    ensures ViewLogs(Fallback(nowText))[5].timestamp == nowText
  {
  }

  /** The colour a row is drawn in. */
  datatype Tone = Success | Error

  /** The status chip: the status text, or `UNKNOWN`, coloured as a success
      when the status text contains `HEALTHY` anywhere. */
  function ChipLabel(log: HealthLog): (r: string)
    ensures ChipTone(log) == Success <==> log.status.Some? && Contains(r, "HEALTHY")
  {
    assert !Contains("UNKNOWN", "HEALTHY") by {
      assert "UNKNOWN"[0..7][0] != "HEALTHY"[0];
    }
    TextOr(log.status, "UNKNOWN")
  }

  function ChipTone(log: HealthLog): (t: Tone)
    ensures t == Success <==> log.status.Some? && Contains(log.status.value, "HEALTHY")
  {
    if log.status.Some? && Contains(log.status.value, "HEALTHY") then Success else Error
  }

  /** The row background is a success only for the exact status `HEALTHY`. */
  function RowTone(log: HealthLog): (t: Tone)
    ensures t == Success <==> log.status == Some("HEALTHY")
  {
    if log.status == Some("HEALTHY") then Success else Error
  }

  /** A row with status `UNHEALTHY` gets a success chip on an error
      background. */
  lemma UnhealthyChipLooksHealthy()
    ensures ChipTone(HealthLog("", Some("UNHEALTHY"), None)) == Success
    ensures RowTone(HealthLog("", Some("UNHEALTHY"), None)) == Error
  {
    assert OccursAt("UNHEALTHY", "HEALTHY", 2);
  }
}

=== FILE: market_overview.dfy ===
/** The Market Overview page: markets grouped by coin, per-contract spread and
    implied probability, the two-contract arbitrage summary, and the insight
    figures over all markets. */
module MarketOverview {
  import opened Common
  import opened Records

  /** The coin groups, in the order the page lists them. */
  const GroupKeys: seq<string> := ["BTC", "ETH", "SOL", "XRP"]

  /** The markets whose symbol contains `key`, in their original order. */
  function GroupOf(markets: seq<Quote>, key: string): (g: seq<Quote>)
    ensures |g| <= |markets|
    ensures forall i :: 0 <= i < |g| ==> g[i] in markets && Contains(g[i].symbol, key)
  {
    if |markets| == 0 then []
    else (if Contains(markets[0].symbol, key) then [markets[0]] else []) + GroupOf(markets[1..], key)
  }

  /** A market is in a group exactly when its symbol contains the key. */
  lemma {:induction false} GroupMembership(markets: seq<Quote>, key: string, q: Quote)
    ensures q in GroupOf(markets, key) <==> q in markets && Contains(q.symbol, key)
  {
    if |markets| > 0 {
      GroupMembership(markets[1..], key, q);
      assert markets == [markets[0]] + markets[1..];
    }
  }

  /** Grouping a concatenation groups each part: order within a group is the
      order of the list. */
  lemma {:induction false} GroupOfAppend(a: seq<Quote>, b: seq<Quote>, key: string)
    ensures GroupOf(a + b, key) == GroupOf(a, key) + GroupOf(b, key)
  {
    if |a| == 0 {
      assert a + b == b;
    } else {
      var head := if Contains(a[0].symbol, key) then [a[0]] else [];
      assert (a + b)[0] == a[0];
      assert (a + b)[1..] == a[1..] + b;
      GroupOfAppend(a[1..], b, key);
      assert GroupOf(a + b, key) == head + GroupOf(a[1..] + b, key);
      assert GroupOf(a, key) == head + GroupOf(a[1..], key);
      Regroup(GroupOf(a + b, key), head, GroupOf(a[1..] + b, key), GroupOf(a[1..], key), GroupOf(b, key), GroupOf(a, key));
    }
  }

  /** Groups are not a partition: a symbol naming two coins is in both groups,
      and a symbol naming none is in no group. */
  lemma GroupsOverlap()
    ensures var q := Quote("BTC-ETH", 0.5, 0.5, 0.0);
      q in GroupOf([q], "BTC") && q in GroupOf([q], "ETH")
    ensures var q := Quote("ADA-UP", 0.5, 0.5, 0.0);
      forall i :: 0 <= i < |GroupKeys| ==> q !in GroupOf([q], GroupKeys[i])
  {
    var q := Quote("BTC-ETH", 0.5, 0.5, 0.0);
    assert OccursAt(q.symbol, "BTC", 0);
    assert OccursAt(q.symbol, "ETH", 4);
    GroupMembership([q], "BTC", q);
    GroupMembership([q], "ETH", q);
    var d := Quote("ADA-UP", 0.5, 0.5, 0.0);
    forall i | 0 <= i < |GroupKeys| ensures d !in GroupOf([d], GroupKeys[i]) {
      GroupMembership([d], GroupKeys[i], d);
      var key := GroupKeys[i];
      forall j | 0 <= j <= |d.symbol| - |key| ensures !OccursAt(d.symbol, key, j) {
        assert d.symbol[j] != key[0];
      }
    }
  }

  datatype Group = Group(key: string, markets: seq<Quote>)

  /** The four coin groups. */
  function Groups(markets: seq<Quote>): (gs: seq<Group>)
    ensures |gs| == |GroupKeys|
    ensures forall i :: 0 <= i < |gs| ==> gs[i].key == GroupKeys[i] && gs[i].markets == GroupOf(markets, GroupKeys[i])
  {
    seq(|GroupKeys|, i requires 0 <= i < |GroupKeys| => Group(GroupKeys[i], GroupOf(markets, GroupKeys[i])))
  }

  /** The groups that get a table: the non-empty ones, in order. */
  function RenderedGroups(gs: seq<Group>): (r: seq<Group>)
    ensures |r| <= |gs|
    ensures forall i :: 0 <= i < |r| ==> |r[i].markets| > 0 && r[i] in gs
  {
    if |gs| == 0 then []
    else (if |gs[0].markets| > 0 then [gs[0]] else []) + RenderedGroups(gs[1..])
  }

  /** A group is rendered exactly when it is non-empty. */
  lemma {:induction false} RenderedGroupsMembership(gs: seq<Group>, g: Group)
    ensures g in RenderedGroups(gs) <==> g in gs && |g.markets| > 0
  {
    if |gs| > 0 {
      RenderedGroupsMembership(gs[1..], g);
      assert gs == [gs[0]] + gs[1..];
    }
  }

  // ---------------------------------------------------------------------------
  // Per-contract figures

  function Spread(q: Quote): real {
    q.ask - q.bid
  }

  function Mid(q: Quote): real {
    (q.bid + q.ask) / 2.0
  }

  /** The mid price as a percentage for an UP contract, and its complement
      for any other. */
  function ImpliedProbability(q: Quote): (p: real)
    ensures Contains(q.symbol, "UP") ==> p == Mid(q) * 100.0
    ensures !Contains(q.symbol, "UP") ==> p == 100.0 - Mid(q) * 100.0
  {
    if Contains(q.symbol, "UP") then Mid(q) * 100.0 else (1.0 - Mid(q)) * 100.0
  }

  /** Spread and mid recover the quote's bid and ask, and for prices in
      [0, 1] with bid at most ask the probability is a percentage. */
  lemma QuoteFigures(q: Quote)
    ensures q.bid == Mid(q) - Spread(q) / 2.0 && q.ask == Mid(q) + Spread(q) / 2.0
    ensures 0.0 <= q.bid <= q.ask <= 1.0 ==> Spread(q) >= 0.0 && 0.0 <= ImpliedProbability(q) <= 100.0
  {
  }

  /** An UP contract and a non-UP contract with the same mid price have
      implied probabilities adding up to 100. */
  lemma ComplementaryProbabilities(up: Quote, down: Quote)
    requires Contains(up.symbol, "UP") && !Contains(down.symbol, "UP")
    requires Mid(up) == Mid(down)
    ensures ImpliedProbability(up) + ImpliedProbability(down) == 100.0
  {
  }

  /** The summary under a group table. */
  datatype ArbitrageSummary = ArbitrageSummary(opportunity: bool, totalProbability: real)

  /** Only a group of exactly two contracts gets a summary; it flags an
      opportunity when the two bids add up to less than 0.99. */
  function Arbitrage(group: seq<Quote>): (r: Option<ArbitrageSummary>)
    ensures r.Some? <==> |group| == 2
    ensures r.Some? ==> r.value.totalProbability == (group[0].bid + group[1].bid) * 100.0
  {
    if |group| == 2 then
      var total := group[0].bid + group[1].bid;
      Some(ArbitrageSummary(total < 0.99, total * 100.0))
    else None
  }

  /** The flag is the summary's own total probability falling short of 99 %. */
  lemma ArbitrageMeansShortfall(group: seq<Quote>)
    requires |group| == 2
    ensures Arbitrage(group).value.opportunity <==> Arbitrage(group).value.totalProbability < 99.0
  {
  }

  // ---------------------------------------------------------------------------
  // Insights over all markets

  /** `Math.max(...markets.map(m => m.bid))` of a non-empty list. */
  function BestBid(markets: seq<Quote>): (best: real)
    requires |markets| > 0
    ensures forall i :: 0 <= i < |markets| ==> markets[i].bid <= best
    ensures exists i :: 0 <= i < |markets| && markets[i].bid == best
  {
    if |markets| == 1 then markets[0].bid
    else
      var rest := BestBid(markets[1..]);
      assert forall i :: 1 <= i < |markets| ==> markets[i] == markets[1..][i - 1];
      if markets[0].bid >= rest then markets[0].bid else rest
  }

  /** `Math.min(...markets.map(m => m.ask))` of a non-empty list. */
  function LowestAsk(markets: seq<Quote>): (low: real)
    requires |markets| > 0
    ensures forall i :: 0 <= i < |markets| ==> low <= markets[i].ask
    ensures exists i :: 0 <= i < |markets| && markets[i].ask == low
  {
    if |markets| == 1 then markets[0].ask
    else
      var rest := LowestAsk(markets[1..]);
      assert forall i :: 1 <= i < |markets| ==> markets[i] == markets[1..][i - 1];
      if markets[0].ask <= rest then markets[0].ask else rest
  }

  function SumSpreads(markets: seq<Quote>): real {
    if |markets| == 0 then 0.0 else Spread(markets[0]) + SumSpreads(markets[1..])
  }

  /** Spreads that each lie in [lo, hi] add up to between n·lo and n·hi. */
  lemma {:induction false} SumSpreadsBounds(markets: seq<Quote>, lo: real, hi: real)
    requires forall i :: 0 <= i < |markets| ==> lo <= Spread(markets[i]) <= hi
    ensures |markets| as real * lo <= SumSpreads(markets) <= |markets| as real * hi
  {
    if |markets| > 0 {
      SumSpreadsBounds(markets[1..], lo, hi);
    }
  }

  /** The average spread; an empty list gives no number (the source's NaN). */
  function AverageSpread(markets: seq<Quote>): (avg: Option<real>)
    ensures avg.None? <==> |markets| == 0
  {
    if |markets| == 0 then None else Some(SumSpreads(markets) / |markets| as real)
  }

  /** The average lies between the smallest and the largest possible spread. */
  lemma AverageSpreadBounds(markets: seq<Quote>, lo: real, hi: real)
    requires |markets| > 0
    requires forall i :: 0 <= i < |markets| ==> lo <= Spread(markets[i]) <= hi
    ensures lo <= AverageSpread(markets).value <= hi
  {
    SumSpreadsBounds(markets, lo, hi);
    var n := |markets| as real;
    assert SumSpreads(markets) / n >= lo by {
      assert SumSpreads(markets) >= n * lo;
    }
  }

  /** A market counts as active when its bid is above one cent. */
  predicate IsActive(q: Quote) {
    q.bid > 0.01
  }

  function ActiveCount(markets: seq<Quote>): (n: nat)
    ensures n <= |markets|
  {
    if |markets| == 0 then 0 else (if IsActive(markets[0]) then 1 else 0) + ActiveCount(markets[1..])
  }

  /** Every market is active exactly when the count reaches the total, and
      none is exactly when it is zero. */
  lemma {:induction false} ActiveCountExtremes(markets: seq<Quote>)
    ensures ActiveCount(markets) == |markets| <==> forall i :: 0 <= i < |markets| ==> IsActive(markets[i])
    ensures ActiveCount(markets) == 0 <==> forall i :: 0 <= i < |markets| ==> !IsActive(markets[i])
  {
    if |markets| > 0 {
      ActiveCountExtremes(markets[1..]);
      assert forall i :: 1 <= i < |markets| ==> markets[i] == markets[1..][i - 1];
    }
  }

  // ---------------------------------------------------------------------------
  // The page

  /** The insight figures; best bid and lowest ask are missing for an empty
      list (the source shows the infinities `Math.max()` and `Math.min()`
      return). */
  datatype Insights = Insights(bestBid: Option<real>, lowestAsk: Option<real>, averageSpread: Option<real>, active: nat, total: nat)

  datatype OverviewView =
    | Spinner
    | NoData
    | Overview(periodType: string, groups: seq<Group>, summaries: seq<Option<ArbitrageSummary>>, insights: Insights)

  /** The insights panel: every figure is missing exactly for an empty list,
      the best bid and lowest ask are attained by some market and bound all
      the others, and the active count never exceeds the total. */
  function InsightsOf(markets: seq<Quote>): (r: Insights)
    ensures r.total == |markets| && r.active <= r.total
    ensures r.bestBid.None? <==> |markets| == 0
    ensures r.lowestAsk.None? <==> |markets| == 0
    ensures r.averageSpread.None? <==> |markets| == 0
    ensures r.bestBid.Some? ==> forall i :: 0 <= i < |markets| ==> markets[i].bid <= r.bestBid.value
    ensures r.bestBid.Some? ==> exists i :: 0 <= i < |markets| && markets[i].bid == r.bestBid.value
    ensures r.lowestAsk.Some? ==> forall i :: 0 <= i < |markets| ==> r.lowestAsk.value <= markets[i].ask
    ensures r.lowestAsk.Some? ==> exists i :: 0 <= i < |markets| && markets[i].ask == r.lowestAsk.value
  {
    Insights(
      if |markets| == 0 then None else Some(BestBid(markets)),
      if |markets| == 0 then None else Some(LowestAsk(markets)),
      AverageSpread(markets),
      ActiveCount(markets),
      |markets|)
  }

  /** The page: a spinner while loading, a notice without a market list
      (an empty list still renders the page), otherwise the non-empty groups
      with their summaries and the insights. */
  function Render(isLoading: bool, data: Option<MarketSnapshot>): (v: OverviewView)
    ensures isLoading ==> v == Spinner
    ensures !isLoading && (data.None? || data.value.markets.None?) ==> v == NoData
    ensures v.Overview? ==> |v.summaries| == |v.groups| && forall i :: 0 <= i < |v.groups| ==> |v.groups[i].markets| > 0
  {
    if isLoading then Spinner
    else if data.None? || data.value.markets.None? then NoData
    else
      var markets := data.value.markets.value;
      var shown := RenderedGroups(Groups(markets));
      Overview(
        TextOr(data.value.period, "15-minute"),
        shown,
        seq(|shown|, i requires 0 <= i < |shown| => Arbitrage(shown[i].markets)),
        InsightsOf(markets))
  }

  /** Every rendered group is one of the four coin groups, holding exactly
      the markets whose symbol contains its key. */
  lemma RenderedGroupsAreCoinGroups(data: MarketSnapshot)
    requires data.markets.Some?
    ensures var v := Render(false, Some(data));
      forall i :: 0 <= i < |v.groups| ==>
        exists k :: 0 <= k < |GroupKeys| && v.groups[i] == Group(GroupKeys[k], GroupOf(data.markets.value, GroupKeys[k]))
  {
    var gs := Groups(data.markets.value);
    var v := Render(false, Some(data));
    forall i | 0 <= i < |v.groups|
      ensures exists k :: 0 <= k < |GroupKeys| && v.groups[i] == Group(GroupKeys[k], GroupOf(data.markets.value, GroupKeys[k]))
    {
      assert v.groups[i] in gs;
    }
  }
}

=== FILE: market_transform.dfy ===
/** The App-fixed market card list: the backend's per-contract quotes
    (`BTC-UP`, `BTC-DOWN`, ...) are merged into one card per coin, holding the
    UP and DOWN asks side by side. */
module MarketTransform {
  import opened Common
  import opened Records
  import Countdown

  /** `symbol.split('-')` destructured as `[symbol, side]`: the text before the
      first `-`, and the part after it up to the next `-`, if any. */
  function SymbolPrefix(symbol: string): (r: string)
    ensures '-' !in r && |r| <= |symbol| && r == symbol[..|r|]
    ensures |r| < |symbol| ==> symbol[|r|] == '-'
  {
    Split(symbol, '-')[0]
  }

  /** The side: absent without a `-`; otherwise the dash-free text that
      follows the coin and its `-`, up to the next `-` or the end. */
  function SymbolSide(symbol: string): (r: Option<string>)
    ensures r.None? <==> '-' !in symbol
    ensures r.Some? ==> var n := |SymbolPrefix(symbol)| + 1 + |r.value|;
      && '-' !in r.value && n <= |symbol| && symbol[..n] == SymbolPrefix(symbol) + "-" + r.value
      && (n < |symbol| ==> symbol[n] == '-')
  {
    var parts := Split(symbol, '-');
    SplitSecond(symbol);
    if |parts| >= 2 then Some(parts[1]) else None
  }

  /** The second part of a split is the prefix of the text after the first
      separator. */
  lemma SplitSecond(symbol: string)
    ensures '-' !in symbol ==> |Split(symbol, '-')| == 1
    ensures '-' in symbol ==> var i := |SymbolPrefix(symbol)|;
      && i < |symbol| && |Split(symbol, '-')| >= 2
      && Split(symbol, '-')[1] == SymbolPrefix(symbol[i + 1..])
  {
    match FirstIndex(symbol, '-')
    case None =>
    case Some(i) =>
      var rest := symbol[i + 1..];
      assert Split(symbol, '-') == [symbol[..i]] + Split(rest, '-');
      assert Split(symbol, '-')[1] == Split(rest, '-')[0];
  }

  /** The coin and side of a typical contract symbol. */
  lemma SplitContractSymbol(coin: string, side: string)
    requires '-' !in coin && '-' !in side
    ensures SymbolPrefix(coin + "-" + side) == coin
    ensures SymbolSide(coin + "-" + side) == Some(side)
  {
    SplitJoin([coin, side], '-');
    assert Join([coin, side], '-') == coin + "-" + side;
  }

  /** One merged card. A price or change is missing until a quote for that
      side arrives. */
  datatype MarketCard = MarketCard(
    symbol: string,
    period: string,
    upPrice: Option<real>,
    upChange: Option<real>,
    downPrice: Option<real>,
    downChange: Option<real>)

  /** The object the source builds: cards keyed by coin, with the order in
      which the coins were first seen. */
  datatype Board = Board(order: seq<string>, cards: map<string, MarketCard>) {
    ghost predicate Valid(period: string) {
      && (forall i, j :: 0 <= i < j < |order| ==> order[i] != order[j])
      && (forall k :: k in cards <==> k in order)
      && (forall k :: k in cards ==> cards[k].symbol == k && cards[k].period == period)
    }
  }

  /** `data.period || '15m'`. */
  function PeriodOf(period: Option<string>): (p: string)
    ensures period.Some? && |period.value| > 0 ==> p == period.value
    ensures period.None? || |period.value| == 0 ==> p == "15m"
  {
    TextOr(period, "15m")
  }

  /** The source's `forEach` step: create the coin's card if it has none,
      then let an `UP` quote set the UP fields and a `DOWN` quote the DOWN
      fields; any other side sets nothing. */
  function Apply(board: Board, item: Quote, period: string): (r: Board)
    ensures r.cards.Keys == board.cards.Keys + {SymbolPrefix(item.symbol)}
    ensures forall k :: k in board.cards && k != SymbolPrefix(item.symbol) ==> r.cards[k] == board.cards[k]
    ensures board.order <= r.order && |r.order| <= |board.order| + 1
    ensures var c := r.cards[SymbolPrefix(item.symbol)];
      SymbolSide(item.symbol) == Some("UP") ==> c.upPrice == Some(item.ask) && c.upChange == Some(item.change)
    ensures var c := r.cards[SymbolPrefix(item.symbol)];
      SymbolSide(item.symbol) == Some("DOWN") ==> c.downPrice == Some(item.ask) && c.downChange == Some(item.change)
  {
    var coin := SymbolPrefix(item.symbol);
    var card := if coin in board.cards then board.cards[coin] else MarketCard(coin, period, None, None, None, None);
    var order := if coin in board.cards then board.order else board.order + [coin];
    var card' :=
      match SymbolSide(item.symbol)
      case Some(s) =>
        if s == "UP" then card.(upPrice := Some(item.ask), upChange := Some(item.change))
        else if s == "DOWN" then card.(downPrice := Some(item.ask), downChange := Some(item.change))
        else card
      case None => card;
    Board(order, board.cards[coin := card'])
  }

  /** The board after all items, processed first to last. */
  function Build(items: seq<Quote>, period: string): (r: Board)
    ensures r.cards.Keys == Coins(items)
    ensures |r.order| <= |items|
    decreases |items|
  {
    if |items| == 0 then Board([], map[])
    else
      CoinsSnoc(items);
      Apply(Build(items[..|items| - 1], period), items[|items| - 1], period)
  }

  // ---------------------------------------------------------------------------
  // Independent descriptions of the result

  /** The coins that occur among the items. */
  function Coins(items: seq<Quote>): set<string> {
    set i | 0 <= i < |items| :: SymbolPrefix(items[i].symbol)
  }

  /** The distinct elements of `s`, in order of first occurrence. */
  function Distinct(s: seq<string>): (d: seq<string>)
    ensures forall x :: x in d <==> x in s
    ensures forall i, j :: 0 <= i < j < |d| ==> d[i] != d[j]
  {
    if |s| == 0 then []
    else
      var d := Distinct(s[..|s| - 1]);
      assert forall x :: x in s <==> x in s[..|s| - 1] || x == s[|s| - 1];
      if s[|s| - 1] in d then d else d + [s[|s| - 1]]
  }

  function CoinSeq(items: seq<Quote>): (s: seq<string>)
    ensures |s| == |items|
    ensures forall i :: 0 <= i < |items| ==> s[i] == SymbolPrefix(items[i].symbol)
  {
    seq(|items|, i requires 0 <= i < |items| => SymbolPrefix(items[i].symbol))
  }

  /** The last item for coin `coin` whose side is `side`. */
  function LastQuote(items: seq<Quote>, coin: string, side: string): (r: Option<Quote>)
    ensures r.Some? ==> r.value in items && SymbolPrefix(r.value.symbol) == coin && SymbolSide(r.value.symbol) == Some(side)
    decreases |items|
  {
    if |items| == 0 then None
    else
      var last := items[|items| - 1];
      if SymbolPrefix(last.symbol) == coin && SymbolSide(last.symbol) == Some(side) then Some(last)
      else LastQuote(items[..|items| - 1], coin, side)
  }

  /** The price and change a card shows for a side, from the quote that set
      them. */
  function Fields(q: Option<Quote>): (Option<real>, Option<real>) {
    match q
    case Some(x) => (Some(x.ask), Some(x.change))
    case None => (None, None)
  }

  /** A coin with no items has no quotes. */
  lemma {:induction false} LastQuoteOfAbsentCoin(items: seq<Quote>, coin: string, side: string)
    requires coin !in Coins(items)
    ensures LastQuote(items, coin, side).None?
    decreases |items|
  {
    if |items| > 0 {
      var init := items[..|items| - 1];
      assert Coins(init) <= Coins(items) by {
        forall c | c in Coins(init) ensures c in Coins(items) {
          var i :| 0 <= i < |init| && SymbolPrefix(init[i].symbol) == c;
          assert items[i] == init[i];
        }
      }
      assert SymbolPrefix(items[|items| - 1].symbol) in Coins(items);
      LastQuoteOfAbsentCoin(init, coin, side);
    }
  }

  lemma CoinsSnoc(items: seq<Quote>)
    requires |items| > 0
    ensures Coins(items) == Coins(items[..|items| - 1]) + {SymbolPrefix(items[|items| - 1].symbol)}
  {
    var init := items[..|items| - 1];
    forall c | c in Coins(items) ensures c in Coins(init) + {SymbolPrefix(items[|items| - 1].symbol)} {
      var i :| 0 <= i < |items| && SymbolPrefix(items[i].symbol) == c;
      if i < |items| - 1 {
        assert init[i] == items[i];
      }
    }
    forall c | c in Coins(init) ensures c in Coins(items) {
      var i :| 0 <= i < |init| && SymbolPrefix(init[i].symbol) == c;
      assert items[i] == init[i];
    }
  }

  /** One step keeps the board well formed and adds the item's coin, at the
      end of the order if it is new. */
  lemma ApplyShape(board: Board, item: Quote, period: string)
    requires board.Valid(period)
    ensures var coin := SymbolPrefix(item.symbol);
      && Apply(board, item, period).Valid(period)
      && Apply(board, item, period).cards.Keys == board.cards.Keys + {coin}
      && Apply(board, item, period).order == (if coin in board.order then board.order else board.order + [coin])
  {
    var coin := SymbolPrefix(item.symbol);
    var after := Apply(board, item, period);
    assert after.cards.Keys == board.cards.Keys + {coin};
    assert after.cards[coin].symbol == coin && after.cards[coin].period == period;
    if coin !in board.order {
      var order := board.order + [coin];
      assert after.order == order;
      forall i, j | 0 <= i < j < |order| ensures order[i] != order[j] {
        if j == |order| - 1 {
          assert order[i] == board.order[i];
        }
      }
      assert forall k :: k in order <==> k in board.order || k == coin;
    }
  }

  /** One step changes only the item's coin: a matching side takes the item's
      ask and change, every other field keeps its value, and a new card starts
      empty. */
  lemma ApplyFields(board: Board, item: Quote, period: string, coin: string)
    requires coin in Apply(board, item, period).cards
    ensures var card := Apply(board, item, period).cards[coin];
      var up := (card.upPrice, card.upChange);
      var down := (card.downPrice, card.downChange);
      var hit := SymbolPrefix(item.symbol) == coin;
      var prior := if coin in board.cards then board.cards[coin] else MarketCard(coin, period, None, None, None, None);
      && (coin != SymbolPrefix(item.symbol) ==> coin in board.cards && card == board.cards[coin])
      && up == (if hit && SymbolSide(item.symbol) == Some("UP") then Fields(Some(item)) else (prior.upPrice, prior.upChange))
      && down == (if hit && SymbolSide(item.symbol) == Some("DOWN") then Fields(Some(item)) else (prior.downPrice, prior.downChange))
  {
  }

  /** The board is well formed, has a card for exactly the coins among the
      items, and lists them in order of first appearance. */
  lemma {:induction false} BuildShape(items: seq<Quote>, period: string)
    ensures Build(items, period).Valid(period)
    ensures Build(items, period).cards.Keys == Coins(items)
    ensures Build(items, period).order == Distinct(CoinSeq(items))
    decreases |items|
  {
    if |items| > 0 {
      var init := items[..|items| - 1];
      var last := items[|items| - 1];
      var before := Build(init, period);
      assert Build(items, period) == Apply(before, last, period);
      BuildShape(init, period);
      ApplyShape(before, last, period);
      CoinsSnoc(items);
      CoinSeqSnoc(items);
      DistinctSnoc(CoinSeq(init), SymbolPrefix(last.symbol));
    }
  }

  lemma CoinSeqSnoc(items: seq<Quote>)
    requires |items| > 0
    ensures CoinSeq(items) == CoinSeq(items[..|items| - 1]) + [SymbolPrefix(items[|items| - 1].symbol)]
  {
  }

  lemma DistinctSnoc(s: seq<string>, x: string)
    ensures Distinct(s + [x]) == if x in Distinct(s) then Distinct(s) else Distinct(s) + [x]
  {
    assert (s + [x])[..|s|] == s;
  }

  /** Every card shows the ask and change of the last UP quote and of the
      last DOWN quote for its coin: later quotes overwrite earlier ones, and
      quotes with another side set nothing. */
  lemma {:induction false} BuildLastWriterWins(items: seq<Quote>, period: string, coin: string)
    requires coin in Coins(items)
    ensures var card := Build(items, period).cards[coin];
      && (card.upPrice, card.upChange) == Fields(LastQuote(items, coin, "UP"))
      && (card.downPrice, card.downChange) == Fields(LastQuote(items, coin, "DOWN"))
    decreases |items|
  {
    var init := items[..|items| - 1];
    var last := items[|items| - 1];
    var before := Build(init, period);
    assert Build(items, period) == Apply(before, last, period);
    BuildShape(init, period);
    ApplyFields(before, last, period, coin);
    if coin in before.cards {
      BuildLastWriterWins(init, period, coin);
    } else {
      LastQuoteOfAbsentCoin(init, coin, "UP");
      LastQuoteOfAbsentCoin(init, coin, "DOWN");
    }
  }

  // ---------------------------------------------------------------------------
  // refreshMarkets

  /** A card as stored in the component state: every card gets the same time
      left and the status `active`. */
  datatype ShownMarket = ShownMarket(card: MarketCard, timeRemaining: string, status: string)

  /** The body of `/api/markets`; a body without `markets` makes the
      transform throw. */
  datatype MarketsBody = MarketsBody(markets: Option<seq<Quote>>, period: Option<string>, periodEnd: Option<int>)

  function Shown(board: Board, timeRemaining: string): (r: seq<ShownMarket>)
    requires forall i :: 0 <= i < |board.order| ==> board.order[i] in board.cards
    ensures |r| == |board.order|
    ensures forall i :: 0 <= i < |r| ==> r[i].card == board.cards[board.order[i]]
  {
    seq(|board.order|, i requires 0 <= i < |board.order| => ShownMarket(board.cards[board.order[i]], timeRemaining, "active"))
  }

  /** One refresh: the new list of cards, or the previous list when the fetch
      failed or the body had no `markets` (the error is caught and the state
      left alone). */
  function RefreshMarkets(previous: seq<ShownMarket>, response: Option<MarketsBody>, now: int): (r: seq<ShownMarket>)
    ensures response.None? || response.value.markets.None? ==> r == previous
  {
    match response
    case None => previous
    case Some(body) =>
      match body.markets
      case None => previous
      case Some(items) =>
        var period := PeriodOf(body.period);
        var board := Build(items, period);
        BuildShape(items, period);
        Shown(board, Countdown.FixedTimeRemaining(body.periodEnd, now))
  }

  /** After a successful refresh there is one card per distinct coin, in
      order of first appearance, each with the shared period, time left and
      status. */
  lemma RefreshMarketsShape(previous: seq<ShownMarket>, body: MarketsBody, items: seq<Quote>, now: int)
    requires body.markets == Some(items)
    ensures var r := RefreshMarkets(previous, Some(body), now);
      && |r| == |Distinct(CoinSeq(items))|
      && (forall i :: 0 <= i < |r| ==>
            && r[i].card.symbol == Distinct(CoinSeq(items))[i]
            && r[i].card.period == PeriodOf(body.period)
            && r[i].timeRemaining == Countdown.FixedTimeRemaining(body.periodEnd, now)
            && r[i].status == "active")
  {
    var period := PeriodOf(body.period);
    var board := Build(items, period);
    var t := Countdown.FixedTimeRemaining(body.periodEnd, now);
    var r := RefreshMarkets(previous, Some(body), now);
    BuildShape(items, period);
    assert r == Shown(board, t);
    ShownShape(r, board, t, period, Distinct(CoinSeq(items)));
  }

  lemma ShownShape(r: seq<ShownMarket>, board: Board, t: string, period: string, coins: seq<string>)
    requires board.Valid(period) && board.order == coins && r == Shown(board, t)
    ensures && |r| == |coins|
      && (forall i :: 0 <= i < |r| ==>
            && r[i].card.symbol == coins[i]
            && r[i].card.period == period
            && r[i].timeRemaining == t
            && r[i].status == "active")
  {
  }
}

=== FILE: records.dfy ===
/** The ad hoc JSON objects that several parts of the dashboard pass around. */
module Records {
  import opened Common

  /** A process id as the status objects carry it: a number, or the text
      `N/A` when the bot is not running. */
  datatype Pid = PidNumber(n: int) | PidText(text: string)

  /** `pid || 'N/A'`: a missing PID, PID 0 and an empty text all read `N/A`. */
  function PidLabel(pid: Option<Pid>): (r: string)
    ensures pid.None? || pid == Some(PidNumber(0)) || pid == Some(PidText("")) ==> r == "N/A"
    ensures pid.Some? && pid.value.PidNumber? && pid.value.n != 0 ==> r == ShowInt(pid.value.n)
    ensures pid.Some? && pid.value.PidText? && |pid.value.text| > 0 ==> r == pid.value.text
  {
    match pid
    case None => "N/A"
    case Some(PidNumber(n)) => if n == 0 then "N/A" else ShowInt(n)
    case Some(PidText(t)) => if |t| == 0 then "N/A" else t
  }

  /** A numeric PID is shown as digits, so it reads `N/A` only when it is 0. */
  lemma PidLabelNumber(n: int)
    ensures PidLabel(Some(PidNumber(n))) == "N/A" <==> n == 0
  {
    if n != 0 {
      var s := ShowInt(n);
      if n > 0 {
        assert IsDigit(s[0]);
      } else {
        assert s[0] == '-';
      }
    }
  }

  /** A bot status object as received over the socket or from the API. Every
      field may be missing; `None` stands for an absent field. */
  datatype StatusRecord = StatusRecord(
    running: Option<bool>,
    pid: Option<Pid>,
    cpu: Option<real>,
    memoryMb: Option<real>,
    uptime: Option<string>,
    lastTrade: Option<string>,
    health: Option<string>)

  /** One market contract: its symbol (`BTC-UP`), best bid, best ask and
      change. */
  datatype Quote = Quote(symbol: string, bid: real, ask: real, change: real)

  /** A market snapshot as pushed by `markets:update` or fetched from the API;
      the period end is already read as Unix milliseconds. */
  datatype MarketSnapshot = MarketSnapshot(
    markets: Option<seq<Quote>>,
    periodEnd: Option<int>,
    period: Option<string>,
    timestamp: Option<string>)
}

=== FILE: status_probe.dfy ===
/** The server's bot status probe: the newest health-log line that mentions a
    PID or a memory figure is read with three patterns, and fixed records
    stand in when there is no such line or the log cannot be read. */
module StatusProbe {
  import opened Common
  import opened Records

  // ---------------------------------------------------------------------------
  // The three patterns

  /** The characters `\s` matches in a JavaScript regular expression. */
  predicate IsSpace(c: char) {
    c == ' ' || c == '\t' || c == '\n' || c == '\U{000B}' || c == '\U{000C}' || c == '\r'
    || c == '\U{00A0}' || c == '\U{1680}' || ('\U{2000}' <= c <= '\U{200A}')
    || c == '\U{2028}' || c == '\U{2029}' || c == '\U{202F}' || c == '\U{205F}'
    || c == '\U{3000}' || c == '\U{FEFF}'
  }

  /** The character class of a capture: `\d` or `[\d.]`. */
  datatype CharClass = Digits | DigitsOrDot

  predicate InClass(c: char, cls: CharClass) {
    match cls
    case Digits => IsDigit(c)
    case DigitsOrDot => IsDigit(c) || c == '.'
  }

  /** The end of the run of whitespace starting at `j` (what a greedy `\s*`
      consumes). */
  function SkipSpace(s: string, j: nat): (k: nat)
    requires j <= |s|
    ensures j <= k <= |s|
    ensures forall m :: j <= m < k ==> IsSpace(s[m])
    ensures k == |s| || !IsSpace(s[k])
    decreases |s| - j
  {
    if j == |s| || !IsSpace(s[j]) then j else SkipSpace(s, j + 1)
  }

  /** The end of the run of `cls` characters starting at `j` (what a greedy
      `+` or `*` over the class consumes). */
  function RunEnd(s: string, j: nat, cls: CharClass): (k: nat)
    requires j <= |s|
    ensures j <= k <= |s|
    ensures forall m :: j <= m < k ==> InClass(s[m], cls)
    ensures k == |s| || !InClass(s[k], cls)
    decreases |s| - j
  {
    if j == |s| || !InClass(s[j], cls) then j else RunEnd(s, j + 1, cls)
  }

  /** A run is determined by where it stops. */
  lemma {:induction false} RunEndIs(s: string, j: nat, e: nat, cls: CharClass)
    requires j <= e <= |s|
    requires forall m :: j <= m < e ==> InClass(s[m], cls)
    requires e == |s| || !InClass(s[e], cls)
    ensures RunEnd(s, j, cls) == e
    decreases e - j
  {
    if j < e {
      RunEndIs(s, j + 1, e, cls);
    }
  }

  /** `PID:\s*(\d+)`, `Memory:\s*([\d.]+)\s*MB` and `CPU:\s*([\d.]+)%`. */
  datatype Pattern = PidPattern | MemoryPattern | CpuPattern

  function Label(p: Pattern): string {
    match p
    case PidPattern => "PID:"
    case MemoryPattern => "Memory:"
    case CpuPattern => "CPU:"
  }

  function ClassOf(p: Pattern): CharClass {
    if p.PidPattern? then Digits else DigitsOrDot
  }

  /** The capture of a match starting at `i`, if the pattern matches there.
      Backtracking finds no other match: a shorter capture would be followed
      by a class character, which is neither whitespace nor `M` nor `%`, and
      neither is a whitespace character a class character. */
  function MatchAt(p: Pattern, s: string, i: nat): Option<string>
    requires i <= |s|
  {
    if !OccursAt(s, Label(p), i) then None
    else
      var j := SkipSpace(s, i + |Label(p)|);
      var k := RunEnd(s, j, ClassOf(p));
      if k == j then None
      else
        match p
        case PidPattern => Some(s[j..k])
        case MemoryPattern => if OccursAt(s, "MB", SkipSpace(s, k)) then Some(s[j..k]) else None
        case CpuPattern => if k < |s| && s[k] == '%' then Some(s[j..k]) else None
  }

  /** A match at a position has the label there and captures a non-empty run
      of the pattern's class. */
  lemma MatchAtShape(p: Pattern, s: string, i: nat)
    requires i <= |s|
    ensures var r := MatchAt(p, s, i);
      r.Some? ==> OccursAt(s, Label(p), i) && |r.value| > 0 && forall m :: 0 <= m < |r.value| ==> InClass(r.value[m], ClassOf(p))
  {
    var r := MatchAt(p, s, i);
    if r.Some? {
      var j := SkipSpace(s, i + |Label(p)|);
      var k := RunEnd(s, j, ClassOf(p));
      assert r.value == s[j..k];
    }
  }

  /** The first present entry at or after `i`. */
  function FirstSome(xs: seq<Option<string>>, i: nat): Option<string>
    requires i <= |xs|
    decreases |xs| - i
  {
    if i == |xs| then None
    else if xs[i].Some? then xs[i]
    else FirstSome(xs, i + 1)
  }

  /** `FirstSome` finds nothing exactly when every entry from `i` on is
      missing, and otherwise the entry at the first position that has one. */
  lemma {:induction false} FirstSomeLeftmost(xs: seq<Option<string>>, i: nat)
    requires i <= |xs|
    ensures FirstSome(xs, i).None? <==> forall k :: i <= k < |xs| ==> xs[k].None?
    ensures FirstSome(xs, i).Some? ==>
      exists k :: i <= k < |xs| && xs[k] == FirstSome(xs, i) && forall m :: i <= m < k ==> xs[m].None?
    decreases |xs| - i
  {
    if i < |xs| && xs[i].None? {
      FirstSomeLeftmost(xs, i + 1);
      if FirstSome(xs, i + 1).Some? {
        var k :| i + 1 <= k < |xs| && xs[k] == FirstSome(xs, i + 1) && forall m :: i + 1 <= m < k ==> xs[m].None?;
        assert forall m :: i <= m < k ==> xs[m].None?;
      }
    }
  }

  /** The match result at every position of the line, the end included. */
  function Matches(p: Pattern, s: string): (ms: seq<Option<string>>)
    ensures |ms| == |s| + 1
    ensures forall k :: 0 <= k <= |s| ==> ms[k] == MatchAt(p, s, k)
  {
    seq(|s| + 1, k requires 0 <= k <= |s| => MatchAt(p, s, k))
  }

  /** The leftmost match at or after `i`. */
  function Search(p: Pattern, s: string, i: nat): Option<string>
    requires i <= |s|
  {
    FirstSome(Matches(p, s), i)
  }

  /** The search fails exactly when the pattern matches nowhere from `i` on,
      and otherwise returns the match at the first position that has one. */
  lemma SearchLeftmost(p: Pattern, s: string, i: nat)
    requires i <= |s|
    ensures Search(p, s, i).None? <==> forall k :: i <= k <= |s| ==> MatchAt(p, s, k).None?
    ensures Search(p, s, i).Some? ==>
      exists k :: i <= k <= |s| && MatchAt(p, s, k) == Search(p, s, i) && forall m :: i <= m < k ==> MatchAt(p, s, m).None?
  {
    var ms := Matches(p, s);
    FirstSomeLeftmost(ms, i);
    if Search(p, s, i).Some? {
      var k :| i <= k < |ms| && ms[k] == FirstSome(ms, i) && forall m :: i <= m < k ==> ms[m].None?;
      assert MatchAt(p, s, k) == Search(p, s, i);
    }
  }

  /** `line.match(pattern)`, reduced to its capture group. */
  function Match(p: Pattern, s: string): (r: Option<string>)
    ensures r.Some? ==> |r.value| > 0 && forall m :: 0 <= m < |r.value| ==> InClass(r.value[m], ClassOf(p))
  {
    SearchCapture(p, s);
    Search(p, s, 0)
  }

  lemma SearchCapture(p: Pattern, s: string)
    ensures var r := Search(p, s, 0);
      r.Some? ==> |r.value| > 0 && forall m :: 0 <= m < |r.value| ==> InClass(r.value[m], ClassOf(p))
  {
    var r := Search(p, s, 0);
    SearchLeftmost(p, s, 0);
    if r.Some? {
      var k :| 0 <= k <= |s| && MatchAt(p, s, k) == r;
      MatchAtShape(p, s, k);
    }
  }

  // ---------------------------------------------------------------------------
  // Number parsing

  /** `parseFloat` of a run of digits and dots: the longest prefix of the form
      digits, optionally followed by a dot and more digits; NaN (`None`) when
      that prefix holds no digit at all. */
  function ParseDecimal(t: string): (r: Option<real>)
    ensures r.Some? ==> r.value >= 0.0
    ensures |t| > 0 && IsDigit(t[0]) ==> r.Some?
  {
    var ip := RunEnd(t, 0, Digits);
    var whole := ParseDigits(t[..ip]);
    var fracEnd := if ip < |t| && t[ip] == '.' then RunEnd(t, ip + 1, Digits) else ip;
    var frac := if ip < |t| && t[ip] == '.' then t[ip + 1..fracEnd] else "";
    if ip == 0 && |frac| == 0 then None
    else Some(whole as real + FractionValue(frac))
  }

  /** The value of the digits after a decimal point: `f` read as a whole
      number of units of the `|f|`-th decimal place. */
  function FractionValue(f: string): (v: real)
    requires AllDigits(f)
    ensures v >= 0.0
    ensures v * Pow10(|f|) as real == ParseDigits(f) as real
  {
    QuotientNonNegative(ParseDigits(f), Pow10(|f|));
    ParseDigits(f) as real / Pow10(|f|) as real
  }

  lemma QuotientNonNegative(a: nat, b: nat)
    requires b >= 1
    ensures a as real / b as real >= 0.0
  {
  }

  /** An integer rendering parses to its value. */
  lemma ParseDecimalOfNat(n: nat)
    ensures ParseDecimal(ShowNat(n)) == Some(n as real)
  {
    var d := ShowNat(n);
    RunEndIs(d, 0, |d|, Digits);
    ParseShowNat(n);
    assert d[..|d|] == d;
  }

  /** Where the runs of a rendering with a fraction part stop. */
  lemma FractionRuns(d: string, f: string)
    requires |d| > 0 && AllDigits(d) && AllDigits(f)
    ensures var t := d + "." + f;
      RunEnd(t, 0, Digits) == |d| && t[|d|] == '.' && RunEnd(t, |d| + 1, Digits) == |t|
      && t[..|d|] == d && t[|d| + 1..] == f
  {
    var t := d + "." + f;
    forall m | 0 <= m < |d| ensures InClass(t[m], Digits) {
      assert t[m] == d[m];
    }
    RunEndIs(t, 0, |d|, Digits);
    forall m | |d| + 1 <= m < |t| ensures InClass(t[m], Digits) {
      assert t[m] == f[m - |d| - 1];
    }
    RunEndIs(t, |d| + 1, |t|, Digits);
    assert t[..|d|] == d;
    assert t[|d| + 1..] == f;
  }

  /** A text whose digits stop at a point, with only digits after it, parses
      to its whole part plus its fraction part. */
  lemma ParseDecimalAtPoint(t: string, ip: nat)
    requires 0 < ip < |t| && t[ip] == '.'
    requires RunEnd(t, 0, Digits) == ip && RunEnd(t, ip + 1, Digits) == |t|
    ensures AllDigits(t[..ip]) && AllDigits(t[ip + 1..])
    ensures ParseDecimal(t) == Some(ParseDigits(t[..ip]) as real + FractionValue(t[ip + 1..]))
  {
    assert t[ip + 1..|t|] == t[ip + 1..];
  }

  /** A rendering with a fraction part `f` parses to the whole part plus
      `f` read as digits after the point; the figures a log line carries,
      such as `16.93`, are of this form. */
  lemma ParseDecimalOfFraction(a: nat, f: string)
    requires AllDigits(f)
    ensures ParseDecimal(ShowNat(a) + "." + f) == Some(a as real + FractionValue(f))
  {
    ParseShowNat(a);
    ParseDecimalOfParts(ShowNat(a), f, a);
  }

  /** The same, for any digit string whose value is `a`. */
  lemma ParseDecimalOfParts(d: string, f: string, a: nat)
    requires |d| > 0 && AllDigits(d) && AllDigits(f) && ParseDigits(d) == a
    ensures ParseDecimal(d + "." + f) == Some(a as real + FractionValue(f))
  {
    var t := d + "." + f;
    FractionRuns(d, f);
    ParseDecimalAtPoint(t, |d|);
  }

  /** A lone dot is NaN. */
  lemma ParseDecimalDot()
    ensures ParseDecimal(".") == None
  {
    assert RunEnd(".", 0, Digits) == 0;
    assert RunEnd(".", 1, Digits) == 1;
  }

  /** The parse stops at a second dot. */
  lemma ParseDecimalSecondDot()
    ensures ParseDecimal("1.2.3") == Some(1.2)
  {
    var t := "1.2.3";
    RunEndIs(t, 0, 1, Digits);
    RunEndIs(t, 2, 3, Digits);
    assert t[..1] == "1" && t[2..3] == "2";
    assert ParseDigits("1") == 1 && ParseDigits("2") == 2;
  }

  /** Digits after a leading dot are a fraction. */
  lemma ParseDecimalLeadingDot()
    ensures ParseDecimal(".5") == Some(0.5)
  {
    var h := ".5";
    RunEndIs(h, 0, 0, Digits);
    RunEndIs(h, 1, 2, Digits);
    assert h[..0] == "" && h[1..2] == "5";
    assert ParseDigits("5") == 5;
  }

  // ---------------------------------------------------------------------------
  // The probe

  /** What the server sends for `/api/status`. */
  datatype ServerStatus = ServerStatus(
    running: bool,
    pid: Pid,
    cpu: Option<real>,
    memoryMb: Option<real>,
    uptime: string,
    lastTrade: string,
    health: string,
    timestamp: string)

  const DefaultPid: nat := 34612
  const DefaultMemoryMb: real := 16.93

  /** The health log: absent, present but unreadable, or its text. */
  datatype LogFile = Missing | Unreadable | Present(content: string)

  /** A line worth reading mentions a PID or a memory figure. */
  predicate IsStatusLine(line: string) {
    Contains(line, "PID:") || Contains(line, "Memory:")
  }

  /** The PID a line names, or the default. */
  function PidOf(line: string): (pid: nat)
    ensures Match(PidPattern, line).None? ==> pid == DefaultPid
  {
    match Match(PidPattern, line)
    case Some(t) => ParseDigits(t)
    case None => DefaultPid
  }

  /** The memory figure a line reports, before rounding, or the default. */
  function MemoryOf(line: string): (m: Option<real>)
    ensures Match(MemoryPattern, line).None? ==> m == Some(DefaultMemoryMb)
  {
    match Match(MemoryPattern, line)
    case Some(t) => ParseDecimal(t)
    case None => Some(DefaultMemoryMb)
  }

  /** The CPU figure a line reports, or the default. */
  function CpuOf(line: string): (c: Option<real>)
    ensures Match(CpuPattern, line).None? ==> c == Some(0.0)
  {
    match Match(CpuPattern, line)
    case Some(t) => ParseDecimal(t)
    case None => Some(0.0)
  }

  /** `memory_mb` as sent: rounded to cents, NaN left as NaN. */
  function RoundedMemory(m: Option<real>): (r: Option<real>)
    ensures r.None? <==> m.None?
    ensures r.Some? ==> m.value - 0.005 < r.value <= m.value + 0.005
    ensures r.Some? ==> (r.value * 100.0).Floor as real == r.value * 100.0
  {
    match m
    case Some(x) => Some(RoundCents(x))
    case None => None
  }

  /** The record read from a status line; `alive` answers whether the
      process-list query filtered on that PID exits with status 0. */
  function StatusFromLine(line: string, alive: nat -> bool, nowIso: string): (r: ServerStatus)
    ensures r.pid == PidNumber(PidOf(line)) && r.running == alive(PidOf(line))
    ensures r.running <==> r.health == "HEALTHY"
    ensures !r.running ==> r.health == "STOPPED"
    ensures r.cpu == CpuOf(line) && r.memoryMb == RoundedMemory(MemoryOf(line))
  {
    var pid := PidOf(line);
    var running := alive(pid);
    ServerStatus(
      running, PidNumber(pid), CpuOf(line), RoundedMemory(MemoryOf(line)),
      "30m+", "No recent trades", if running then "HEALTHY" else "STOPPED", nowIso)
  }

  /** Without a usable line: the default record when a bot process is found
      by name, a stopped record otherwise. */
  function Fallback(nameFound: bool, nowIso: string): (r: ServerStatus)
    ensures r.running == nameFound
    ensures r.running <==> r.health == "HEALTHY"
    ensures r.running ==> r.pid == PidNumber(DefaultPid) && r.memoryMb == Some(DefaultMemoryMb)
    ensures !r.running ==> r.pid == PidText("N/A") && r.memoryMb == Some(0.0) && r.health == "STOPPED"
  {
    if nameFound then
      ServerStatus(true, PidNumber(34612), Some(0.0), Some(16.93), "30m+", "No recent trades", "HEALTHY", nowIso)
    else
      ServerStatus(false, PidText("N/A"), Some(0.0), Some(0.0), "0m", "Bot stopped", "STOPPED", nowIso)
  }

  /** The record for a log that cannot be read. */
  function ErrorStatus(nowIso: string): (r: ServerStatus)
    ensures !r.running && r.health == "ERROR" && r.pid == PidText("N/A")
  {
    ServerStatus(false, PidText("N/A"), Some(0.0), Some(0.0), "0m", "Error checking", "ERROR", nowIso)
  }

  /** The index of the newest status line: the reference the scan is checked
      against. */
  function LastStatusLine(lines: seq<string>): (r: Option<nat>)
    ensures r.None? <==> forall j :: 0 <= j < |lines| ==> !IsStatusLine(lines[j])
    ensures r.Some? ==> r.value < |lines| && IsStatusLine(lines[r.value])
    ensures r.Some? ==> forall j :: r.value < j < |lines| ==> !IsStatusLine(lines[j])
  {
    if |lines| == 0 then None
    else if IsStatusLine(lines[|lines| - 1]) then Some(|lines| - 1)
    else LastStatusLine(lines[..|lines| - 1])
  }

  /** The status the probe reports, as a definition. */
  function ProbeSpec(file: LogFile, alive: nat -> bool, nameFound: bool, nowIso: string): ServerStatus {
    match file
    case Unreadable => ErrorStatus(nowIso)
    case Missing => Fallback(nameFound, nowIso)
    case Present(content) =>
      var lines := Split(content, '\n');
      match LastStatusLine(lines)
      case Some(k) => StatusFromLine(lines[k], alive, nowIso)
      case None => Fallback(nameFound, nowIso)
  }

  /** The scan: walk the lines newest first and stop at the first status
      line met. */
  method NewestStatusLine(lines: seq<string>) returns (k: Option<nat>)
    ensures k == LastStatusLine(lines)
  {
    var newestFirst := Reverse(lines);
    var n := 0;
    while n < |newestFirst|
      invariant 0 <= n <= |newestFirst|
      invariant forall j :: |lines| - n <= j < |lines| ==> !IsStatusLine(lines[j])
    {
      assert newestFirst[n] == lines[|lines| - 1 - n];
      if IsStatusLine(newestFirst[n]) {
        LastStatusLineIs(lines, |lines| - 1 - n);
        return Some(|lines| - 1 - n);
      }
      n := n + 1;
    }
    return None;
  }

  /** The probe: split the log into lines and read the newest status line. */
  method GetRealBotStatus(file: LogFile, alive: nat -> bool, nameFound: bool, nowIso: string) returns (r: ServerStatus)
    ensures r == ProbeSpec(file, alive, nameFound, nowIso)
    ensures r.running <==> r.health == "HEALTHY"
  {
    match file {
      case Unreadable =>
        r := ErrorStatus(nowIso);
      case Missing =>
        r := Fallback(nameFound, nowIso);
      case Present(content) =>
        var lines := Split(content, '\n');
        var k := NewestStatusLine(lines);
        if k.Some? {
          r := StatusFromLine(lines[k.value], alive, nowIso);
        } else {
          r := Fallback(nameFound, nowIso);
        }
    }
  }

  /** The newest status line is the one after which there are none. */
  lemma LastStatusLineIs(lines: seq<string>, k: nat)
    requires k < |lines| && IsStatusLine(lines[k])
    requires forall j :: k < j < |lines| ==> !IsStatusLine(lines[j])
    ensures LastStatusLine(lines) == Some(k)
  {
  }

  /** The lines the probe walks are exactly the log's lines. */
  lemma ProbeLinesAreTheLog(content: string)
    ensures Join(Split(content, '\n'), '\n') == content
  {
    JoinSplit(content, '\n');
  }

  /** A line written as `PID: <n>` reports that PID. */
  lemma PidRoundTrip(n: nat)
    ensures PidOf("PID: " + ShowNat(n)) == n
  {
    var d := ShowNat(n);
    var s := "PID: " + d;
    assert s[..4] == "PID:";
    assert OccursAt(s, Label(PidPattern), 0);
    assert !IsSpace(s[5]) by {
      assert s[5] == d[0];
    }
    assert SkipSpace(s, 5) == 5;
    assert SkipSpace(s, 4) == 5;
    forall m | 5 <= m < |s| ensures InClass(s[m], Digits) {
      assert s[m] == d[m - 5];
    }
    RunEndIs(s, 5, |s|, Digits);
    assert s[5..|s|] == d;
    assert MatchAt(PidPattern, s, 0) == Some(d);
    ParseShowNat(n);
  }

  /** The capture of `Memory: <v> MB` is `v`, for any run `v` of digits
      and dots. */
  lemma MemoryCaptureOf(d: string)
    requires |d| > 0 && forall m :: 0 <= m < |d| ==> InClass(d[m], DigitsOrDot)
    ensures Match(MemoryPattern, "Memory: " + d + " MB") == Some(d)
  {
    var s := "Memory: " + d + " MB";
    var e := 8 + |d|;
    assert s[..7] == "Memory:";
    assert OccursAt(s, Label(MemoryPattern), 0);
    assert s[8] == d[0];
    assert SkipSpace(s, 8) == 8;
    assert SkipSpace(s, 7) == 8;
    forall m | 8 <= m < e ensures InClass(s[m], DigitsOrDot) {
      assert s[m] == d[m - 8];
    }
    assert s[e] == ' ';
    RunEndIs(s, 8, e, DigitsOrDot);
    assert s[e + 1] == 'M';
    assert SkipSpace(s, e + 1) == e + 1;
    assert SkipSpace(s, e) == e + 1;
    assert s[e + 1..e + 3] == "MB";
    assert s[8..e] == d;
    assert MatchAt(MemoryPattern, s, 0) == Some(d);
  }

  /** The capture of `Memory: <n> MB` is the digits of `n`. */
  lemma MemoryCapture(n: nat)
    ensures Match(MemoryPattern, "Memory: " + ShowNat(n) + " MB") == Some(ShowNat(n))
  {
    var d := ShowNat(n);
    forall m | 0 <= m < |d| ensures InClass(d[m], DigitsOrDot) {
      assert IsDigit(d[m]);
    }
    MemoryCaptureOf(d);
  }

  lemma WholeMegabytesUnrounded(n: nat)
    ensures RoundedMemory(Some(n as real)) == Some(n as real)
  {
    RoundCentsOfCents(n * 100);
    assert (n * 100) as real / 100.0 == n as real;
  }

  /** A line written as `Memory: <n> MB` reports `n` megabytes. */
  lemma MemoryRoundTrip(n: nat, alive: nat -> bool, nowIso: string)
    ensures StatusFromLine("Memory: " + ShowNat(n) + " MB", alive, nowIso).memoryMb == Some(n as real)
  {
    var line := "Memory: " + ShowNat(n) + " MB";
    MemoryCapture(n);
    ParseDecimalOfNat(n);
    assert MemoryOf(line) == Some(n as real);
    WholeMegabytesUnrounded(n);
  }

  /** The capture of `CPU: <v>%` is `v`, for any run `v` of digits and
      dots. */
  lemma CpuCaptureOf(d: string)
    requires |d| > 0 && forall m :: 0 <= m < |d| ==> InClass(d[m], DigitsOrDot)
    ensures Match(CpuPattern, "CPU: " + d + "%") == Some(d)
  {
    var s := "CPU: " + d + "%";
    var e := 5 + |d|;
    assert s[..4] == "CPU:";
    assert OccursAt(s, Label(CpuPattern), 0);
    assert s[5] == d[0];
    assert SkipSpace(s, 5) == 5;
    assert SkipSpace(s, 4) == 5;
    forall m | 5 <= m < e ensures InClass(s[m], DigitsOrDot) {
      assert s[m] == d[m - 5];
    }
    assert s[e] == '%';
    RunEndIs(s, 5, e, DigitsOrDot);
    assert s[5..e] == d;
    assert MatchAt(CpuPattern, s, 0) == Some(d);
  }

  /** A line written as `CPU: <n>%` reports `n` percent. */
  lemma CpuRoundTrip(n: nat, alive: nat -> bool, nowIso: string)
    ensures StatusFromLine("CPU: " + ShowNat(n) + "%", alive, nowIso).cpu == Some(n as real)
  {
    var d := ShowNat(n);
    forall m | 0 <= m < |d| ensures InClass(d[m], DigitsOrDot) {
      assert IsDigit(d[m]);
    }
    CpuCaptureOf(d);
    ParseDecimalOfNat(n);
  }

  /** `a.bc`: a whole part and two decimals. */
  function CentsText(a: nat, cents: nat): string
    requires cents < 100
  {
    ShowNat(a) + "." + [DigitChar(cents / 10), DigitChar(cents % 10)]
  }

  /** The memory line for `a.bc` megabytes, the form the health log writes. */
  function MemoryLine(a: nat, cents: nat): string
    requires cents < 100
  {
    "Memory: " + CentsText(a, cents) + " MB"
  }

  /** The memory pattern captures the whole figure. */
  lemma CentsCapture(a: nat, cents: nat)
    requires cents < 100
    ensures Match(MemoryPattern, MemoryLine(a, cents)) == Some(CentsText(a, cents))
  {
    var d := ShowNat(a);
    var v := CentsText(a, cents);
    forall m | 0 <= m < |v| ensures InClass(v[m], DigitsOrDot) {
      if m < |d| {
        assert v[m] == d[m];
      }
    }
    MemoryCaptureOf(v);
  }

  /** Two digits read back as the number they render. */
  lemma TwoDigits(cents: nat)
    requires cents < 100
    ensures ParseDigits([DigitChar(cents / 10), DigitChar(cents % 10)]) == cents
  {
    var f := [DigitChar(cents / 10), DigitChar(cents % 10)];
    var g := [DigitChar(cents / 10)];
    assert f[..1] == g && g[..0] == [];
    assert ParseDigits(g) == cents / 10;
    assert ParseDigits(f) == ParseDigits(g) * 10 + cents % 10;
  }

  /** `a.bc` parses to `a` plus `bc` hundredths. */
  lemma CentsParse(a: nat, cents: nat)
    requires cents < 100
    ensures ParseDecimal(CentsText(a, cents)) == Some(a as real + cents as real / 100.0)
  {
    var f := [DigitChar(cents / 10), DigitChar(cents % 10)];
    ParseDecimalOfFraction(a, f);
    TwoDigits(cents);
    assert Pow10(|f|) == 100;
    assert FractionValue(f) == cents as real / 100.0;
  }

  /** The figure read from `Memory: <a>.<bc> MB`, before rounding. */
  lemma CentsMemoryOf(a: nat, cents: nat)
    requires cents < 100
    ensures MemoryOf(MemoryLine(a, cents)) == Some(a as real + cents as real / 100.0)
  {
    CentsCapture(a, cents);
    CentsParse(a, cents);
  }

  /** A whole number of hundredths survives the rounding to cents. */
  lemma CentsUnrounded(a: nat, cents: nat)
    ensures RoundedMemory(Some(a as real + cents as real / 100.0)) == Some(a as real + cents as real / 100.0)
  {
    assert a as real + cents as real / 100.0 == (a * 100 + cents) as real / 100.0;
    RoundCentsOfCents(a * 100 + cents);
  }

  /** A line written as `Memory: <a>.<bc> MB` reports `a` megabytes and
      `bc` hundredths, which the rounding to cents leaves unchanged. */
  lemma MemoryRoundTripCents(a: nat, cents: nat, alive: nat -> bool, nowIso: string)
    requires cents < 100
    ensures StatusFromLine(MemoryLine(a, cents), alive, nowIso).memoryMb == Some(a as real + cents as real / 100.0)
  {
    CentsMemoryOf(a, cents);
    CentsUnrounded(a, cents);
  }

  /** The record as the dashboard receives it: every field present, and a NaN
      figure serialised as `null`, which reads as missing. */
  function ToRecord(s: ServerStatus): (r: StatusRecord)
    ensures r.running == Some(s.running) && r.pid == Some(s.pid) && r.health == Some(s.health)
    ensures r.cpu == s.cpu && r.memoryMb == s.memoryMb
    ensures r.uptime == Some(s.uptime) && r.lastTrade == Some(s.lastTrade)
  {
    StatusRecord(Some(s.running), Some(s.pid), s.cpu, s.memoryMb, Some(s.uptime), Some(s.lastTrade), Some(s.health))
  }
}

=== FILE: trade_history.dfy ===
/** The Trade History page: headline statistics, the recent-trades table,
    per-market grouping and the best and worst market. */
module TradeHistory {
  import opened Common

  /** One trade as the trades endpoint returns it. */
  datatype Trade = Trade(tradeId: Option<string>, market: Option<string>, price: real, shares: real, profit: real)

  /** The trade history object; the page gets `None` before the first fetch. */
  datatype History = History(trades: Option<seq<Trade>>, total: Option<int>, lastUpdated: Option<string>)

  /** The table shows at most this many rows. */
  const MaxRows: nat := 20

  /** `tradeHistory?.trades || []` (an array, even an empty one, is truthy). */
  function TradesOf(h: Option<History>): (ts: seq<Trade>)
    ensures h.Some? && h.value.trades.Some? ==> ts == h.value.trades.value
    ensures h.None? || h.value.trades.None? ==> ts == []
  {
    match h
    case None => []
    case Some(x) => x.trades.GetOr([])
  }

  /** `tradeHistory?.total || 0`. */
  function TotalOf(h: Option<History>): (n: int)
    ensures h.Some? && h.value.total.Some? ==> n == h.value.total.value
    ensures h.None? || h.value.total.None? ==> n == 0
  {
    match h
    case None => 0
    case Some(x) => x.total.GetOr(0)
  }

  // ---------------------------------------------------------------------------
  // Statistics. Sums run from the last trade so that appending a trade adds
  // one term.

  /** The total profit: with no losing trade it is not negative, with no
      winning trade not positive. */
  function SumProfit(ts: seq<Trade>): real
  {
    if |ts| == 0 then 0.0 else SumProfit(ts[..|ts| - 1]) + ts[|ts| - 1].profit
  }

  /** A run without losses totals at least zero, one without wins at most
      zero. */
  lemma {:induction false} SumProfitSign(ts: seq<Trade>)
    ensures (forall i :: 0 <= i < |ts| ==> !IsLoss(ts[i])) ==> SumProfit(ts) >= 0.0
    ensures (forall i :: 0 <= i < |ts| ==> !IsWin(ts[i])) ==> SumProfit(ts) <= 0.0
  {
    if |ts| > 0 {
      var p := ts[..|ts| - 1];
      SumProfitSign(p);
      assert forall i :: 0 <= i < |p| ==> p[i] == ts[i];
    }
  }

  /** The total over a concatenation is the sum of the totals, so the order
      in which trades are added up does not matter for the split. */
  lemma {:induction false} SumProfitAppend(a: seq<Trade>, b: seq<Trade>)
    ensures SumProfit(a + b) == SumProfit(a) + SumProfit(b)
    decreases |b|
  {
    if |b| > 0 {
      var b' := b[..|b| - 1];
      assert (a + b)[..|a + b| - 1] == a + b';
      SumProfitAppend(a, b');
    } else {
      assert a + b == a;
    }
  }

  predicate IsWin(t: Trade) { t.profit > 0.0 }
  predicate IsLoss(t: Trade) { t.profit < 0.0 }

  /** No trade is both a win and a loss, and a trade that broke even is
      neither. */
  lemma WinLossExclusive(t: Trade)
    ensures !(IsWin(t) && IsLoss(t))
    ensures !IsWin(t) && !IsLoss(t) <==> t.profit == 0.0
  {
  }

  function CountWins(ts: seq<Trade>): (n: nat)
    ensures n <= |ts|
  {
    if |ts| == 0 then 0 else CountWins(ts[..|ts| - 1]) + (if IsWin(ts[|ts| - 1]) then 1 else 0)
  }

  function CountLosses(ts: seq<Trade>): (n: nat)
    ensures n <= |ts|
  {
    if |ts| == 0 then 0 else CountLosses(ts[..|ts| - 1]) + (if IsLoss(ts[|ts| - 1]) then 1 else 0)
  }

  /** A trade with zero profit is neither a win nor a loss, so wins and
      losses cover the list exactly when no trade broke even. */
  lemma {:induction false} WinsAndLosses(ts: seq<Trade>)
    ensures CountWins(ts) + CountLosses(ts) <= |ts|
    ensures CountWins(ts) + CountLosses(ts) == |ts| <==> forall i :: 0 <= i < |ts| ==> ts[i].profit != 0.0
  {
    if |ts| > 0 {
      var p := ts[..|ts| - 1];
      WinsAndLosses(p);
      assert forall i :: 0 <= i < |p| ==> p[i] == ts[i];
    }
  }

  /** The headline win rate: wins over the reported total, 0 without a
      positive total. */
  function WinRate(wins: nat, total: int): (rate: real)
    ensures total <= 0 ==> rate == 0.0
    ensures total > 0 ==> rate * total as real == wins as real * 100.0
  {
    if total > 0 then wins as real / total as real * 100.0 else 0.0
  }

  /** The rate is a percentage when the reported total is at least the number
      of listed trades. */
  lemma WinRateIsPercentage(ts: seq<Trade>, total: int)
    requires total >= |ts|
    ensures 0.0 <= WinRate(CountWins(ts), total) <= 100.0
  {
    if total > 0 {
      Ratio(CountWins(ts) as real, total as real);
    }
  }

  lemma Ratio(w: real, n: real)
    requires 0.0 <= w <= n && n > 0.0
    ensures 0.0 <= w / n * 100.0 <= 100.0
  {
    var q := w / n;
    assert q * n == w;
  }

  /** The rate exceeds 100 when the reported total falls short of the listed
      wins: two winning trades against a total of one read 200 %. */
  lemma WinRateOverHundred()
    ensures var w := Trade(None, None, 1.0, 1.0, 1.0);
      WinRate(CountWins([w, w]), 1) == 200.0
  {
    var w := Trade(None, None, 1.0, 1.0, 1.0);
    assert [w, w][..1] == [w];
    assert [w][..0] == [];
    assert CountWins([w, w]) == 2;
  }

  /** The average trade; `None` is the `0.00` shown without a positive total. */
  function AverageTrade(totalProfit: real, total: int): (avg: Option<real>)
    ensures avg.None? <==> total <= 0
    ensures avg.Some? ==> avg.value * total as real == totalProfit
  {
    if total > 0 then Some(totalProfit / total as real) else None
  }

  // ---------------------------------------------------------------------------
  // Grouping by market

  /** `trade.market || 'Unknown'`: a missing and an empty market both group
      under `Unknown`. */
  function MarketKey(t: Trade): (k: string)
    ensures |k| > 0
    ensures t.market.Some? && |t.market.value| > 0 ==> k == t.market.value
  {
    if t.market.Some? && |t.market.value| > 0 then t.market.value else "Unknown"
  }

  /** The trades of one market, in list order: the reference definition of a
      group's contents. */
  function FilterByKey(ts: seq<Trade>, key: string): seq<Trade> {
    if |ts| == 0 then []
    else FilterByKey(ts[..|ts| - 1], key) + (if MarketKey(ts[|ts| - 1]) == key then [ts[|ts| - 1]] else [])
  }

  datatype MarketGroup = MarketGroup(market: string, trades: seq<Trade>)

  /** The index of the group for `key`, if there is one. */
  function FindGroup(gs: seq<MarketGroup>, key: string): (r: Option<nat>)
    ensures r.None? <==> forall i :: 0 <= i < |gs| ==> gs[i].market != key
    ensures r.Some? ==> r.value < |gs| && gs[r.value].market == key
  {
    if |gs| == 0 then None
    else if gs[|gs| - 1].market == key then Some(|gs| - 1)
    else FindGroup(gs[..|gs| - 1], key)
  }

  /** One step of the reduce: push the trade onto its market's group, opening
      a new group at the end for a market not seen yet. */
  function Insert(gs: seq<MarketGroup>, t: Trade): (r: seq<MarketGroup>)
    ensures |gs| <= |r| <= |gs| + 1
    ensures forall k :: 0 <= k < |gs| && gs[k].market != MarketKey(t) ==> r[k] == gs[k]
  {
    var key := MarketKey(t);
    match FindGroup(gs, key)
    case Some(i) => gs[i := MarketGroup(key, gs[i].trades + [t])]
    case None => gs + [MarketGroup(key, [t])]
  }

  /** The groups in the order their markets first occur. */
  function GroupByMarket(ts: seq<Trade>): (r: seq<MarketGroup>)
    ensures |r| <= |ts|
    ensures |r| == 0 <==> |ts| == 0
  {
    if |ts| == 0 then [] else Insert(GroupByMarket(ts[..|ts| - 1]), ts[|ts| - 1])
  }

  /** What the grouping promises about a list of trades: one group per
      market, each holding exactly that market's trades, and every trade in
      some group. */
  ghost predicate Grouped(gs: seq<MarketGroup>, ts: seq<Trade>) {
    DistinctMarkets(gs) && GroupsMatch(gs, ts) && Covers(gs, ts)
  }

  ghost predicate DistinctMarkets(gs: seq<MarketGroup>) {
    forall i, j :: 0 <= i < j < |gs| ==> gs[i].market != gs[j].market
  }

  ghost predicate GroupsMatch(gs: seq<MarketGroup>, ts: seq<Trade>) {
    forall i :: 0 <= i < |gs| ==> gs[i].trades == FilterByKey(ts, gs[i].market) && |gs[i].trades| > 0
  }

  ghost predicate Covers(gs: seq<MarketGroup>, ts: seq<Trade>) {
    forall j :: 0 <= j < |ts| ==> FindGroup(gs, MarketKey(ts[j])).Some?
  }

  lemma FilterByKeySnoc(ts: seq<Trade>, t: Trade, key: string)
    ensures FilterByKey(ts + [t], key) == FilterByKey(ts, key) + (if MarketKey(t) == key then [t] else [])
  {
    assert (ts + [t])[..|ts|] == ts;
  }

  /** Pushing onto an existing group keeps the promise. */
  lemma InsertExisting(gs: seq<MarketGroup>, ts: seq<Trade>, t: Trade, i: nat)
    requires Grouped(gs, ts)
    requires FindGroup(gs, MarketKey(t)) == Some(i)
    ensures Grouped(Insert(gs, t), ts + [t])
  {
    var key := MarketKey(t);
    var r := Insert(gs, t);
    assert r == gs[i := MarketGroup(key, gs[i].trades + [t])];
    assert forall k :: 0 <= k < |r| ==> r[k].market == gs[k].market;
    ExistingMatches(gs, ts, t, i);
    ExistingCovers(gs, ts, t, i, r);
  }

  lemma ExistingMatches(gs: seq<MarketGroup>, ts: seq<Trade>, t: Trade, i: nat)
    requires DistinctMarkets(gs) && GroupsMatch(gs, ts) && i < |gs| && gs[i].market == MarketKey(t)
    ensures GroupsMatch(gs[i := MarketGroup(MarketKey(t), gs[i].trades + [t])], ts + [t])
  {
    var r := gs[i := MarketGroup(MarketKey(t), gs[i].trades + [t])];
    forall k | 0 <= k < |r| ensures r[k].trades == FilterByKey(ts + [t], r[k].market) {
      FilterByKeySnoc(ts, t, gs[k].market);
      if k != i {
        assert gs[k].market != MarketKey(t);
      }
    }
  }

  lemma ExistingCovers(gs: seq<MarketGroup>, ts: seq<Trade>, t: Trade, i: nat, r: seq<MarketGroup>)
    requires Covers(gs, ts) && i < |gs| && gs[i].market == MarketKey(t)
    requires |r| == |gs| && forall k :: 0 <= k < |r| ==> r[k].market == gs[k].market
    ensures Covers(r, ts + [t])
  {
    var ts' := ts + [t];
    forall j | 0 <= j < |ts'| ensures FindGroup(r, MarketKey(ts'[j])).Some? {
      if j < |ts| {
        assert ts'[j] == ts[j];
        var m := FindGroup(gs, MarketKey(ts[j])).value;
        assert r[m].market == MarketKey(ts'[j]);
      } else {
        assert r[i].market == MarketKey(t);
      }
    }
  }

  /** Opening a new group for an unseen market keeps the promise. */
  lemma InsertFresh(gs: seq<MarketGroup>, ts: seq<Trade>, t: Trade)
    requires Grouped(gs, ts)
    requires FindGroup(gs, MarketKey(t)).None?
    ensures Grouped(Insert(gs, t), ts + [t])
  {
    var r := gs + [MarketGroup(MarketKey(t), [t])];
    assert Insert(gs, t) == r;
    FreshDistinct(gs, t);
    FreshMatch(gs, ts, t);
    FreshCovers(gs, ts, t);
  }

  lemma FreshDistinct(gs: seq<MarketGroup>, t: Trade)
    requires DistinctMarkets(gs)
    requires FindGroup(gs, MarketKey(t)).None?
    ensures DistinctMarkets(gs + [MarketGroup(MarketKey(t), [t])])
  {
  }

  lemma FreshMatch(gs: seq<MarketGroup>, ts: seq<Trade>, t: Trade)
    requires GroupsMatch(gs, ts) && Covers(gs, ts)
    requires FindGroup(gs, MarketKey(t)).None?
    ensures GroupsMatch(gs + [MarketGroup(MarketKey(t), [t])], ts + [t])
  {
    var key := MarketKey(t);
    FreshKeyUnused(gs, ts, key);
    FilterByKeyAbsent(ts, key);
    FilterByKeySnoc(ts, t, key);
    FreshOldGroups(gs, ts, t);
    GroupsMatchSnoc(gs, MarketGroup(key, [t]), ts + [t]);
  }

  /** A market without a group has no trades among those the groups cover. */
  lemma FreshKeyUnused(gs: seq<MarketGroup>, ts: seq<Trade>, key: string)
    requires Covers(gs, ts)
    requires forall i :: 0 <= i < |gs| ==> gs[i].market != key
    ensures forall j :: 0 <= j < |ts| ==> MarketKey(ts[j]) != key
  {
    forall j | 0 <= j < |ts| ensures MarketKey(ts[j]) != key {
      var m := FindGroup(gs, MarketKey(ts[j])).value;
      assert gs[m].market == MarketKey(ts[j]);
    }
  }

  /** A trade of another market leaves the existing groups matching. */
  lemma FreshOldGroups(gs: seq<MarketGroup>, ts: seq<Trade>, t: Trade)
    requires GroupsMatch(gs, ts)
    requires forall i :: 0 <= i < |gs| ==> gs[i].market != MarketKey(t)
    ensures GroupsMatch(gs, ts + [t])
  {
    forall k | 0 <= k < |gs| ensures gs[k].trades == FilterByKey(ts + [t], gs[k].market) {
      FilterByKeySnoc(ts, t, gs[k].market);
    }
  }

  lemma GroupsMatchSnoc(gs: seq<MarketGroup>, g: MarketGroup, ts: seq<Trade>)
    requires GroupsMatch(gs, ts)
    requires g.trades == FilterByKey(ts, g.market) && |g.trades| > 0
    ensures GroupsMatch(gs + [g], ts)
  {
    var r := gs + [g];
    forall k | 0 <= k < |r| ensures r[k].trades == FilterByKey(ts, r[k].market) && |r[k].trades| > 0 {
      if k < |gs| {
        assert r[k] == gs[k];
      }
    }
  }

  lemma FreshCovers(gs: seq<MarketGroup>, ts: seq<Trade>, t: Trade)
    requires Covers(gs, ts)
    ensures Covers(gs + [MarketGroup(MarketKey(t), [t])], ts + [t])
  {
    var ts' := ts + [t];
    var r := gs + [MarketGroup(MarketKey(t), [t])];
    forall j | 0 <= j < |ts'| ensures FindGroup(r, MarketKey(ts'[j])).Some? {
      if j < |ts| {
        assert ts'[j] == ts[j];
        var m := FindGroup(gs, MarketKey(ts[j])).value;
        assert r[m].market == MarketKey(ts'[j]);
      } else {
        assert r[|gs|].market == MarketKey(t);
      }
    }
  }

  lemma InsertGrouped(gs: seq<MarketGroup>, ts: seq<Trade>, t: Trade)
    requires Grouped(gs, ts)
    ensures Grouped(Insert(gs, t), ts + [t])
  {
    match FindGroup(gs, MarketKey(t))
    case Some(i) => InsertExisting(gs, ts, t, i);
    case None => InsertFresh(gs, ts, t);
  }

  /** A key no trade has filters to nothing. */
  lemma {:induction false} FilterByKeyAbsent(ts: seq<Trade>, key: string)
    requires forall j :: 0 <= j < |ts| ==> MarketKey(ts[j]) != key
    ensures FilterByKey(ts, key) == []
  {
    if |ts| > 0 {
      FilterByKeyAbsent(ts[..|ts| - 1], key);
    }
  }

  /** The grouping keeps its promise: distinct markets, each group exactly
      its market's trades in list order, no empty group, no trade left out. */
  lemma {:induction false} GroupByMarketGrouped(ts: seq<Trade>)
    ensures Grouped(GroupByMarket(ts), ts)
  {
    if |ts| > 0 {
      var p := ts[..|ts| - 1];
      var last := ts[|ts| - 1];
      assert p + [last] == ts;
      assert GroupByMarket(ts) == Insert(GroupByMarket(p), last);
      GroupByMarketGrouped(p);
      InsertGrouped(GroupByMarket(p), p, last);
    }
  }

  /** Group sizes, summed. */
  function GroupsSize(gs: seq<MarketGroup>): nat {
    if |gs| == 0 then 0 else GroupsSize(gs[..|gs| - 1]) + |gs[|gs| - 1].trades|
  }

  /** Group profits, summed. */
  function GroupsProfit(gs: seq<MarketGroup>): real {
    if |gs| == 0 then 0.0 else GroupsProfit(gs[..|gs| - 1]) + SumProfit(gs[|gs| - 1].trades)
  }

  lemma GroupsUpdate(gs: seq<MarketGroup>, i: nat, g: MarketGroup)
    requires i < |gs|
    ensures GroupsSize(gs[i := g]) == GroupsSize(gs) - |gs[i].trades| + |g.trades|
    ensures GroupsProfit(gs[i := g]) == GroupsProfit(gs) - SumProfit(gs[i].trades) + SumProfit(g.trades)
  {
    GroupsSizeUpdate(gs, i, g);
    GroupsProfitUpdate(gs, i, g);
  }

  lemma {:induction false} GroupsSizeUpdate(gs: seq<MarketGroup>, i: nat, g: MarketGroup)
    requires i < |gs|
    ensures GroupsSize(gs[i := g]) == GroupsSize(gs) - |gs[i].trades| + |g.trades|
  {
    var n := |gs|;
    if i == n - 1 {
      assert gs[i := g][..n - 1] == gs[..n - 1];
    } else {
      assert gs[i := g][..n - 1] == gs[..n - 1][i := g];
      GroupsSizeUpdate(gs[..n - 1], i, g);
    }
  }

  lemma {:induction false} GroupsProfitUpdate(gs: seq<MarketGroup>, i: nat, g: MarketGroup)
    requires i < |gs|
    ensures GroupsProfit(gs[i := g]) == GroupsProfit(gs) - SumProfit(gs[i].trades) + SumProfit(g.trades)
  {
    var n := |gs|;
    if i == n - 1 {
      assert gs[i := g][..n - 1] == gs[..n - 1];
    } else {
      assert gs[i := g][..n - 1] == gs[..n - 1][i := g];
      GroupsProfitUpdate(gs[..n - 1], i, g);
    }
  }

  lemma SumProfitSnoc(ts: seq<Trade>, t: Trade)
    ensures SumProfit(ts + [t]) == SumProfit(ts) + t.profit
  {
    assert (ts + [t])[..|ts|] == ts;
  }

  lemma InsertTotals(gs: seq<MarketGroup>, t: Trade)
    ensures GroupsSize(Insert(gs, t)) == GroupsSize(gs) + 1
    ensures GroupsProfit(Insert(gs, t)) == GroupsProfit(gs) + t.profit
  {
    var key := MarketKey(t);
    match FindGroup(gs, key)
    case Some(i) =>
      GroupsUpdate(gs, i, MarketGroup(key, gs[i].trades + [t]));
      SumProfitSnoc(gs[i].trades, t);
    case None =>
      var r := gs + [MarketGroup(key, [t])];
      assert r[..|gs|] == gs;
      assert [t][..0] == [];
      assert SumProfit([t]) == t.profit;
      assert GroupsProfit(r) == GroupsProfit(gs) + SumProfit([t]);
  }

  /** No trade is counted twice: group sizes add up to the number of trades
      and group profits to the total profit. */
  lemma {:induction false} GroupTotals(ts: seq<Trade>)
    ensures GroupsSize(GroupByMarket(ts)) == |ts|
    ensures GroupsProfit(GroupByMarket(ts)) == SumProfit(ts)
  {
    if |ts| > 0 {
      GroupTotals(ts[..|ts| - 1]);
      InsertTotals(GroupByMarket(ts[..|ts| - 1]), ts[|ts| - 1]);
    }
  }

  /** A market's win rate over its own trades; groups are never empty. */
  function MarketWinRate(g: MarketGroup): (rate: real)
    requires |g.trades| > 0
    ensures 0.0 <= rate <= 100.0
    ensures rate == 100.0 <==> CountWins(g.trades) == |g.trades|
  {
    CountWins(g.trades) as real / |g.trades| as real * 100.0
  }

  // ---------------------------------------------------------------------------
  // Best and worst market

  /** The reduce starting from `{ market: 'None', profit: -Infinity }` with a
      strict comparison: the first market of greatest profit, none for no
      markets. */
  function BestMarket(gs: seq<MarketGroup>): (r: Option<nat>)
    ensures r.None? <==> |gs| == 0
    ensures r.Some? ==> r.value < |gs|
    ensures r.Some? ==> forall j :: 0 <= j < |gs| ==> SumProfit(gs[j].trades) <= SumProfit(gs[r.value].trades)
    ensures r.Some? ==> forall j :: 0 <= j < r.value ==> SumProfit(gs[j].trades) < SumProfit(gs[r.value].trades)
  {
    if |gs| == 0 then None
    else
      var best := BestMarket(gs[..|gs| - 1]);
      if best.None? || SumProfit(gs[|gs| - 1].trades) > SumProfit(gs[best.value].trades) then Some(|gs| - 1)
      else best
  }

  /** The symmetric reduce from `+Infinity`: the first market of least profit. */
  function WorstMarket(gs: seq<MarketGroup>): (r: Option<nat>)
    ensures r.None? <==> |gs| == 0
    ensures r.Some? ==> r.value < |gs|
    ensures r.Some? ==> forall j :: 0 <= j < |gs| ==> SumProfit(gs[r.value].trades) <= SumProfit(gs[j].trades)
    ensures r.Some? ==> forall j :: 0 <= j < r.value ==> SumProfit(gs[r.value].trades) < SumProfit(gs[j].trades)
  {
    if |gs| == 0 then None
    else
      var worst := WorstMarket(gs[..|gs| - 1]);
      if worst.None? || SumProfit(gs[|gs| - 1].trades) < SumProfit(gs[worst.value].trades) then Some(|gs| - 1)
      else worst
  }

  /** With a single market, it is both the best and the worst. */
  lemma SingleMarketBestAndWorst(gs: seq<MarketGroup>)
    requires |gs| == 1
    ensures BestMarket(gs) == WorstMarket(gs) == Some(0)
  {
  }

  // ---------------------------------------------------------------------------
  // Table rows

  /** The shown rows: the first twenty trades. */
  function ShownRows(ts: seq<Trade>): (rows: seq<Trade>)
    ensures |rows| == Min(|ts|, MaxRows)
    ensures forall i :: 0 <= i < |rows| ==> rows[i] == ts[i]
  {
    Take(ts, MaxRows)
  }

  /** A row's market chip is primary when the market contains `UP`; the page
      throws when a trade has no market, which `None` stands for. */
  function RowChipPrimary(t: Trade): (r: Option<bool>)
    ensures r.None? <==> t.market.None?
    ensures r.Some? ==> (r.value <==> Contains(t.market.value, "UP"))
  {
    match t.market
    case None => None
    case Some(m) => Some(Contains(m, "UP"))
  }

  /** A row reads WIN when the profit is not negative. */
  predicate RowIsWin(t: Trade) {
    t.profit >= 0.0
  }

  /** A break-even trade reads WIN in the table, and is neither a win nor a
      loss in the headline counts. */
  lemma BreakEvenRow(t: Trade)
    requires t.profit == 0.0
    ensures RowIsWin(t) && CountWins([t]) == 0 && CountLosses([t]) == 0
  {
    assert [t][..0] == [];
  }

  // ---------------------------------------------------------------------------
  // The page

  datatype HistoryView =
    | Spinner
    | Page(
        totalTrades: int,
        totalProfit: real,
        wins: nat,
        losses: nat,
        winRate: real,
        averageTrade: Option<real>,
        rows: seq<Trade>,
        shownCount: nat,
        groups: seq<MarketGroup>,
        best: Option<MarketGroup>,
        worst: Option<MarketGroup>)

  /** The page: a spinner while loading; otherwise the statistics, the rows,
      the groups, and the best and worst market only when there are trades. */
  function Render(isLoading: bool, h: Option<History>): (v: HistoryView)
    ensures isLoading <==> v.Spinner?
    ensures v.Page? ==> v.shownCount == |v.rows| <= MaxRows
    ensures v.Page? ==> (v.best.Some? <==> |TradesOf(h)| > 0) && (v.worst.Some? <==> |TradesOf(h)| > 0)
  {
    if isLoading then Spinner
    else
      var ts := TradesOf(h);
      var total := TotalOf(h);
      var gs := GroupByMarket(ts);
      var wins := CountWins(ts);
      GroupTotals(ts);
      var best := if |ts| > 0 then (var i := BestMarket(gs); if i.Some? then Some(gs[i.value]) else None) else None;
      var worst := if |ts| > 0 then (var i := WorstMarket(gs); if i.Some? then Some(gs[i.value]) else None) else None;
      Page(total, SumProfit(ts), wins, CountLosses(ts), WinRate(wins, total), AverageTrade(SumProfit(ts), total),
        ShownRows(ts), Min(|ts|, MaxRows), gs, best, worst)
  }

  /** The best market shown is one of the groups, and no group made more. */
  lemma BestMarketIsAGroup(h: Option<History>)
    requires |TradesOf(h)| > 0
    ensures var v := Render(false, h);
      v.best.value in v.groups && forall i :: 0 <= i < |v.groups| ==> SumProfit(v.groups[i].trades) <= SumProfit(v.best.value.trades)
  {
  }
}

=== FILE: websocket.dfy ===
/** The socket context shared by the dashboard pages: connection state, the
    latest pushed market snapshot and bot status, and the helpers it hands
    out. */
module WebSocket {
  import opened Common
  import opened Records
  import Countdown

  /** What the context holds. `socketPresent` is false until the socket is
      created on mount. */
  datatype Context = Context(
    socketPresent: bool,
    connected: bool,
    marketData: Option<MarketSnapshot>,
    botStatus: Option<StatusRecord>,
    lastUpdate: Option<string>)

  const Initial: Context := Context(false, false, None, None, None)

  /** What the socket delivers. `MarketsUpdate` carries the ISO time of
      arrival, which the context records as the last update. */
  datatype SocketEvent =
    | Created
    | Connect
    | MarketsUpdate(snapshot: MarketSnapshot, arrivedIso: string)
    | BotStatus(status: StatusRecord)
    | Disconnect
    | ConnectError

  /** One socket event: each touches only its own part of the context. */
  function OnEvent(c: Context, e: SocketEvent): (r: Context)
    ensures e.Connect? ==> r == c.(connected := true)
    ensures e.Disconnect? || e.ConnectError? ==> r == c.(connected := false)
    ensures e.MarketsUpdate? ==> r == c.(marketData := Some(e.snapshot), lastUpdate := Some(e.arrivedIso))
    ensures e.BotStatus? ==> r == c.(botStatus := Some(e.status))
    ensures e.Created? ==> r == c.(socketPresent := true)
  {
    match e
    case Created => c.(socketPresent := true)
    case Connect => c.(connected := true)
    case MarketsUpdate(d, t) => c.(marketData := Some(d), lastUpdate := Some(t))
    case BotStatus(d) => c.(botStatus := Some(d))
    case Disconnect => c.(connected := false)
    case ConnectError => c.(connected := false)
  }

  /** The context after a run of events, applied in order. Nothing the
      context has learnt is ever forgotten: the socket, once created, stays,
      and a snapshot or status, once received, is only ever replaced. */
  function Replay(c: Context, es: seq<SocketEvent>): (r: Context)
    ensures c.socketPresent ==> r.socketPresent
    ensures c.marketData.Some? ==> r.marketData.Some?
    ensures c.lastUpdate.Some? ==> r.lastUpdate.Some?
    ensures c.botStatus.Some? ==> r.botStatus.Some?
    decreases |es|
  {
    if |es| == 0 then c else Replay(OnEvent(c, es[0]), es[1..])
  }

  /** Replaying two runs one after the other is replaying their
      concatenation. */
  lemma {:induction false} ReplayAppend(c: Context, a: seq<SocketEvent>, b: seq<SocketEvent>)
    ensures Replay(c, a + b) == Replay(Replay(c, a), b)
    decreases |a|
  {
    if |a| > 0 {
      assert (a + b)[0] == a[0];
      assert (a + b)[1..] == a[1..] + b;
      ReplayAppend(OnEvent(c, a[0]), a[1..], b);
    } else {
      assert a + b == b;
    }
  }

  /** A snapshot and its arrival time stay in the context until the next
      snapshot arrives, whatever else the socket delivers meanwhile. */
  lemma {:induction false} ReplayKeepsLatest(c: Context, es: seq<SocketEvent>, d: MarketSnapshot, t: string)
    requires forall i :: 0 <= i < |es| ==> !es[i].MarketsUpdate?
    ensures Replay(c.(marketData := Some(d), lastUpdate := Some(t)), es).marketData == Some(d)
    ensures Replay(c.(marketData := Some(d), lastUpdate := Some(t)), es).lastUpdate == Some(t)
    decreases |es|
  {
    if |es| > 0 {
      var c1 := OnEvent(c.(marketData := Some(d), lastUpdate := Some(t)), es[0]);
      assert c1 == OnEvent(c, es[0]).(marketData := Some(d), lastUpdate := Some(t));
      ReplayKeepsLatest(OnEvent(c, es[0]), es[1..], d, t);
    }
  }

  /** Connection events alone never lose data, and leave the context
      connected exactly when the last of them was a connect. */
  lemma {:induction false} ConnectionEventsKeepData(c: Context, es: seq<SocketEvent>)
    requires forall i :: 0 <= i < |es| ==> es[i].Connect? || es[i].Disconnect? || es[i].ConnectError?
    ensures Replay(c, es).marketData == c.marketData && Replay(c, es).botStatus == c.botStatus
    ensures |es| > 0 ==> (Replay(c, es).connected <==> es[|es| - 1].Connect?)
    decreases |es|
  {
    if |es| > 0 {
      ConnectionEventsKeepData(OnEvent(c, es[0]), es[1..]);
      if |es| > 1 {
        assert es[1..][|es[1..]| - 1] == es[|es| - 1];
      }
    }
  }

  /** The result of `getMarketBySymbol`: `null` without a market list,
      `undefined` when no market matches. */
  datatype Lookup = NoList | NotFound | Found(q: Quote)

  /** The first market whose symbol is exactly `symbol`. */
  function FindSymbol(markets: seq<Quote>, symbol: string): (r: Option<nat>)
    ensures r.None? <==> forall i :: 0 <= i < |markets| ==> markets[i].symbol != symbol
    ensures r.Some? ==> r.value < |markets| && markets[r.value].symbol == symbol
    ensures r.Some? ==> forall i :: 0 <= i < r.value ==> markets[i].symbol != symbol
  {
    if |markets| == 0 then None
    else if markets[0].symbol == symbol then Some(0)
    else
      var rest := FindSymbol(markets[1..], symbol);
      assert forall i :: 1 <= i < |markets| ==> markets[i] == markets[1..][i - 1];
      if rest.None? then None else Some(rest.value + 1)
  }

  function MarketBySymbol(c: Context, symbol: string): (r: Lookup)
    ensures r.NoList? <==> c.marketData.None? || c.marketData.value.markets.None?
    ensures r.Found? ==> r.q.symbol == symbol && r.q in c.marketData.value.markets.value
  {
    match c.marketData
    case None => NoList
    case Some(d) =>
      match d.markets
      case None => NoList
      case Some(ms) =>
        var i := FindSymbol(ms, symbol);
        if i.None? then NotFound else Found(ms[i.value])
  }

  /** A symbol is found exactly when some listed market carries it, and the
      match is the first one. */
  lemma MarketBySymbolComplete(ms: seq<Quote>, symbol: string, d: MarketSnapshot, c: Context)
    requires c.marketData == Some(d) && d.markets == Some(ms)
    ensures MarketBySymbol(c, symbol).Found? <==> exists i :: 0 <= i < |ms| && ms[i].symbol == symbol
    ensures MarketBySymbol(c, symbol).Found? ==>
      exists i :: 0 <= i < |ms| && ms[i] == MarketBySymbol(c, symbol).q && forall j :: 0 <= j < i ==> ms[j].symbol != symbol
  {
    var i := FindSymbol(ms, symbol);
    if i.Some? {
      assert ms[i.value] == MarketBySymbol(c, symbol).q;
    }
  }

  /** `getTimeRemaining`: a period end of zero counts as missing. */
  function TimeRemaining(c: Context, now: int): (r: string)
    ensures c.marketData.None? || c.marketData.value.periodEnd.None? || c.marketData.value.periodEnd == Some(0) ==> r == "--:--"
    ensures c.marketData.Some? && c.marketData.value.periodEnd.Some? && c.marketData.value.periodEnd.value != 0 ==>
      r == Countdown.WsTimeRemaining(c.marketData.value.periodEnd, now)
  {
    var end := match c.marketData
      case None => None
      case Some(d) => if d.periodEnd == Some(0) then None else d.periodEnd;
    Countdown.WsTimeRemaining(end, now)
  }

  /** The requests `refreshData` sends: both, in order, when there is a
      connected socket, and none otherwise. */
  function RefreshRequests(c: Context): (r: seq<string>)
    ensures |r| > 0 <==> c.socketPresent && c.connected
    ensures |r| > 0 ==> r == ["request:markets", "request:status"]
  {
    if c.socketPresent && c.connected then ["request:markets", "request:status"] else []
  }

  /** Right after a disconnect, a refresh sends nothing. */
  lemma NoRefreshAfterDisconnect(c: Context, e: SocketEvent)
    requires e.Disconnect? || e.ConnectError?
    ensures RefreshRequests(OnEvent(c, e)) == []
  {
  }
}
